=== FILE: README.md ===
# videojs-vmap-clickyab ad scheduler, modelled in Dafny

The plugin reads a VMAP 1.0 manifest for the content that is playing. It
turns each `AdBreak`'s `timeOffset` into seconds, puts the breaks in the
order it will play them, and then drives the player. Content ticks fire
midrolls, `readyforpreroll` fires the preroll, and `contentended` fires the
postroll. For each break it asks the VAST library for the creatives and
plays their linear ads one after another, with a skip button. When the
break is over it hands the player back to the content.

This project models that core as pure functions. It is split into one
module per concern:

- `Text` (text.dfy): digit runs, `String(n)` for naturals, `split`/`join`,
  and JavaScript's code-unit string order.
- `JsNumber` (js_number.dfy): `parseInt` on a number, and `Math.ceil`.
- `TimeOffset` (time_offset.dfy): `parseTimeOffset`, with the sentinels
  0 (start), -1 (end) and -100 (unreadable).
- `Schedule` (schedule.dfy): the ordering part of `vmapCallback`. It
  builds `sortedOffset`, `adBreaks` and `adBreaksTimeArray`.
- `Url` (url.dfy): the `segments` and `params` fields of `parseURL`, and
  `mergeURL`.
- `Runner` (runner.dfy): the playlist `playVastAds` builds, the media tag
  of an entry, and the skip button's eligibility (video `adTimeupdate`,
  image `countdown`, the click guard).
- `Session` (session.dfy): the controller as a state machine. There is one
  record for the closure variables and one function per handler. `Step`
  dispatches the player events to the handlers registered for them.

Each handler returns an `Outcome`: the new record, plus the calls it makes
on the player and the foreign libraries, in order. Examples are a seek,
play, pause, a creative fetch, or a `TrackBreakError`. A `TypeError` that
ends a handler in the source is the effect `Fault`. The record then keeps
whatever the handler assigned before the throw.

Player readings are parameters: `currentTime()`, `duration()` (already
through `parseInt`, so a natural number), the parsed VMAP and VAST
documents, and the protocol the browser resolves a tag URI to. Timers are
events: one run of any running image countdown interval is `CountdownFired`.
The intervals, the tracker's skip delay and the skip button belong to the
session, not to the ad that started them, because the source keeps them in
`window.sId`, `player.vastTracker` and `player.clickyabAdScheduler`.

Where the plugin's documented behaviour and its code differ, the model
follows the code. These behaviours of the code may surprise a reader:

- A clock offset's fraction is read as a whole number of milliseconds, so
  "0:1:30.5" is 90.005 seconds (`TimeOffset.ExampleClock`).
- Midrolls are sorted by the decimal string of their manifest index, not by
  offset (`Schedule.ExampleMidrollsFollowIndices`, `Schedule.ExampleLexicographicSort`).
- An image ad with a skip delay of n seconds, counted down by its own
  interval alone, becomes skippable on the interval's (n+1)-th run
  (`Runner.ImageEnablesAfter`).
- Countdown intervals outlive their ad. One left running by an earlier ad
  keeps lowering the delay of whatever ad plays next, video ads included
  (`Session.LeftoverIntervalShortensDelay`, `Session.SecondImageDoublesCountdown`).
- A first video ad whose creative has no skip delay registers no countdown,
  so it is never skippable (`Session.UnsetDelayNeverEnables`). After an
  earlier video ad with a delay, the leftover `adtimeupdate` handler
  enables it at the skip time (`Session.LeftoverListenerEnables`).
- The end of an ad reads the click-through blocker's `parentNode`, but the
  blocker only exists once some ad had a click-through. Until then every
  ad end throws, and the player stays in ad mode
  (`Session.NoBlockerStuck`).
- Listeners are counted: `on` adds a copy on every call and `off` removes
  them all. The manifest and the end of the preroll each add a tick
  listener, so each arms the postroll and it is fetched twice
  (`Session.PostrollFetchedTwice`).
- A skipped image ad's `play` runs on a 1 ms timer, after the end of the
  break has been handled, so skipping an image postroll restarts the
  content (`Session.SkippedImagePostrollPlays`).

## Model

| member | source | states |
|---|---|---|
| TimeOffset.ParseTimeOffset | src/videojs-vmap-clickyab.js:95-128 | "start" at index 0 gives 0. The result is -1 exactly for "end" that does not start with "start". The result is -100 exactly when the text is in none of the five recognised forms, or is "#k" with k = 0 or k greater than the number of breaks. Every other result is non-negative. |
| TimeOffset.PercentOffset | src/videojs-vmap-clickyab.js:102-104 | A digit run followed by '%' resolves to (n / 100) * contentLength, whatever follows. Nothing caps n at 100. |
| TimeOffset.ClockOffset | src/videojs-vmap-clickyab.js:105-111 | "h:m:s" resolves to h*3600 + m*60 + s seconds. |
| TimeOffset.ClockMillisOffset | src/videojs-vmap-clickyab.js:105-111 | "h:m:s.f" adds f/1000 seconds, where f is the fourth digit run read as an integer. |
| TimeOffset.ClockTailOffset | src/videojs-vmap-clickyab.js:105-111 | "h:m:s" followed by any text that does not start with a digit resolves to h*3600 + m*60 + s, plus f/1000 exactly when the text after the seconds holds exactly one more digit run f (four runs in all). So "0:1:30 x7" gains 0.007 s and "0:1:30.5.7" gains nothing. |
| TimeOffset.PositionOffset | src/videojs-vmap-clickyab.js:112-121 | "#k" is ((k / breakCount) / 100) * contentLength for 1 <= k <= breakCount. For k = 0 or k > breakCount it is -100. |
| TimeOffset.ZeroLengthCollidesWithStart | src/videojs-vmap-clickyab.js:102-121 | With a content length of 0, every percentage and every valid "#k" resolves to 0, the preroll sentinel. |
| TimeOffset.ParseFormat | src/videojs-vmap-clickyab.js:95-128 | Round trip against an independent syntax of VMAP offsets. Parsing the text of any start, end, percent, clock (with or without fraction) or ordinal expression gives that expression's meaning. |
| TimeOffset.ExampleClock | src/videojs-vmap-clickyab.js:105-111 | "0:1:30.5" is 90.005 seconds. |
| TimeOffset.ExamplePercent | src/videojs-vmap-clickyab.js:102-104 | "50%" of 120 seconds is 60 seconds. |
| TimeOffset.ExamplePositions | src/videojs-vmap-clickyab.js:112-121 | Of four breaks over 100 s, "#1" is 0.25 and "#4" is 1.0. "#0" and "#5" are -100. |
| JsNumber.Trunc | src/videojs-vmap-clickyab.js:842 | `parseInt` of a number is the integer nearest to it in the direction of zero. |
| JsNumber.Ceil | src/videojs-vmap-clickyab.js:862 | `Math.ceil` is the least integer not below its argument. |
| Text.DecimalRoundTrip | src/videojs-vmap-clickyab.js:304 | Reading back the decimal string of a natural gives the natural. |
| Text.LexLessTransitive | src/videojs-vmap-clickyab.js:304 | The code-unit string order that `sort()` uses is transitive. |
| Text.JoinSplit | src/videojs-vmap-clickyab.js:150 | Joining the pieces of `split(c)` with c gives the text back. |
| Text.SplitJoin | src/videojs-vmap-clickyab.js:167 | Splitting a join of pieces that do not contain c gives the pieces back. |
| Schedule.LastIndexOf | src/videojs-vmap-clickyab.js:283-288 | The remembered start (or end) index holds that sentinel, and no later break holds it. It is absent exactly when no break holds it. |
| Schedule.OffsetsClassified | src/videojs-vmap-clickyab.js:280-282 | Each manifest break gets the offset `parseTimeOffset` gives its text against the manifest size. It is -100 exactly when the text is in no recognised form, and -1 exactly when it reads "end" and not "start". Every other offset is non-negative. |
| Schedule.KeptMidrolls | src/videojs-vmap-clickyab.js:283-297 | The pushed indices are in range and strictly increasing. An index is pushed exactly when its offset is a valid midroll that the resume policy keeps. |
| Schedule.InsertByDecimal | src/videojs-vmap-clickyab.js:304 | Inserting into a list sorted by decimal string keeps it sorted, and adds exactly the new element to the multiset. |
| Schedule.SortByDecimal | src/videojs-vmap-clickyab.js:304 | The result is a permutation of the input, sorted by decimal string. |
| Schedule.SortedPermutationUnique | src/videojs-vmap-clickyab.js:304 | Two lists sorted by decimal string that are permutations of each other are equal. So whatever algorithm the engine's `sort()` uses, the result is `SortByDecimal`. |
| Schedule.ExampleLexicographicSort | src/videojs-vmap-clickyab.js:304 | `[2, 10].sort()` is `[10, 2]`. |
| Schedule.Assemble | src/videojs-vmap-clickyab.js:280-326 | Each scheduled entry is a manifest break with its resolved offset. The time array matches the break list index by index. `nopreroll` (or `nopostroll`) is signalled exactly when no break resolved to 0 (or -1). |
| Schedule.OrderParts | src/videojs-vmap-clickyab.js:304-314 | `sortedOffset` is the last start index, then the sorted kept midrolls, then the last end index. |
| Schedule.AssembleNoInvalid | src/videojs-vmap-clickyab.js:283 | No break with offset -100 is scheduled. |
| Schedule.AssemblePreroll | src/videojs-vmap-clickyab.js:305-309 | If there is a preroll, it is scheduled first and is the last "start" break of the manifest. No other entry has offset 0. |
| Schedule.AssemblePostroll | src/videojs-vmap-clickyab.js:310-314 | If there is a postroll, it is scheduled last and is the last "end" break of the manifest. No other entry has offset -1. |
| Schedule.AssembleMidrolls | src/videojs-vmap-clickyab.js:291-314 | The entries between the preroll and the postroll are the kept midrolls, sorted by the decimal string of their manifest index. |
| Schedule.ScheduledBreaks | src/videojs-vmap-clickyab.js:280-314 | A manifest break is scheduled exactly when it is the last preroll, the last postroll, or a midroll the resume policy keeps. So the last preroll and the last postroll are scheduled whatever the resume policy. |
| Schedule.ExampleOffsets | src/videojs-vmap-clickyab.js:280-282 | [end, 50%, start, 25%] over 100 s resolves to [-1, 50, 0, 25]. |
| Schedule.ExampleMidrollsFollowIndices | src/videojs-vmap-clickyab.js:280-326 | That manifest is scheduled as indices [2, 1, 3, 0], with times [0, 50, 25, -1]. |
| Schedule.ExampleResumeDropsEarlyMidroll | src/videojs-vmap-clickyab.js:291-295 | With start offset 40 and `resumeSkipMidroll`, the midroll at 25 is dropped and the one at 50 is kept. |
| Schedule.ExampleResumeKeepsMidrolls | src/videojs-vmap-clickyab.js:291-295 | Without `resumeSkipMidroll`, both midrolls are kept. |
| Url.DropLeading | src/videojs-vmap-clickyab.js:150 | One leading separator is removed if present, and nothing else changes. |
| Url.Segments | src/videojs-vmap-clickyab.js:167 | There is at least one segment, and no segment contains '/'. |
| Url.DirectoryPrefix | src/videojs-vmap-clickyab.js:182-186 | The relative path starts and ends with '/'. |
| Url.DirectoryOfPathname | src/videojs-vmap-clickyab.js:181-187 | The directory prefix followed by the last segment gives back the request's pathname. |
| Url.MergeUrlPathRelative | src/videojs-vmap-clickyab.js:177-201 | A path-relative tag is merged to the request's origin, then the request's pathname up to and including its last '/', then the tag. That directory followed by the last segment gives back the pathname. |
| Url.MergeUrlRelative | src/videojs-vmap-clickyab.js:179-197 | A relative tag's merged URL starts with the request's origin and ends with the tag text. |
| Url.BindingWithoutValue | src/videojs-vmap-clickyab.js:158-159 | A piece without '=' binds itself to `undefined`. |
| Url.BindingWithValue | src/videojs-vmap-clickyab.js:158-159 | "k=v" binds k to v. |
| Url.LastBinding | src/videojs-vmap-clickyab.js:148-162 | A key has no binding exactly when no non-empty piece has it as its key. |
| Url.Params | src/videojs-vmap-clickyab.js:148-162 | The map has exactly the keys of the non-empty pieces. Each key maps to the value of the last piece with that key. |
| Url.ExampleQuery | src/videojs-vmap-clickyab.js:148-162 | "?uid=1&&cid" splits into "uid=1", "" and "cid". These bind uid to "1" and cid to `undefined`. |
| Url.ExampleMergeRelative | src/videojs-vmap-clickyab.js:177-201 | "t.xml" next to "http://a.io/v/m.xml" becomes "http://a.io/v/t.xml". |
| Url.ExampleMergeRootRelative | src/videojs-vmap-clickyab.js:177-201 | "/t.xml" becomes "http://a.io/t.xml", with no ':' when there is no port. |
| Runner.Playlist | src/videojs-vmap-clickyab.js:376-425 | The nested loops build the reference playlist `Entries`. |
| Runner.AdEntriesMembers | src/videojs-vmap-clickyab.js:383-424 | An ad's entries are exactly its linear creatives. |
| Runner.EntriesMembers | src/videojs-vmap-clickyab.js:381-425 | The playlist holds exactly the linear creatives of all ads, each with the ad it came from. Non-linear, companion and other creatives are left out. |
| Runner.EntriesAppend | src/videojs-vmap-clickyab.js:381-425 | The playlist keeps document order, ads first and creatives second. |
| Runner.EntryTag | src/videojs-vmap-clickyab.js:747 | An entry has no tag exactly when its creative has no media file. It is mp4 exactly when the first media file is "video/mp4". |
| Runner.MaxDelay | src/videojs-vmap-clickyab.js:861 | The larger of the configured skip time and the creative's delay. |
| Runner.VideoTick | src/videojs-vmap-clickyab.js:858-873 | The button becomes enabled exactly once the position reaches both delays. " enabled" is appended at most once. While counting down, the label shows the whole seconds left, rounded up. |
| Runner.Countdown | src/videojs-vmap-clickyab.js:841-856 | On a numeric delay, a run enables exactly when the delay is below 1. Otherwise the delay drops to one less than its integer part, which is non-negative and below the old delay. |
| Runner.IntervalTick | src/videojs-vmap-clickyab.js:841-856 | A run of any countdown interval, on whatever tracker and button are current, takes the enabling (and clearing) branch exactly when the delay is a number below 1. The button is then enabled exactly when it was already or this run enables it. A numeric delay otherwise drops to a non-negative value below the old one. A `null` or `NaN` delay becomes `NaN`. The media tag, visibility and the listeners registered for the ad are untouched. |
| Runner.AdTick | src/videojs-vmap-clickyab.js:858-877 | A video `adtimeupdate` on any tracker: a `NaN` delay enables at once, a `null` delay is enabled exactly once the position reaches both 0 and the skip time, and a numeric delay exactly once the position reaches both that delay and the skip time. The delay, tag and visibility are untouched. |
| Runner.ImageTick | src/videojs-vmap-clickyab.js:841-856 | On an ad's own running interval alone, a run enables exactly when the delay read is below 1, and enabling stops the interval. |
| Runner.ImageEnablesAfter | src/videojs-vmap-clickyab.js:841-856 | With its own interval as the only one running, an image ad with a whole skip delay of n is enabled after k runs exactly when k >= n + 1. |
| Runner.VideoEnablesAt | src/videojs-vmap-clickyab.js:858-887 | A video ad with a skip delay is enabled at position t exactly when t reaches both the delay and the skip time. |
| Runner.ClickNeedsEnablingTick | src/videojs-vmap-clickyab.js:766-779 | Over any run of video ticks, a click skips exactly when the button was enabled before, or some tick reached both delays. So no click skips before the first tick that enables the button. |
| Session.ResetIdempotent | src/videojs-vmap-clickyab.js:73-82 | Resetting twice is resetting once. |
| Session.Ended | src/videojs-vmap-clickyab.js:363-365 | `ended` applies every deferred update and leaves none waiting. It issues one manifest request per deferred update when a URL is configured. |
| Session.EndedAppliesDeferred | src/videojs-vmap-clickyab.js:360-369 | Applying n updates one after another is one reset with n manifest requests, which is what `Ended` does. |
| Session.DeferredUpdateApplied | src/videojs-vmap-clickyab.js:360-369 | A content update during an ad is not lost. The next `ended` performs exactly what the update would have done. |
| Session.ForceOffsetStallsAtOffset | src/videojs-vmap-clickyab.js:219-233 | A player exactly at the offset neither seeks nor stops the poll. |
| Session.PlayArmsPollOnce | src/videojs-vmap-clickyab.js:242-259 | Applying the start offset seeks once. The first `play` starts polling with the offset still pending, and a second `play` changes nothing. |
| Session.StartOffsetHeldUntilPassed | src/videojs-vmap-clickyab.js:219-233 | Over any sequence of polls, polling stops exactly when some poll reads a position past the offset. Until then the session is unchanged, and once it stops the offset is cleared. The only effects are seeks to the offset. |
| Session.PollsSettle | src/videojs-vmap-clickyab.js:219-233 | Polls after the first one past the offset change nothing: the outcome of all the polls is the outcome of those up to it. |
| Session.VmapCallback | src/videojs-vmap-clickyab.js:262-343 | An absent or empty manifest only applies the start offset and signals ready. Otherwise the break list is replaced, and the new times are appended to the old time array. The request is recorded and one more copy of the tick listener is registered. The cursor and ad mode are untouched. |
| Session.VmapCallbackSignals | src/videojs-vmap-clickyab.js:305-342 | `nopreroll` (or `nopostroll`) is signalled exactly when the schedule has no preroll (or postroll). `adsready` is always the last signal. |
| Session.VmapAfterResetAligned | src/videojs-vmap-clickyab.js:262-343 | A manifest arriving on a freshly reset session leaves the time array aligned with the break list. |
| Session.TimeUpdateHandle | src/videojs-vmap-clickyab.js:946-993 | One run of one copy. Does nothing in ad mode or past the schedule, and never moves the schedule or the cursor. It issues a creative fetch exactly when a requestable break is due, and then ad mode is on. A due break or the postroll removes every copy of the tick listener. Offset -1 registers one more postroll handler. |
| Session.OnTimeUpdate | src/videojs-vmap-clickyab.js:946-993 | A `timeupdate` with no tick listener does nothing. With n copies, the outcome is that of the first copy, except that at the postroll each copy registers its own postroll handler. |
| Session.SettledTicks | src/videojs-vmap-clickyab.js:946-993 | Once the start offset is applied and a due break or the postroll has removed the tick listeners, each further copy of the tick handler issues nothing, and at the postroll only registers one more postroll handler. |
| Session.TickArmsPostrollPerListener | src/videojs-vmap-clickyab.js:983-990 | At the postroll, one `timeupdate` registers as many postroll handlers as there were tick listeners, and removes all tick listeners. |
| Session.NoDoubleFire | src/videojs-vmap-clickyab.js:966-981 | Once a tick has fired a break, no later tick fires anything. |
| Session.NoEarlyFire | src/videojs-vmap-clickyab.js:962 | A tick at or before the break's offset fetches nothing. |
| Session.PrerollRequestsPreroll | src/videojs-vmap-clickyab.js:1000-1019 | On a reset session, `readyforpreroll` after a manifest with a preroll requests exactly that preroll, the last manifest break reading "start": it enters ad mode and fetches that break's creatives. |
| Session.ContentEnded | src/videojs-vmap-clickyab.js:1026-1045 | With no postroll handler, `contentended` does nothing. With n copies, every copy runs: the session is that of one run, which removes all tick listeners and postroll handlers, and its effects come n times over. |
| Session.PostrollRunsRepeat | src/videojs-vmap-clickyab.js:1026-1045 | n copies of the postroll handler end in the state one run leaves, with that run's effects n times over: a second copy finds the same break at the cursor. |
| Session.PostrollFetchedPerListener | src/videojs-vmap-clickyab.js:1026-1045 | With n postroll handlers and a requestable break at the cursor, `contentended` fetches that break exactly n times and enters ad mode. |
| Session.PostrollArmedOnlyByTick | src/videojs-vmap-clickyab.js:946-993 | Over every event, starting with no postroll handler, only a content tick (`timeupdate` or `contentplayback`) registers one, and only when the break at the cursor has offset -1. |
| Session.PostrollFetchedOnce | src/videojs-vmap-clickyab.js:1026-1045 | Once the postroll handlers have run, no later `contentended` fetches anything, whatever events come in between, until a content tick registers one again. |
| Session.StartPlayAd | src/videojs-vmap-clickyab.js:571-895 | Enters ad mode in every case, including the throw at line 622 for an entry without media. It never moves the cursor or the schedule, never removes a postroll handler, and never stops a running countdown interval. |
| Session.VastCallback | src/videojs-vmap-clickyab.js:919-939 | A `null` document pauses and then throws, changing nothing. Any other document pauses and starts linear ad mode first. No document changes the schedule, arms or disarms the postroll, or stops a countdown interval. |
| Session.VastCallbackAdvances | src/videojs-vmap-clickyab.js:937-938 | The cursor moves on by exactly one, unless the handler throws. |
| Session.VastCallbackStartsFirstAd | src/videojs-vmap-clickyab.js:905-908 | A document with a playable first entry starts that entry, and does not throw. |
| Session.BreakOrigin | src/videojs-vmap-clickyab.js:431-436 | The first break, while a start offset is pending, returns to that offset wherever the player stood when the document arrived. Every other break returns to where the player stood. |
| Session.VastCallbackEmptyBreak | src/videojs-vmap-clickyab.js:901-907 | A document with no linear creative leaves ad mode and the run as they were. It throws exactly at cursor 0 (or past the schedule). Otherwise it reports the error of the break before the cursor, exactly when that break is tracked, and of no other break. |
| Session.NextOrEndAd | src/videojs-vmap-clickyab.js:491-526 | With no ad running, an ad end does nothing. While no ad has installed the click-through blocker, it throws at line 508 after removing its listeners: no ad is left running and nothing else changes. Otherwise it plays the next entry of the same playlist, or ends the break after the last one. It never moves the cursor or the schedule, never changes the postroll handlers, and never stops a countdown interval. |
| Session.AdvanceRun | src/videojs-vmap-clickyab.js:513-525 | After the last entry the content resumes (`startPlayContent`); otherwise the next entry of the same playlist starts. |
| Session.NextAdAdvancesByOne | src/videojs-vmap-clickyab.js:491-526 | Without a blocker, an ad end throws and leaves no ad running. With one, each ad end moves to the next entry of the same playlist, one at a time. If that entry has no media, the handler throws and no ad is left running. In both throwing cases later ad ends do nothing. |
| Session.NoBlockerStuck | src/videojs-vmap-clickyab.js:500-510 | While no ad has had a click-through, an ad end throws: ad mode stays on, linear ad mode never ends, the content is not played, and later ad ends do nothing. |
| Session.NextOrEndAdCorrected | src/videojs-vmap-clickyab.js:491-526 | Corrected handler: it moves on whether or not a blocker exists, and is the handler as written whenever one does. |
| Session.BreakEndsCorrected | src/videojs-vmap-clickyab.js:508-521 | Corrected, the end of a break's last ad always leaves ad mode and ends linear ad mode first, and never throws. |
| Session.SkipClicked | src/videojs-vmap-clickyab.js:766-822 | A click does nothing unless an ad runs and its button is shown and enabled. Otherwise it skips first, and the session ends as an ad end would leave it. For an image, the deferred `play` is the very last effect. |
| Session.SkippedImagePostrollPlays | src/videojs-vmap-clickyab.js:804-822 | Skipping the last image ad of the postroll seeks back to the origin and pauses, but the deferred `play` then starts the content again. Without a blocker the end of the ad throws, and the deferred `play` still runs. |
| Session.HiddenButtonNeverSkips | src/videojs-vmap-clickyab.js:762-779 | An ad started with skipping disallowed, or with a skip delay of exactly 0, can never be skipped by a click, whatever ad ticks and countdown runs follow. |
| Session.CountdownTick | src/videojs-vmap-clickyab.js:841-856 | With no countdown interval running, nothing changes. Otherwise a run acts on the last ad started, whatever its type and whether it still plays. Only the interval whose id is in `window.sId` can be cleared, and only by taking the enabling branch. Nothing but the tracker, the button and that interval changes. |
| Session.UnsetDelayNeverEnables | src/videojs-vmap-clickyab.js:880-887 | A first video ad without a skip delay is never enabled by `adtimeupdate`. |
| Session.LeftoverListenerEnables | src/videojs-vmap-clickyab.js:858-887 | After an earlier video ad with a delay, a delay-less video ad is enabled exactly when its position reaches both the skip time and 0. |
| Session.LeftoverIntervalShortensDelay | src/videojs-vmap-clickyab.js:841-875 | A countdown interval left running by an earlier ad lowers the next video ad's delay d >= 1 to one less than its integer part in one run. That ad is then enabled exactly once its position reaches both the skip time and that shorter delay. |
| Session.SecondImageDoublesCountdown | src/videojs-vmap-clickyab.js:875 | An image ad with a skip delay that starts while the previous interval still runs leaves at least two intervals running, and the older one can no longer be cleared. |
| Session.IntervalsOutliveAds | src/videojs-vmap-clickyab.js:841-875 | Over every event, an interval that lost its id is never stopped, and only a countdown run stops one, at most one per run. |
| Session.TwoManifestsMisalign | src/videojs-vmap-clickyab.js:321-326 | Two manifests after one reset leave a time array twice as long as the break list. |
| Session.EmptyFirstBreakStuck | src/videojs-vmap-clickyab.js:901-907 | An empty preroll document throws. Ad mode stays on, the cursor stays on the preroll, and linear ad mode never ends. |
| Session.VmapCallbackReplacing | src/videojs-vmap-clickyab.js:321-326 | Corrected handler: the time array is the new schedule's, and the result is otherwise the handler as written. |
| Session.VmapReplacingAligned | src/videojs-vmap-clickyab.js:321-326 | With the corrected handler, every manifest leaves an aligned session. |
| Session.VastCallbackCorrected | src/videojs-vmap-clickyab.js:901-907 | Corrected handler: identical to the handler as written for a non-empty document. |
| Session.EmptyBreakCorrected | src/videojs-vmap-clickyab.js:901-907 | Corrected, an empty break never throws and advances the cursor by one. It reports its own break's error exactly when that break is tracked, and leaves ad mode. |
| Session.AdTimeUpdateCorrected | src/videojs-vmap-clickyab.js:880-887 | Corrected handler: it acts for every playing video ad, with or without a skip delay, and then as the handler as written does; it never acts for an image ad. |
| Session.CountdownTickCorrected | src/videojs-vmap-clickyab.js:841-856 | Corrected handler: a run acts only on the playing image ad's own running interval with a numeric delay, as one run of that interval alone. Otherwise nothing changes. |
| Session.VideoAdIgnoresIntervalsCorrected | src/videojs-vmap-clickyab.js:841-875 | Corrected, no countdown run touches a video ad. Its delay stays the creative's, and it is enabled exactly when its position reaches both that delay and the skip time. |
| Session.ImageAdOwnCountdownCorrected | src/videojs-vmap-clickyab.js:841-875 | Corrected, an image ad with a whole delay of n is counted down by its own interval alone, one second per run. |
| Session.UnsetDelayEnablesAtSkipTimeCorrected | src/videojs-vmap-clickyab.js:858-887 | Corrected, a video ad without a skip delay takes the delay as 0: whatever played before it, its button is enabled exactly once the position reaches the larger of `skipTime` and 0. |
| Session.StepKeepsSchedule | src/videojs-vmap-clickyab.js:1064-1066 | Only a manifest, a content update, or `ended` (which applies deferred updates) touches the break list and the time array. |
| Session.StepKeepsAligned | src/videojs-vmap-clickyab.js:1064-1066 | Alignment survives every event, provided a manifest arrives only on a reset session. |
| Session.StepCursor | src/videojs-vmap-clickyab.js:1064-1066 | Only a creative document moves the cursor, and only by one. Only a content update or `ended` resets it to 0. |
| Session.ContentPlaybackBypassesListener | src/videojs-vmap-clickyab.js:1064-1066 | `contentplayback` runs the tick handler directly, so a due midroll fires even after every tick listener was removed, when `timeupdate` does nothing. |
| Session.PrerollRun | src/videojs-vmap-clickyab.js:1000-1019 | For a preroll-and-postroll schedule: the preroll is fetched, then its one ad plays. If that ad, or an earlier one, had a click-through, its end resumes the content with the cursor on the postroll and one more tick listener (line 482). Otherwise its end throws and the player stays in ad mode. |
| Session.PostrollArmed | src/videojs-vmap-clickyab.js:983-990 | The next tick registers one postroll handler per tick listener, and `contentended` fetches the postroll once per handler: twice when there were two tick listeners. |
| Session.PostrollFetchedTwice | src/videojs-vmap-clickyab.js:335 | A manifest's tick listener, plus the one the end of the preroll adds, make `contentended` fetch the postroll twice. |
| Session.PostrollFetchedOnceAfterPrerollCorrected | src/videojs-vmap-clickyab.js:1026-1045 | With the corrected `contentended`, the same run fetches the postroll once. |
| Session.ContentEndedCorrected | src/videojs-vmap-clickyab.js:1026-1045 | Corrected handler: with any postroll handler it runs one copy, which leaves the session as the handler as written does, with at most one effect. |
| Session.PostrollFetchedOnceCorrected | src/videojs-vmap-clickyab.js:1026-1045 | Corrected, `contentended` requests the break at the cursor exactly once, however many handlers were registered. |
| Session.PostrollRun | src/videojs-vmap-clickyab.js:1026-1045 | If the postroll's ad, or an earlier one, had a click-through, after it the player seeks back to where the postroll started and pauses. Otherwise the end of the ad throws and the player stays in ad mode. |
| Runner.AdTickIdempotent | src/videojs-vmap-clickyab.js:858-873 | A second video handler run on the same `adtimeupdate` changes nothing more, so one event acts as one run however many handlers are registered. |

## Left out

- DOM work is not modelled: the overlay, domain title, skip button markup and labels' text, fullscreen exit, and click-through.
- Logging is not modelled.
- `parseURL`'s other fields (`file`, `hash`, `path`, `relative`) are left out. The browser's own URL resolution (protocol, host, port, pathname) is an input.
- The VMAP and VAST parsers and trackers are foreign libraries. Their output is an input, and their calls are effects.
- `updateLastAdBreak` is never registered, so it is left out.
- The `breakStart`/`breakEnd` tracker calls are left out. Their guard (`!= null` together with `=== 'undefined'`) can never hold, so they never run.
- `offTimeUpdateHandle` and the `hasPostroll` flag are left out. They depend on what `this` is bound to inside a player event handler, which is player code outside this file.
- `resetAdStatus` sets `requestUrl` to `{}`, but the model keeps the previous request. A wrapper break needs a schedule, and every schedule comes with a new request, so the difference is not observable.
- The 1-second delay on iOS before `forceOffset` is registered is a timer, and is left out.
- The image ad's duration timer and the media element setup are left out.
- Which of several running countdown intervals fires is not told apart: they all run the same code on the same tracker and button, so `CountdownFired` is one run of any of them. Only how many run, and whether the newest one still has its id in `window.sId`, is kept.
- The 1 ms timer before a skipped image ad's `play` always fires after the synchronous `adended` handling. No other event is modelled as arriving in between.
- A button hidden with `display: none` receives no clicks, so `SkipPressed` does nothing for it.
- `parseInt` of a `null` skip delay is `NaN`, which the countdown writes back. The tracker's delay is the datatype `Runner.Delay` with the values `Unset`, `Seconds` and `NotANumber`. No other `NaN` arithmetic is modelled.
- NaN durations are left out: `contentLength` is a natural number.
- The `contentLength !== undefined` and `adBreakSize !== undefined` tests are always true after `parseInt`, so they are dropped.
- JsNumber.Trunc: models `parseInt` on a number in plain decimal notation. Numbers that `String` writes in exponent form are left out.
- The settings setters (lines 1076-1160) are left out. Settings are fixed per session, except the start offset, which the handlers clear.
- Line 482 registers the tick listener inside `play().ready(...)`. The model registers it at once, as the player is ready by then.
- The `applyStartOffset` and `forceOffset` registrations stay flags. A second registration before the first has fired, possible only when several manifests carry a start offset, is not counted; its copies would repeat the same seek to the offset. The video `adtimeupdate` registration is a flag too, since that handler acts the same however many copies run (`Runner.AdTickIdempotent`).
- Whether the remaining copies of a handler run after one of them throws depends on the player's event dispatch. The model lets all copies run.
- A click-through is a flag on the creative: whether `resolveURLTemplates` gave a non-empty URL. The click itself, and the skip button left in the page after an ad end throws, are not modelled.
- Session.NextOrEndAd: promises the next entry, or the content after the last one, only once some ad had a click-through. Before that the source throws at line 508 (see Findings). Session.PrerollRun, Session.PostrollRun and Session.SkippedImagePostrollPlays are split the same way.
- Session.StepKeepsAligned: requires a manifest to arrive only on a reset session, because as written two manifests after one reset misalign (see Findings).

## Findings

| source | as written | input that shows it | evidently intended | confidence | as-written member | corrected member |
|---|---|---|---|---|---|---|
| src/videojs-vmap-clickyab.js:321-326 | Each manifest pushes its offsets onto `adBreaksTimeArray`, while `adBreaks` is replaced. | Two manifests arriving after one reset: two `contentupdate`s in a row, or two deferred updates applied by one `ended`. The same non-empty manifest twice leaves a time array twice as long as the break list. If the first holds only "start" and the second only "end", the time array is [0, -1] against the single postroll. After the postroll, `startPlayContent` then reads 0, so it resumes the content instead of seeking back and pausing. | The time array is rebuilt along with the break list, so the two stay aligned. | not executed | Session.TwoManifestsMisalign | Session.VmapReplacingAligned |
| src/videojs-vmap-clickyab.js:901-907 | A document without linear creatives reports the error on `adBreaks[currentAdBreak - 1]`, which is the previous break. At cursor 0 this throws before `currentAdBreak++`, and nothing ends linear ad mode. | A preroll whose VAST document holds only non-linear creatives. | Report the current break's error, move past it, and give the player back to the content. | not executed | Session.EmptyFirstBreakStuck | Session.EmptyBreakCorrected |
| src/videojs-vmap-clickyab.js:880-887 | The video `adtimeupdate` handler is registered only when the tracker's skip delay is not `null`. The handler itself takes the larger of `skipTime` and the delay, where a `null` delay counts as 0. | A first video ad whose creative has no skip offset, with `skipTime` 5. No handler is registered, so its button never becomes enabled. Only a leftover handler from an earlier video ad enables it, at 5 s. | Every video ad gets the handler, so a delay-less ad becomes skippable at `skipTime`, as the leftover handler already does. | not executed | Session.UnsetDelayNeverEnables | Session.UnsetDelayEnablesAtSkipTimeCorrected |
| src/videojs-vmap-clickyab.js:841-875 | Each image ad with a skip delay starts `window.sId = setInterval(countdown, 1000)`. Only a run that reads a delay below 1 clears it, and it clears only the id in `window.sId`. Ending the ad clears nothing, and every interval reads the current tracker and button. | An image ad with delay 10 ends early by its duration timer, then a video ad with delay 6 plays. One run of the leftover interval lowers the video ad's delay to 5, so with a skip time of at most 5 it becomes skippable at 5 s instead of 6 s. Two image ads in a row leave two intervals, and the older one is never cleared. | Each interval belongs to its image ad: it stops when that ad ends or enables its button, and never touches another ad. | not executed | Session.LeftoverIntervalShortensDelay | Session.VideoAdIgnoresIntervalsCorrected |
| src/videojs-vmap-clickyab.js:508 | `nextOrEndAd` reads `clickyabAdScheduler.blocker.parentNode`. The blocker is only assigned when an ad has a click-through (lines 690-707), and is never reset. | A preroll whose only ad has no click-through URL, and no earlier ad with one. At the end of the ad, `blocker` is undefined and the read throws. The content never resumes and the player stays in ad mode. | Remove the blocker only if there is one, then move to the next ad or back to the content. | not executed | Session.NoBlockerStuck | Session.BreakEndsCorrected |
| src/videojs-vmap-clickyab.js:983-990 | `on('timeupdate', timeUpdateHandle)` runs once per manifest (line 335) and again at the end of every non-postroll break (line 482). The player adds a copy on each call, and each copy registers its own postroll handler at the postroll. | A preroll and a postroll. After the preroll there are two tick listeners. The next tick registers two postroll handlers, and `contentended` fetches the postroll twice. | Each break is fetched once. | not executed | Session.PostrollFetchedTwice | Session.PostrollFetchedOnceAfterPrerollCorrected |

=== FILE: js_number.dfy ===
/** The two JavaScript number-to-integer conversions the scheduler uses on
    real values: `parseInt(x)` on a number (truncation toward zero) and
    `Math.ceil`. Dafny's `Floor` is the only primitive. */
module JsNumber {

  /** `parseInt(x, 10)` on a number written in plain decimal notation:
      drops the fractional part, rounding toward zero. */
  function Trunc(x: real): (n: int)
    ensures x >= 0.0 ==> n as real <= x < n as real + 1.0
    ensures x < 0.0 ==> n as real - 1.0 < x <= n as real
  {
    if x >= 0.0 then x.Floor else -((-x).Floor)
  }

  /** `Math.ceil(x)`: the least integer not below `x`. */
  function Ceil(x: real): (n: int)
    ensures x <= n as real < x + 1.0
  {
    -((-x).Floor)
  }

  /** `Math.ceil(x) <= 0` exactly when `x <= 0`. */
  lemma CeilNonPositive(x: real)
    ensures Ceil(x) <= 0 <==> x <= 0.0
  {
  }
}

=== FILE: runner.dfy ===
/** The ad side of a break, inside `playVastAds`
    (src/videojs-vmap-clickyab.js:376-911): the playlist built from a parsed
    VAST document, the media tag of each entry, and the skip button's
    countdowns. The VAST parser and tracker are foreign code; their output is
    taken as given. */
module Runner {
  import opened Wrappers
  import opened JsNumber

  /** `creative.type` as the VAST parser reports it. */
  datatype CreativeType = Linear | NonLinear | Companion | OtherType

  datatype MediaFile = MediaFile(mimeType: string, fileUrl: string)

  /** A creative; `skipDelay` is what the VAST tracker reads from its
      `skipoffset` (`null` when there is none), and `hasClickThrough` says
      whether the tracker has a click-through URL for it. */
  datatype Creative = Creative(kind: CreativeType, mediaFiles: seq<MediaFile>, skipDelay: Option<real>, hasClickThrough: bool)

  datatype VastAd = VastAd(creatives: seq<Creative>)

  datatype Vast = Vast(ads: seq<VastAd>)

  /** The two kinds of ad source the player tells apart. */
  datatype MediaTag = Mp4 | Image

  datatype Source = Source(tag: MediaTag, src: string)

  /** One `adPlayList` entry: `{src, creative, ad}`. */
  datatype Entry = Entry(sources: seq<Source>, creative: Creative, ad: VastAd)

  /** Lines 396-407: a media file is an mp4 source when its type is
      "video/mp4" and an image otherwise. */
  function Tag(m: MediaFile): (t: MediaTag)
    ensures t == Mp4 <==> m.mimeType == "video/mp4"
  {
    if m.mimeType == "video/mp4" then Mp4 else Image
  }

  /** The `adSource` array of a creative: one source per media file. */
  function Sources(c: Creative): (srcs: seq<Source>)
    ensures |srcs| == |c.mediaFiles|
    ensures forall i | 0 <= i < |srcs| ::
              srcs[i].src == c.mediaFiles[i].fileUrl && srcs[i].tag == Tag(c.mediaFiles[i])
  {
    seq(|c.mediaFiles|, i requires 0 <= i < |c.mediaFiles| =>
      Source(Tag(c.mediaFiles[i]), c.mediaFiles[i].fileUrl))
  }

  /** The entries one ad contributes: its linear creatives, in order. */
  function AdEntries(ad: VastAd, creatives: seq<Creative>): seq<Entry> {
    if |creatives| == 0 then []
    else
      var c := creatives[|creatives| - 1];
      AdEntries(ad, creatives[..|creatives| - 1])
      + (if c.kind == Linear then [Entry(Sources(c), c, ad)] else [])
  }

  /** Reference playlist: every ad's entries, ads in document order. */
  function Entries(ads: seq<VastAd>): seq<Entry> {
    if |ads| == 0 then []
    else Entries(ads[..|ads| - 1]) + AdEntries(ads[|ads| - 1], ads[|ads| - 1].creatives)
  }

  /** The two nested loops at lines 381-425. */
  method Playlist(vast: Vast) returns (list: seq<Entry>)
    ensures list == Entries(vast.ads)
  {
    list := [];
    var v := 0;
    while v < |vast.ads|
      invariant 0 <= v <= |vast.ads|
      invariant list == Entries(vast.ads[..v])
    {
      var ad := vast.ads[v];
      var i := 0;
      var before := list;
      while i < |ad.creatives|
        invariant 0 <= i <= |ad.creatives|
        invariant list == before + AdEntries(ad, ad.creatives[..i])
      {
        var creative := ad.creatives[i];
        assert ad.creatives[..i + 1][..i] == ad.creatives[..i];
        if creative.kind == Linear {
          list := list + [Entry(Sources(creative), creative, ad)];
        }
        i := i + 1;
      }
      assert ad.creatives[..|ad.creatives|] == ad.creatives;
      assert vast.ads[..v + 1][..v] == vast.ads[..v];
      v := v + 1;
    }
    assert vast.ads[..|vast.ads|] == vast.ads;
  }

  /** An ad's entries are exactly its linear creatives. */
  lemma {:induction false} AdEntriesMembers(ad: VastAd, creatives: seq<Creative>, e: Entry)
    ensures e in AdEntries(ad, creatives) <==>
              exists j | 0 <= j < |creatives| :: creatives[j].kind == Linear && e == Entry(Sources(creatives[j]), creatives[j], ad)
  {
    if |creatives| > 0 {
      var init := creatives[..|creatives| - 1];
      AdEntriesMembers(ad, init, e);
      var c := creatives[|creatives| - 1];
      if e in AdEntries(ad, init) {
        var j :| 0 <= j < |init| && init[j].kind == Linear && e == Entry(Sources(init[j]), init[j], ad);
        assert creatives[j] == init[j];
      }
      if exists j | 0 <= j < |creatives| :: creatives[j].kind == Linear && e == Entry(Sources(creatives[j]), creatives[j], ad) {
        var j :| 0 <= j < |creatives| && creatives[j].kind == Linear && e == Entry(Sources(creatives[j]), creatives[j], ad);
        if j < |init| {
          assert init[j] == creatives[j];
        }
      }
    }
  }

  /** The playlist holds only linear creatives, and every linear creative of
      every ad is in it, together with the ad it came from. */
  lemma {:induction false} EntriesMembers(ads: seq<VastAd>, e: Entry)
    ensures e in Entries(ads) <==>
              exists i, j | 0 <= i < |ads| && 0 <= j < |ads[i].creatives| ::
                ads[i].creatives[j].kind == Linear && e == Entry(Sources(ads[i].creatives[j]), ads[i].creatives[j], ads[i])
  {
    if |ads| > 0 {
      var init := ads[..|ads| - 1];
      var last := ads[|ads| - 1];
      EntriesMembers(init, e);
      AdEntriesMembers(last, last.creatives, e);
      if e in Entries(init) {
        var i, j :| 0 <= i < |init| && 0 <= j < |init[i].creatives| &&
                    init[i].creatives[j].kind == Linear && e == Entry(Sources(init[i].creatives[j]), init[i].creatives[j], init[i]);
        assert ads[i] == init[i];
      }
      if e in AdEntries(last, last.creatives) {
        var j :| 0 <= j < |last.creatives| && last.creatives[j].kind == Linear && e == Entry(Sources(last.creatives[j]), last.creatives[j], last);
        assert ads[|ads| - 1] == last;
      }
      if exists i, j | 0 <= i < |ads| && 0 <= j < |ads[i].creatives| ::
           ads[i].creatives[j].kind == Linear && e == Entry(Sources(ads[i].creatives[j]), ads[i].creatives[j], ads[i]) {
        var i, j :| 0 <= i < |ads| && 0 <= j < |ads[i].creatives| &&
                    ads[i].creatives[j].kind == Linear && e == Entry(Sources(ads[i].creatives[j]), ads[i].creatives[j], ads[i]);
        if i < |init| {
          assert init[i] == ads[i];
        }
      }
    }
  }

  /** Ad-then-creative order: the playlist of two documents' ads put together
      is the first playlist followed by the second. */
  lemma {:induction false} EntriesAppend(a: seq<VastAd>, b: seq<VastAd>)
    ensures Entries(a + b) == Entries(a) + Entries(b)
  {
    if |b| == 0 {
      assert a + b == a;
    } else {
      var init := b[..|b| - 1];
      EntriesAppend(a, init);
      assert (a + b)[..|a + b| - 1] == a + init;
      assert (a + b)[|a + b| - 1] == b[|b| - 1];
    }
  }

  /** `ado.src[0].type == "video/mp4"`: the first media file decides how the
      entry is played; an entry without media files has no tag (reading
      `src[0].type` throws). */
  function EntryTag(e: Entry): (t: Option<MediaTag>)
    ensures e.sources == Sources(e.creative) ==>
              && (t.None? <==> |e.creative.mediaFiles| == 0)
              && (t == Some(Mp4) <==> |e.creative.mediaFiles| > 0 && e.creative.mediaFiles[0].mimeType == "video/mp4")
  {
    if |e.sources| == 0 then None else Some(e.sources[0].tag)
  }

  /** The tracker's `skipDelay` as the countdowns read it: `null` when the
      creative has no skip offset, a number, or `NaN` once a countdown has
      run `parseInt` on `null` (and `NaN - 1` is `NaN` again). */
  datatype Delay = Unset | Seconds(value: real) | NotANumber

  /** The tracker's delay for a creative's skip offset. */
  function DelayOf(delay: Option<real>): Delay {
    if delay.Some? then Seconds(delay.value) else Unset
  }

  /** The skip button of an ad together with its tracker's delay, as far as
      eligibility goes. `marks` counts the " enabled" suffixes appended to
      the button's class name, so the click guard's test for the class
      "enabled" holds exactly when `marks > 0`. `delay` is the tracker's
      `skipDelay`, which the countdown interval rewrites. `listening` is the
      video `adtimeupdate` handler this ad registered, `countdown` the
      interval it started, while that interval still runs. */
  datatype Skip = Skip(
    tag: MediaTag,
    delay: Delay,
    hidden: bool,
    marks: nat,
    listening: bool,
    countdown: bool,
    remaining: Option<int>)  // the seconds the button last showed

  predicate Enabled(sk: Skip) {
    sk.marks > 0
  }

  /** Lines 762 and 800: the button is hidden when skipping is not allowed
      or the creative's skip delay is exactly 0. */
  predicate ButtonHidden(allowSkip: bool, delay: Option<real>) {
    !allowSkip || delay == Some(0.0)
  }

  /** The skip state right after `startPlayAd` (lines 762, 800, 880-886): a
      countdown is set up only when the tracker has a skip delay — a
      listener on `adtimeupdate` for a video, an interval for an image. */
  function StartSkip(tag: MediaTag, delay: Option<real>, allowSkip: bool): (sk: Skip)
    ensures !Enabled(sk) && sk.tag == tag && sk.delay == DelayOf(delay)
    ensures sk.hidden <==> ButtonHidden(allowSkip, delay)
    ensures sk.listening <==> delay.Some? && tag == Mp4
    ensures sk.countdown <==> delay.Some? && tag == Image
  {
    Skip(tag, DelayOf(delay), ButtonHidden(allowSkip, delay), 0, delay.Some? && tag == Mp4, delay.Some? && tag == Image, None)
  }

  /** The larger of the configured skip time and the creative's delay
      (`skipTime > skipDelay ? skipTime : skipDelay`). */
  function MaxDelay(skipTime: real, delay: real): (m: real)
    ensures m >= skipTime && m >= delay && (m == skipTime || m == delay)
  {
    if skipTime > delay then skipTime else delay
  }

  /** `adTimeupdate` for a video (lines 859-872) at ad position `t`. */
  function VideoTick(sk: Skip, delay: real, skipTime: real, t: real): (r: Skip)
    // the button becomes enabled exactly once the position reaches both delays
    ensures Enabled(r) <==> Enabled(sk) || t >= MaxDelay(skipTime, delay)
    // " enabled" is appended at most once
    ensures r.marks == if Enabled(sk) then sk.marks else if t >= MaxDelay(skipTime, delay) then 1 else 0
    // while counting down, the label shows the whole seconds left
    ensures t < MaxDelay(skipTime, delay) ==>
              r.remaining.Some? && (r.remaining.value - 1) as real < MaxDelay(skipTime, delay) - t <= r.remaining.value as real
    ensures r.delay == sk.delay && r.listening == sk.listening && r.countdown == sk.countdown
    ensures r.tag == sk.tag && r.hidden == sk.hidden
  {
    var timeLeft := Ceil(MaxDelay(skipTime, delay) - t);
    CeilNonPositive(MaxDelay(skipTime, delay) - t);
    if timeLeft > 0 then sk.(remaining := Some(timeLeft))
    else if !Enabled(sk) then sk.(marks := sk.marks + 1)
    else sk
  }

  /** One run of the image `countdown` interval (lines 841-856) on the
      tracker's delay: `parseInt` truncates it; below 1 the button is
      enabled, otherwise the delay drops by one. Returns the new delay and
      whether this tick enables. */
  function Countdown(delay: real): (r: (real, bool))
    ensures r.1 <==> delay < 1.0
    ensures r.1 ==> r.0 == delay
    ensures !r.1 ==> r.0 == (Trunc(delay) - 1) as real && r.0 < delay && r.0 >= 0.0
  {
    var count := Trunc(delay);
    if count < 1 then (delay, true) else ((count - 1) as real, false)
  }

  /** `adTimeupdate` for a video on whatever delay the tracker holds. A
      `null` delay counts as 0 in `>` and `-`. A `NaN` delay makes
      `timeLeft` NaN, which is not above 0, so the button is enabled at
      once. */
  function AdTick(sk: Skip, skipTime: real, t: real): (r: Skip)
    ensures sk.delay.NotANumber? ==> Enabled(r)
    ensures sk.delay.Unset? ==> (Enabled(r) <==> Enabled(sk) || t >= MaxDelay(skipTime, 0.0))
    ensures sk.delay.Seconds? ==> (Enabled(r) <==> Enabled(sk) || t >= MaxDelay(skipTime, sk.delay.value))
    ensures r.delay == sk.delay && r.tag == sk.tag && r.hidden == sk.hidden
  {
    match sk.delay
    case NotANumber => if Enabled(sk) then sk else sk.(marks := sk.marks + 1)
    case Unset => VideoTick(sk, 0.0, skipTime, t)
    case Seconds(d) => VideoTick(sk, d, skipTime, t)
  }

  /** A second copy of the handler run on the same `adtimeupdate` finds
      the button as the first left it and changes nothing more; so however
      many video ads registered a handler, one event acts as one run. */
  lemma AdTickIdempotent(sk: Skip, skipTime: real, t: real)
    ensures AdTick(AdTick(sk, skipTime, t), skipTime, t) == AdTick(sk, skipTime, t)
  {
  }

  /** One run of `countdown` (lines 841-856) on a tracker's delay and a
      button, whichever ad they belong to. The second component says whether
      the run took the enabling branch, which calls `clearInterval`. On a
      `null` or `NaN` delay `parseInt` gives NaN, which is never below 1, and
      the delay becomes NaN. */
  function IntervalTick(sk: Skip): (r: (Skip, bool))
    ensures r.1 <==> sk.delay.Seconds? && sk.delay.value < 1.0
    ensures Enabled(r.0) <==> Enabled(sk) || r.1
    ensures r.1 ==> r.0.delay == sk.delay && r.0.marks == sk.marks + 1
    ensures sk.delay.Seconds? && !r.1 ==>
              r.0.delay == Seconds((Trunc(sk.delay.value) - 1) as real) && 0.0 <= r.0.delay.value < sk.delay.value
    ensures !sk.delay.Seconds? ==> r.0.delay.NotANumber?
    ensures r.0.tag == sk.tag && r.0.hidden == sk.hidden && r.0.listening == sk.listening && r.0.countdown == sk.countdown
  {
    match sk.delay
    case Seconds(d) =>
      var (next, enable) := Countdown(d);
      if enable then (sk.(marks := sk.marks + 1), true)
      else (sk.(delay := Seconds(next), remaining := Some(next.Floor)), false)
    case _ => (sk.(delay := NotANumber), false)
  }

  /** A run of an ad's own interval, on that ad alone: enabling also clears
      the interval, so " enabled" is appended once. */
  function ImageTick(sk: Skip): (r: Skip)
    requires sk.countdown && sk.delay.Seconds?
    ensures Enabled(r) <==> Enabled(sk) || sk.delay.value < 1.0
    ensures r.countdown <==> sk.delay.value >= 1.0
    ensures r.marks <= sk.marks + 1 && r.delay.Seconds?
  {
    var (next, cleared) := IntervalTick(sk);
    if cleared then next.(countdown := false) else next
  }

  /** `k` runs of an ad's own interval, stopping once it is cleared. */
  function ImageTicks(sk: Skip, k: nat): (r: Skip)
    requires sk.delay.Seconds?
    ensures r.delay.Seconds?
    decreases k
  {
    if k == 0 || !sk.countdown then sk else ImageTicks(ImageTick(sk), k - 1)
  }

  /** An image ad with a whole skip delay of `n` seconds becomes skippable
      on its own interval's (n+1)-th run, not its n-th: the delay is counted
      down to 0 first and only a reading below 1 enables. */
  lemma {:induction false} ImageEnablesAfter(sk: Skip, n: nat, k: nat)
    requires sk.countdown && sk.delay == Seconds(n as real) && !Enabled(sk)
    ensures Enabled(ImageTicks(sk, k)) <==> k >= n + 1
    decreases k
  {
    if k > 0 {
      var next := ImageTick(sk);
      if n == 0 {
        assert Enabled(next) && !next.countdown;
        assert ImageTicks(sk, k) == next;
      } else {
        assert Trunc(n as real) == n;
        assert next.delay == Seconds((n - 1) as real) && next.countdown && !Enabled(next);
        ImageEnablesAfter(next, n - 1, k - 1);
      }
    }
  }

  /** A video ad with a skip delay becomes skippable once its position
      reaches both the creative's delay and the configured skip time. */
  lemma VideoEnablesAt(delay: real, skipTime: real, allowSkip: bool, t: real)
    ensures var sk := StartSkip(Mp4, Some(delay), allowSkip);
            Enabled(VideoTick(sk, delay, skipTime, t)) <==> t >= skipTime && t >= delay
  {
  }

  /** A click skips the ad only when the button is enabled (lines 769, 806). */
  function SkipClick(sk: Skip): (skipped: bool)
    ensures skipped <==> sk.marks > 0
  {
    Enabled(sk)
  }

  /** The button after `adTimeupdate` runs at the positions `ts`, in order. */
  function VideoTicks(sk: Skip, delay: real, skipTime: real, ts: seq<real>): Skip
    decreases |ts|
  {
    if |ts| == 0 then sk else VideoTicks(VideoTick(sk, delay, skipTime, ts[0]), delay, skipTime, ts[1..])
  }

  /** Over any run of video ticks, a click skips exactly when the button was
      already enabled or some tick reached both delays: no click skips
      before the first tick that enables the button. */
  lemma {:induction false} ClickNeedsEnablingTick(sk: Skip, delay: real, skipTime: real, ts: seq<real>)
    ensures SkipClick(VideoTicks(sk, delay, skipTime, ts))
            <==> Enabled(sk) || exists i | 0 <= i < |ts| :: ts[i] >= MaxDelay(skipTime, delay)
    decreases |ts|
  {
    if |ts| > 0 {
      var next := VideoTick(sk, delay, skipTime, ts[0]);
      ClickNeedsEnablingTick(next, delay, skipTime, ts[1..]);
      if exists i | 0 <= i < |ts[1..]| :: ts[1..][i] >= MaxDelay(skipTime, delay) {
        var i :| 0 <= i < |ts[1..]| && ts[1..][i] >= MaxDelay(skipTime, delay);
        assert ts[i + 1] >= MaxDelay(skipTime, delay);
      }
      if exists i | 0 <= i < |ts| :: ts[i] >= MaxDelay(skipTime, delay) {
        var i :| 0 <= i < |ts| && ts[i] >= MaxDelay(skipTime, delay);
        if i > 0 { assert ts[1..][i - 1] == ts[i]; }
      }
    }
  }
}

=== FILE: schedule.dfy ===
/** The ordering part of `vmapCallback` (src/videojs-vmap-clickyab.js:262-343):
    resolves every break's offset, keeps the last preroll and the last
    postroll, filters midrolls by the resume policy, sorts the midroll
    indices with JavaScript's default `sort()` and rebuilds the break list
    together with a parallel array of offsets. */
module Schedule {
  import opened Wrappers
  import opened Text
  import opened TimeOffset

  /** What the VMAP parser hands over for one break, besides its offset. */
  datatype Descriptor = Descriptor(
    isWrapper: bool,        // `isWrapper === true`
    hasInlineData: bool,    // `vastAdData !== undefined`
    adTagUri: string,       // `adTagURI` of a wrapper break
    adTagProtocol: string,  // protocol the browser resolves `adTagURI` to
    tracked: bool)          // `trackingEvent !== null`: a VMAP tracker is attached

  /** One `AdBreak` of the manifest with its raw `timeOffset` attribute. */
  datatype ManifestBreak = ManifestBreak(timeOffset: string, descriptor: Descriptor)

  /** A break after `parseTimeOffset` has replaced its `timeOffset`. */
  datatype AdBreak = AdBreak(offset: real, descriptor: Descriptor)

  /** `adBreaks` and `adBreaksTimeArray` after the rebuild, with the index
      array `sortedOffset` they were rebuilt from. */
  datatype Built = Built(
    order: seq<nat>,
    breaks: seq<AdBreak>,
    times: seq<real>,
    noPreroll: bool,
    noPostroll: bool)

  /** Every break's resolved offset, in manifest order. The number of breaks
      is the manifest's length. */
  function Offsets(manifest: seq<ManifestBreak>, contentLength: nat): (offsets: seq<real>)
    ensures |offsets| == |manifest|
  {
    seq(|manifest|, i requires 0 <= i < |manifest| =>
      ParseTimeOffset(manifest[i].timeOffset, |manifest|, contentLength))
  }

  /** Every manifest break resolves against the size of the whole manifest
      to the preroll (0), the postroll (-1), the invalid marker (-100), or a
      position of at least 0; it is invalid exactly when its text is not a
      recognised form. */
  lemma OffsetsClassified(manifest: seq<ManifestBreak>, contentLength: nat, i: nat)
    requires i < |manifest|
    ensures var o := Offsets(manifest, contentLength)[i];
            && o == ParseTimeOffset(manifest[i].timeOffset, |manifest|, contentLength)
            && (o == Invalid <==> !Recognised(manifest[i].timeOffset, |manifest|))
            && (o == End <==> !StartForm(manifest[i].timeOffset) && EndForm(manifest[i].timeOffset))
            && (o == Invalid || o == End || o >= 0.0)
  {
  }

  /** Neither the preroll nor the postroll sentinel, nor invalid
      (`timeOffset > -2`). */
  predicate IsMidroll(offset: real) {
    offset > -2.0 && offset != Start && offset != End
  }

  /** The resume policy: with a positive start offset and `resumeSkipMidroll`,
      a midroll before the start offset is never scheduled. */
  predicate DroppedOnResume(offset: real, startOffset: real, resumeSkipMidroll: bool) {
    startOffset > 0.0 && offset < startOffset && resumeSkipMidroll
  }

  predicate KeptMidroll(offset: real, startOffset: real, resumeSkipMidroll: bool) {
    IsMidroll(offset) && !DroppedOnResume(offset, startOffset, resumeSkipMidroll)
  }

  /** The index the loop leaves in `__startIndex` / `__endIndex`: a later
      break with the same sentinel overwrites an earlier one. */
  function LastIndexOf(offsets: seq<real>, v: real): (r: Option<nat>)
    ensures r.Some? ==> r.value < |offsets| && offsets[r.value] == v
    ensures r.Some? ==> forall j | r.value < j < |offsets| :: offsets[j] != v
    ensures r.None? <==> forall j | 0 <= j < |offsets| :: offsets[j] != v
  {
    if |offsets| == 0 then None
    else if offsets[|offsets| - 1] == v then Some(|offsets| - 1)
    else LastIndexOf(offsets[..|offsets| - 1], v)
  }

  /** The indices the loop pushes onto `sortedOffset`, in manifest order. */
  function KeptMidrolls(offsets: seq<real>, startOffset: real, resumeSkipMidroll: bool): (idx: seq<nat>)
    ensures forall k | 0 <= k < |idx| :: idx[k] < |offsets|
    ensures forall i | 0 <= i < |offsets| :: i in idx <==> KeptMidroll(offsets[i], startOffset, resumeSkipMidroll)
    ensures forall k, l | 0 <= k < l < |idx| :: idx[k] < idx[l]
  {
    if |offsets| == 0 then []
    else
      var n := |offsets| - 1;
      var prev := KeptMidrolls(offsets[..n], startOffset, resumeSkipMidroll);
      assert forall i | 0 <= i < n :: offsets[..n][i] == offsets[i];
      if KeptMidroll(offsets[n], startOffset, resumeSkipMidroll) then prev + [n] else prev
  }

  /** JavaScript's default comparison of two array elements: the elements'
      decimal strings in code-unit order. */
  predicate DecimalLe(a: nat, b: nat) {
    LexLe(Decimal(a), Decimal(b))
  }

  predicate SortedByDecimal(xs: seq<nat>) {
    forall i, j | 0 <= i < j < |xs| :: DecimalLe(xs[i], xs[j])
  }

  lemma DecimalLeTotal(a: nat, b: nat)
    ensures DecimalLe(a, b) || DecimalLe(b, a)
  {
    LexLessTotal(Decimal(a), Decimal(b));
  }

  lemma DecimalLeTransitive(a: nat, b: nat, c: nat)
    requires DecimalLe(a, b) && DecimalLe(b, c)
    ensures DecimalLe(a, c)
  {
    if Decimal(a) != Decimal(b) && Decimal(b) != Decimal(c) {
      LexLessTransitive(Decimal(a), Decimal(b), Decimal(c));
    }
  }

  lemma DecimalLeAntisymmetric(a: nat, b: nat)
    requires DecimalLe(a, b) && DecimalLe(b, a)
    ensures a == b
  {
    if Decimal(a) != Decimal(b) {
      LexLessAsymmetric(Decimal(a), Decimal(b));
    }
    DecimalInjective(a, b);
  }

  /** Inserts `x` before the first element it does not follow. */
  function InsertByDecimal(x: nat, xs: seq<nat>): (r: seq<nat>)
    requires SortedByDecimal(xs)
    ensures multiset(r) == multiset(xs) + multiset{x}
    ensures SortedByDecimal(r)
  {
    if |xs| == 0 then [x]
    else if DecimalLe(x, xs[0]) then
      HeadLeads(x, xs);
      SortedCons(x, xs);
      [x] + xs
    else
      DecimalLeTotal(x, xs[0]);
      var tail := InsertByDecimal(x, xs[1..]);
      InsertedTailFollows(x, xs, tail);
      SortedCons(xs[0], tail);
      assert multiset(xs) == multiset{xs[0]} + multiset(xs[1..]) by {
        assert xs == [xs[0]] + xs[1..];
      }
      [xs[0]] + tail
  }

  /** An element no later than the head of a sorted sequence is no later
      than any of its elements. */
  lemma HeadLeads(x: nat, xs: seq<nat>)
    requires SortedByDecimal(xs) && |xs| > 0 && DecimalLe(x, xs[0])
    ensures forall e | e in xs :: DecimalLe(x, e)
  {
    forall e | e in xs ensures DecimalLe(x, e) {
      var j :| 0 <= j < |xs| && xs[j] == e;
      if j > 0 {
        DecimalLeTransitive(x, xs[0], xs[j]);
      }
    }
  }

  /** After inserting a later `x` into the rest of a sorted sequence, the
      old head still comes first. */
  lemma InsertedTailFollows(x: nat, xs: seq<nat>, tail: seq<nat>)
    requires SortedByDecimal(xs) && |xs| > 0 && DecimalLe(xs[0], x)
    requires multiset(tail) == multiset(xs[1..]) + multiset{x}
    ensures forall e | e in tail :: DecimalLe(xs[0], e)
  {
    forall e | e in tail ensures DecimalLe(xs[0], e) {
      assert e in multiset(tail);
      if e != x {
        assert e in multiset(xs[1..]);
        var j :| 0 <= j < |xs[1..]| && xs[1..][j] == e;
        assert xs[j + 1] == e;
      }
    }
  }

  /** A head no later than every element of a sorted sequence keeps it
      sorted. */
  lemma SortedCons(h: nat, tail: seq<nat>)
    requires SortedByDecimal(tail)
    requires forall e | e in tail :: DecimalLe(h, e)
    ensures SortedByDecimal([h] + tail)
  {
    var r := [h] + tail;
    forall i, j | 0 <= i < j < |r| ensures DecimalLe(r[i], r[j]) {
      assert r[j] == tail[j - 1];
      if i > 0 {
        assert r[i] == tail[i - 1];
      } else {
        assert r[j] in tail;
      }
    }
  }

  /** `sortedOffset.sort()` with no comparator. */
  function SortByDecimal(xs: seq<nat>): (r: seq<nat>)
    ensures multiset(r) == multiset(xs)
    ensures SortedByDecimal(r)
  {
    if |xs| == 0 then []
    else
      assert xs == [xs[0]] + xs[1..];
      InsertByDecimal(xs[0], SortByDecimal(xs[1..]))
  }

  /** A sequence has only one ordering sorted by decimal string (the order
      is antisymmetric on numbers), so whatever algorithm the JavaScript
      engine uses, `sort()` on the midroll indices produces `SortByDecimal`. */
  lemma {:induction false} SortedPermutationUnique(a: seq<nat>, b: seq<nat>)
    requires multiset(a) == multiset(b)
    requires SortedByDecimal(a) && SortedByDecimal(b)
    ensures a == b
  {
    assert |a| == |multiset(a)| == |multiset(b)| == |b|;
    if |a| > 0 {
      SortedHeadIsLeast(a, b[0]);
      SortedHeadIsLeast(b, a[0]);
      DecimalLeAntisymmetric(a[0], b[0]);
      TailPermutation(a, b);
      SortedTail(a);
      SortedTail(b);
      SortedPermutationUnique(a[1..], b[1..]);
      assert a == [a[0]] + a[1..] && b == [b[0]] + b[1..];
    }
  }

  /** The head of a sorted sequence precedes every element. */
  lemma SortedHeadIsLeast(a: seq<nat>, x: nat)
    requires SortedByDecimal(a) && x in multiset(a)
    ensures DecimalLe(a[0], x)
  {
    var i :| 0 <= i < |a| && a[i] == x;
    if i == 0 {
      assert Decimal(a[0]) == Decimal(x);
    }
  }

  lemma SortedTail(a: seq<nat>)
    requires SortedByDecimal(a) && |a| > 0
    ensures SortedByDecimal(a[1..])
  {
    forall i, j | 0 <= i < j < |a[1..]| ensures DecimalLe(a[1..][i], a[1..][j]) {
      assert a[1..][i] == a[i + 1] && a[1..][j] == a[j + 1];
    }
  }

  lemma TailPermutation(a: seq<nat>, b: seq<nat>)
    requires multiset(a) == multiset(b) && |a| > 0 && |b| > 0 && a[0] == b[0]
    ensures multiset(a[1..]) == multiset(b[1..])
  {
    assert a == [a[0]] + a[1..];
    assert b == [b[0]] + b[1..];
    assert multiset(a) == multiset{a[0]} + multiset(a[1..]);
    assert multiset(b) == multiset{b[0]} + multiset(b[1..]);
    forall x ensures multiset(a[1..])[x] == multiset(b[1..])[x] {
      assert multiset(a)[x] == multiset{a[0]}[x] + multiset(a[1..])[x];
      assert multiset(b)[x] == multiset{b[0]}[x] + multiset(b[1..])[x];
    }
  }

  /** The optional index as a zero- or one-element sequence. */
  function AsSeq(o: Option<nat>): seq<nat> {
    if o.Some? then [o.value] else []
  }

  /** `sortedOffset` after the preroll is put first and the postroll last. */
  function ScheduleOrder(offsets: seq<real>, startOffset: real, resumeSkipMidroll: bool): seq<nat> {
    AsSeq(LastIndexOf(offsets, Start))
    + SortByDecimal(KeptMidrolls(offsets, startOffset, resumeSkipMidroll))
    + AsSeq(LastIndexOf(offsets, End))
  }

  /** The schedule `vmapCallback` builds from a non-empty manifest whose
      breaks resolved to `offsets`: every scheduled entry is a manifest break
      with its resolved offset, and the time array stays index-aligned with
      the break list. */
  function Assemble(manifest: seq<ManifestBreak>, offsets: seq<real>, startOffset: real, resumeSkipMidroll: bool): (b: Built)
    requires |offsets| == |manifest|
    ensures |b.breaks| == |b.times| == |b.order|
    ensures forall k | 0 <= k < |b.order| ::
              && b.order[k] < |manifest|
              && b.breaks[k] == AdBreak(offsets[b.order[k]], manifest[b.order[k]].descriptor)
              && b.times[k] == b.breaks[k].offset
    ensures b.noPreroll <==> forall i | 0 <= i < |offsets| :: offsets[i] != Start
    ensures b.noPostroll <==> forall i | 0 <= i < |offsets| :: offsets[i] != End
  {
    var order := ScheduleOrder(offsets, startOffset, resumeSkipMidroll);
    OrderEntries(offsets, startOffset, resumeSkipMidroll);
    Rebuild(manifest, offsets, order, LastIndexOf(offsets, Start).None?, LastIndexOf(offsets, End).None?)
  }

  /** Lines 321-326: `adBreaks[offset]` and its `timeOffset` for every index
      of `sortedOffset`. */
  function Rebuild(manifest: seq<ManifestBreak>, offsets: seq<real>, order: seq<nat>, noPreroll: bool, noPostroll: bool): (b: Built)
    requires |offsets| == |manifest|
    requires forall k | 0 <= k < |order| :: order[k] < |manifest|
    ensures b.order == order && b.noPreroll == noPreroll && b.noPostroll == noPostroll
    ensures |b.breaks| == |b.times| == |order|
    ensures forall k | 0 <= k < |order| ::
              b.breaks[k] == AdBreak(offsets[order[k]], manifest[order[k]].descriptor) && b.times[k] == b.breaks[k].offset
  {
    var breaks := seq(|order|, k requires 0 <= k < |order| =>
      AdBreak(offsets[order[k]], manifest[order[k]].descriptor));
    var times := seq(|breaks|, k requires 0 <= k < |breaks| => breaks[k].offset);
    Built(order, breaks, times, noPreroll, noPostroll)
  }

  /** Every sorted midroll index names a kept midroll. */
  lemma SortedMidrollKept(offsets: seq<real>, startOffset: real, resumeSkipMidroll: bool, x: nat)
    requires x in SortByDecimal(KeptMidrolls(offsets, startOffset, resumeSkipMidroll))
    ensures x < |offsets| && KeptMidroll(offsets[x], startOffset, resumeSkipMidroll)
  {
    var keep := KeptMidrolls(offsets, startOffset, resumeSkipMidroll);
    assert x in multiset(SortByDecimal(keep));
    assert x in multiset(keep);
    var j :| 0 <= j < |keep| && keep[j] == x;
  }

  /** What each entry of `sortedOffset` is after line 314: a valid index
      whose offset is not invalid, "start" only in first place and "end"
      only in last place. */
  lemma OrderEntries(offsets: seq<real>, startOffset: real, resumeSkipMidroll: bool)
    ensures var order := ScheduleOrder(offsets, startOffset, resumeSkipMidroll);
            forall k | 0 <= k < |order| ::
              && order[k] < |offsets|
              && offsets[order[k]] > -2.0
              && (k > 0 ==> offsets[order[k]] != Start)
              && (k < |order| - 1 ==> offsets[order[k]] != End)
  {
    var order := ScheduleOrder(offsets, startOffset, resumeSkipMidroll);
    forall k | 0 <= k < |order|
      ensures order[k] < |offsets| && offsets[order[k]] > -2.0
      ensures k > 0 ==> offsets[order[k]] != Start
      ensures k < |order| - 1 ==> offsets[order[k]] != End
    {
      OrderEntryAt(offsets, startOffset, resumeSkipMidroll, order, k);
    }
  }

  /** One entry of `OrderEntries`. */
  lemma OrderEntryAt(offsets: seq<real>, startOffset: real, resumeSkipMidroll: bool, order: seq<nat>, k: nat)
    requires order == ScheduleOrder(offsets, startOffset, resumeSkipMidroll)
    requires k < |order|
    ensures order[k] < |offsets| && offsets[order[k]] > -2.0
    ensures k > 0 ==> offsets[order[k]] != Start
    ensures k < |order| - 1 ==> offsets[order[k]] != End
  {
    var start := AsSeq(LastIndexOf(offsets, Start));
    var end := AsSeq(LastIndexOf(offsets, End));
    var mids := SortByDecimal(KeptMidrolls(offsets, startOffset, resumeSkipMidroll));
    assert order == start + mids + end;
    if k < |start| {
      assert order[k] == start[k] == LastIndexOf(offsets, Start).value;
    } else if k < |start| + |mids| {
      assert order[k] == mids[k - |start|];
      SortedMidrollKept(offsets, startOffset, resumeSkipMidroll, order[k]);
    } else {
      assert order[k] == end[k - |start| - |mids|] == LastIndexOf(offsets, End).value;
    }
  }

  lemma Concat3(a: seq<nat>, m: seq<nat>, e: seq<nat>)
    ensures (a + m + e)[|a|..|a + m + e| - |e|] == m
    ensures |a| > 0 ==> (a + m + e)[0] == a[0]
    ensures |e| > 0 ==> (a + m + e)[|a + m + e| - 1] == e[|e| - 1]
  {
  }

  /** The three parts of `sortedOffset`: the last "start" index first, the
      last "end" index last, the sorted kept midrolls between them. */
  lemma OrderParts(offsets: seq<real>, startOffset: real, resumeSkipMidroll: bool)
    ensures var order := ScheduleOrder(offsets, startOffset, resumeSkipMidroll);
            var pre := if LastIndexOf(offsets, Start).None? then 0 else 1;
            var post := if LastIndexOf(offsets, End).None? then 0 else 1;
            && pre + post <= |order|
            && (pre == 1 ==> order[0] == LastIndexOf(offsets, Start).value)
            && (post == 1 ==> order[|order| - 1] == LastIndexOf(offsets, End).value)
            && order[pre..|order| - post] == SortByDecimal(KeptMidrolls(offsets, startOffset, resumeSkipMidroll))
  {
    Concat3(AsSeq(LastIndexOf(offsets, Start)),
            SortByDecimal(KeptMidrolls(offsets, startOffset, resumeSkipMidroll)),
            AsSeq(LastIndexOf(offsets, End)));
  }

  /** No break whose offset could not be read is scheduled. */
  lemma AssembleNoInvalid(manifest: seq<ManifestBreak>, offsets: seq<real>, startOffset: real, resumeSkipMidroll: bool)
    requires |offsets| == |manifest|
    ensures var b := Assemble(manifest, offsets, startOffset, resumeSkipMidroll);
            forall k | 0 <= k < |b.times| :: b.times[k] > -2.0
  {
    OrderEntries(offsets, startOffset, resumeSkipMidroll);
  }

  /** The preroll, if the manifest has one, is scheduled first and is the
      last "start" break of the manifest; no other entry has offset 0. */
  lemma AssemblePreroll(manifest: seq<ManifestBreak>, offsets: seq<real>, startOffset: real, resumeSkipMidroll: bool)
    requires |offsets| == |manifest|
    ensures var b := Assemble(manifest, offsets, startOffset, resumeSkipMidroll);
            && (!b.noPreroll ==> |b.order| > 0 && b.times[0] == Start && b.order[0] == LastIndexOf(offsets, Start).value)
            && (forall k | 0 < k < |b.times| :: b.times[k] != Start)
  {
    OrderEntries(offsets, startOffset, resumeSkipMidroll);
    OrderParts(offsets, startOffset, resumeSkipMidroll);
  }

  /** The postroll, if the manifest has one, is scheduled last and is the
      last "end" break of the manifest; no other entry has offset -1. */
  lemma AssemblePostroll(manifest: seq<ManifestBreak>, offsets: seq<real>, startOffset: real, resumeSkipMidroll: bool)
    requires |offsets| == |manifest|
    ensures var b := Assemble(manifest, offsets, startOffset, resumeSkipMidroll);
            && (!b.noPostroll ==>
                  |b.order| > 0 && b.times[|b.times| - 1] == End && b.order[|b.order| - 1] == LastIndexOf(offsets, End).value)
            && (forall k | 0 <= k < |b.times| - 1 :: b.times[k] != End)
  {
    OrderEntries(offsets, startOffset, resumeSkipMidroll);
    OrderParts(offsets, startOffset, resumeSkipMidroll);
  }

  /** Between the preroll and the postroll come the kept midrolls, sorted by
      the decimal string of their manifest index. */
  lemma AssembleMidrolls(manifest: seq<ManifestBreak>, offsets: seq<real>, startOffset: real, resumeSkipMidroll: bool)
    requires |offsets| == |manifest|
    ensures var b := Assemble(manifest, offsets, startOffset, resumeSkipMidroll);
            var pre := if b.noPreroll then 0 else 1;
            var post := if b.noPostroll then 0 else 1;
            pre + post <= |b.order| &&
            b.order[pre..|b.order| - post] == SortByDecimal(KeptMidrolls(offsets, startOffset, resumeSkipMidroll))
  {
    OrderParts(offsets, startOffset, resumeSkipMidroll);
  }

  /** The schedule built from a manifest with the given content length. */
  function BuildSchedule(manifest: seq<ManifestBreak>, contentLength: nat, startOffset: real, resumeSkipMidroll: bool): Built {
    Assemble(manifest, Offsets(manifest, contentLength), startOffset, resumeSkipMidroll)
  }

  /** The plugin's default `sort()` orders indices as strings: index 10 comes
      before index 2. */
  lemma ExampleLexicographicSort()
    ensures SortByDecimal([2, 10]) == [10, 2]
  {
    assert Decimal(2) == "2";
    assert Decimal(10) == "10";
    assert LexLess("10", "2");
    var r := SortByDecimal([2, 10]);
    assert multiset(r) == multiset{2, 10};
    assert SortedByDecimal([10, 2]);
    assert multiset([10, 2]) == multiset{2, 10};
    SortedPermutationUnique(r, [10, 2]);
  }

  /** A manifest break is scheduled exactly when it is the last preroll, the
      last postroll, or a midroll the resume policy keeps. In particular the
      resume policy never removes the preroll or the postroll. */
  lemma ScheduledBreaks(manifest: seq<ManifestBreak>, offsets: seq<real>, startOffset: real, resumeSkipMidroll: bool, i: nat)
    requires |offsets| == |manifest| && i < |offsets|
    ensures i in Assemble(manifest, offsets, startOffset, resumeSkipMidroll).order
            <==> || LastIndexOf(offsets, Start) == Some(i)
                 || LastIndexOf(offsets, End) == Some(i)
                 || KeptMidroll(offsets[i], startOffset, resumeSkipMidroll)
  {
    var start := AsSeq(LastIndexOf(offsets, Start));
    var end := AsSeq(LastIndexOf(offsets, End));
    var keep := KeptMidrolls(offsets, startOffset, resumeSkipMidroll);
    var mids := SortByDecimal(keep);
    var order := Assemble(manifest, offsets, startOffset, resumeSkipMidroll).order;
    assert order == start + mids + end;
    assert i in order <==> i in start || i in mids || i in end;
    assert i in mids <==> i in multiset(mids);
    assert i in keep <==> i in multiset(keep);
  }

  /** The offsets of the manifest [end, 50%, start, 25%] over 100 seconds. */
  lemma ExampleOffsets(d: Descriptor)
    ensures Offsets([ManifestBreak("end", d), ManifestBreak("50%", d), ManifestBreak("start", d), ManifestBreak("25%", d)], 100)
            == [End, 50.0, Start, 25.0]
  {
    var m := [ManifestBreak("end", d), ManifestBreak("50%", d), ManifestBreak("start", d), ManifestBreak("25%", d)];
    ExampleSentinels();
    ExamplePercentOf100("50", '5', '0');
    assert "50" + "%" == "50%";
    assert ParseTimeOffset("50%", 4, 100) == 50.0;
    ExamplePercentOf100("25", '2', '5');
    assert "25" + "%" == "25%";
    assert ParseTimeOffset("25%", 4, 100) == 25.0;
    var o := Offsets(m, 100);
    assert o[0] == End && o[1] == 50.0 && o[2] == Start && o[3] == 25.0;
  }

  lemma ExampleSentinels()
    ensures ParseTimeOffset("end", 4, 100) == End && ParseTimeOffset("start", 4, 100) == Start
  {
    assert EndForm("end") && !StartForm("end");
    assert StartForm("start");
  }

  /** A two-digit percentage of 100 seconds is that many seconds. */
  lemma ExamplePercentOf100(n: string, a: char, b: char)
    requires n == [a, b] && IsDigit(a) && IsDigit(b)
    ensures ParseTimeOffset(n + "%", 4, 100) == (10 * DigitValue(a) + DigitValue(b)) as real
  {
    ParseTwoDigits(a, b);
    PercentOffset(n, "", 4, 100);
    assert n + "%" + "" == n + "%";
  }

  /** For [end, 50%, start, 25%] the midrolls keep manifest-index order, so
      the schedule runs 0, 50, 25, -1: the midrolls are not ordered by
      offset. */
  lemma ExampleMidrollsFollowIndices(d: Descriptor)
    ensures var b := BuildSchedule([ManifestBreak("end", d), ManifestBreak("50%", d), ManifestBreak("start", d), ManifestBreak("25%", d)], 100, 0.0, false);
            b.order == [2, 1, 3, 0] && b.times == [Start, 50.0, 25.0, End]
  {
    var m := [ManifestBreak("end", d), ManifestBreak("50%", d), ManifestBreak("start", d), ManifestBreak("25%", d)];
    ExampleOffsets(d);
    ExampleAssemble(m);
  }

  lemma ExampleAssemble(m: seq<ManifestBreak>)
    requires |m| == 4
    ensures var b := Assemble(m, [End, 50.0, Start, 25.0], 0.0, false);
            b.order == [2, 1, 3, 0] && b.times == [Start, 50.0, 25.0, End]
  {
    var offsets := [End, 50.0, Start, 25.0];
    ExampleOrder();
    var b := Assemble(m, offsets, 0.0, false);
    assert b.order == [2, 1, 3, 0];
    assert b.times[0] == offsets[2] && b.times[1] == offsets[1];
    assert b.times[2] == offsets[3] && b.times[3] == offsets[0];
  }

  lemma ExampleOrder()
    ensures ScheduleOrder([End, 50.0, Start, 25.0], 0.0, false) == [2, 1, 3, 0]
  {
    var offsets := [End, 50.0, Start, 25.0];
    ExampleEnds();
    ExampleKept();
    ExampleSortPair();
    assert AsSeq(Some(2)) == [2] && AsSeq(Some(0)) == [0];
    assert ScheduleOrder(offsets, 0.0, false) == [2] + [1, 3] + [0];
  }

  /** Indices 1 and 3 are already in decimal-string order. */
  lemma ExampleSortPair()
    ensures SortByDecimal([1, 3]) == [1, 3]
  {
    assert Decimal(1) == "1" && Decimal(3) == "3";
    assert LexLess("1", "3");
    assert SortedByDecimal([1, 3]);
    SortedPermutationUnique(SortByDecimal([1, 3]), [1, 3]);
  }

  lemma ExampleEnds()
    ensures LastIndexOf([End, 50.0, Start, 25.0], Start) == Some(2)
    ensures LastIndexOf([End, 50.0, Start, 25.0], End) == Some(0)
  {
    var offsets := [End, 50.0, Start, 25.0];
    assert offsets[..3] == [End, 50.0, Start];
    assert offsets[..3][..2] == [End, 50.0];
    assert offsets[..3][..2][..1] == [End];
    assert LastIndexOf([End], End) == Some(0);
  }

  lemma ExampleKept()
    ensures KeptMidrolls([End, 50.0, Start, 25.0], 0.0, false) == [1, 3]
  {
    var offsets := [End, 50.0, Start, 25.0];
    assert offsets[..3] == [End, 50.0, Start];
    assert offsets[..3][..2] == [End, 50.0];
    assert offsets[..3][..2][..1] == [End];
    assert KeptMidrolls([End], 0.0, false) == [];
    assert KeptMidrolls([End, 50.0], 0.0, false) == [1];
    assert KeptMidrolls([End, 50.0, Start], 0.0, false) == [1];
  }

  /** With a resume position of 40 seconds and `resumeSkipMidroll`, the
      midroll at 25 seconds is dropped, the one at 50 seconds stays, and so
      do the preroll and the postroll. */
  lemma ExampleResumeDropsEarlyMidroll()
    ensures KeptMidrolls([Start, 25.0, 50.0, End], 40.0, true) == [2]
  {
    var o1, o2, o3, o4 := [Start], [Start, 25.0], [Start, 25.0, 50.0], [Start, 25.0, 50.0, End];
    assert o4[..3] == o3 && o3[..2] == o2 && o2[..1] == o1 && o1[..0] == [];
    KeptStep(o1, 40.0, true);
    assert KeptMidrolls(o1, 40.0, true) == [];
    KeptStep(o2, 40.0, true);
    assert KeptMidrolls(o2, 40.0, true) == [];
    KeptStep(o3, 40.0, true);
    assert KeptMidrolls(o3, 40.0, true) == [2];
    KeptStep(o4, 40.0, true);
  }

  /** Without `resumeSkipMidroll` both midrolls stay. */
  lemma ExampleResumeKeepsMidrolls()
    ensures KeptMidrolls([Start, 25.0, 50.0, End], 40.0, false) == [1, 2]
  {
    ExampleKeptFour([Start, 25.0, 50.0, End]);
  }

  lemma ExampleKeptFour(o4: seq<real>)
    requires o4 == [Start, 25.0, 50.0, End]
    ensures KeptMidrolls(o4, 40.0, false) == [1, 2]
  {
    ExampleKeptThree(o4[..3]);
    KeptStep(o4, 40.0, false);
    assert !KeptMidroll(o4[3], 40.0, false);
  }

  lemma ExampleKeptThree(o3: seq<real>)
    requires o3 == [Start, 25.0, 50.0]
    ensures KeptMidrolls(o3, 40.0, false) == [1, 2]
  {
    ExampleKeptTwo(o3[..2]);
    KeptStep(o3, 40.0, false);
    assert KeptMidroll(o3[2], 40.0, false);
    AppendSecond(KeptMidrolls(o3[..2], 40.0, false));
  }

  lemma AppendSecond(prev: seq<nat>)
    requires prev == [1]
    ensures prev + [2] == [1, 2]
  {
  }

  lemma ExampleKeptTwo(o2: seq<real>)
    requires o2 == [Start, 25.0]
    ensures KeptMidrolls(o2, 40.0, false) == [1]
  {
    var o1 := o2[..1];
    KeptStep(o1, 40.0, false);
    assert o1[..0] == [];
    assert KeptMidrolls(o1, 40.0, false) == [];
    KeptStep(o2, 40.0, false);
    assert KeptMidroll(o2[1], 40.0, false);
    var k1: seq<nat> := [1];
    assert [] + k1 == k1;
  }

  /** One step of `KeptMidrolls`: the last index is appended when kept. */
  lemma KeptStep(offsets: seq<real>, startOffset: real, resumeSkipMidroll: bool)
    requires |offsets| > 0
    ensures var n := |offsets| - 1;
            KeptMidrolls(offsets, startOffset, resumeSkipMidroll)
            == KeptMidrolls(offsets[..n], startOffset, resumeSkipMidroll)
               + (if KeptMidroll(offsets[n], startOffset, resumeSkipMidroll) then [n] else [])
  {
  }
}

=== FILE: session.dfy ===
/** The content-side state machine of the scheduler and the break runner
    around it (src/videojs-vmap-clickyab.js:73-82, 219-369, 376-526,
    919-1045): one session record and one transition function per player
    event. Each transition returns the new record together with the calls it
    makes on the player and on the foreign libraries, in order.

    Player readings (`currentTime()`, `duration()`) and the parsed VMAP and
    VAST documents are parameters. A `TypeError` thrown by the source ends
    the handler: the record keeps what was assigned before the throw and the
    effects end with `Fault`. */
module Session {
  import opened Wrappers
  import opened TimeOffset
  import opened Schedule
  import opened Url
  import opened Runner
  import opened JsNumber

  /** The plugin settings that never change after start-up.
      `requestConfigured` is `settings.requestUrl !== undefined`. */
  datatype Settings = Settings(
    requestConfigured: bool,
    skipTime: real,
    allowSkip: bool,
    resumeSkipMidroll: bool)

  /** The closure state of one `playVastAds` call: the playlist, `adIndex`
      and the content position to return to. */
  datatype Run = Run(playlist: seq<Entry>, adIndex: nat, origin: real)

  /** The closure variables of the plugin and the listeners it holds on the
      player. The player's `on` and `one` add one handler per call, `off`
      removes every copy of a handler, and an event runs every copy that
      was registered when it fired; so a listener is a count, not a flag. */
  datatype Session = Session(
    settings: Settings,
    startOffset: real,      // `settings.startOffset`, cleared once applied
    request: Request,       // `requestUrl`
    breaks: seq<AdBreak>,   // `adBreaks`
    times: seq<real>,       // `adBreaksTimeArray`
    cursor: nat,            // `currentAdBreak`
    inAdMode: bool,         // `player.inAdMode`
    tickListeners: nat,     // copies of `timeUpdateHandle` registered on `timeupdate`
    postrollListeners: nat, // copies of `postrollHandle` waiting for `contentended`
    offsetArmed: bool,      // `applyStartOffset` waits for `play`
    forceOn: bool,          // `forceOffset` listens to `timeupdate`
    deferred: nat,          // content updates waiting for `ended`
    videoListener: bool,    // some video `adTimeupdate` was ever registered
    blockerSet: bool,       // `clickyabAdScheduler.blocker` was ever assigned
    skip: Option<Skip>,     // `vastTracker.skipDelay` and the skip button of the last ad started
    staleIntervals: nat,    // countdown intervals still running whose id `window.sId` lost
    newestInterval: bool,   // the countdown interval in `window.sId` still runs
    run: Option<Run>)

  /** How many countdown intervals are running. Each ad with a skip delay
      shown as an image starts one (line 875) and only the one whose id is
      still in `window.sId` is ever cleared (line 846), so intervals
      outlive their ads. */
  function RunningIntervals(s: Session): nat {
    s.staleIntervals + if s.newestInterval then 1 else 0
  }

  /** `window.sId = setInterval(countdown, 1000)`: the id of a still
      running interval is overwritten. */
  function StartInterval(s: Session): (r: Session)
    ensures RunningIntervals(r) == RunningIntervals(s) + 1 && r.newestInterval
    ensures r.staleIntervals >= s.staleIntervals
  {
    s.(staleIntervals := RunningIntervals(s), newestInterval := true)
  }

  /** How the creatives of a break are fetched. */
  datatype Fetch =
    | Inline(breakIndex: nat)  // `DMVAST.client.parse` of the embedded VAST
    | Remote(url: string)      // `DMVAST.client.get` of the merged tag URL

  datatype Effect =
    | FetchManifest            // `VMAP.client.get(settings.requestUrl, …)`
    | FetchCreatives(fetch: Fetch)
    | Seek(position: real)     // `player.currentTime(position)`
    | Play
    | Pause
    | AdsReady
    | NoPreroll
    | NoPostroll
    | StartLinearAdMode
    | EndLinearAdMode
    | PlayAd(entry: Entry)     // `startPlayAd(ado)`
    | TrackBreakError(breakIndex: nat)
    | SkipAd                   // `vastTracker.skip()`
    | Fault                    // a `TypeError` ends the handler

  datatype Outcome = Outcome(session: Session, effects: seq<Effect>)

  /** The break list and the time array agree entry by entry. */
  predicate Aligned(s: Session) {
    |s.times| == |s.breaks| && forall k | 0 <= k < |s.times| :: s.times[k] == s.breaks[k].offset
  }

  /** A break the handlers can request: an inline document, or a wrapper. */
  predicate Requestable(d: Descriptor) {
    (!d.isWrapper && d.hasInlineData) || d.isWrapper
  }

  /** The creative fetch the handlers issue for break `i`. */
  function FetchFor(s: Session, i: nat): Fetch
    requires i < |s.breaks|
  {
    var d := s.breaks[i].descriptor;
    if !d.isWrapper && d.hasInlineData then Inline(i)
    else Remote(MergeUrl(d.adTagUri, d.adTagProtocol, s.request))
  }

  /** `resetAdStatus` (lines 73-82). */
  function ResetAdStatus(s: Session): (r: Session)
    ensures r.breaks == [] && r.times == [] && r.cursor == 0
    ensures !r.inAdMode && r.tickListeners == 0
    ensures r.settings == s.settings && r.startOffset == s.startOffset && r.deferred == s.deferred
    ensures r.postrollListeners == s.postrollListeners && r.run == s.run && r.videoListener == s.videoListener
    ensures r.blockerSet == s.blockerSet
    ensures r.skip == s.skip && r.staleIntervals == s.staleIntervals && r.newestInterval == s.newestInterval
    ensures Aligned(r)
  {
    s.(breaks := [], times := [], cursor := 0, inAdMode := false, tickListeners := 0)
  }

  /** `setNewContent` (lines 345-353). The `!player.inAdMode` test always
      passes, since the reset just cleared the flag. */
  function SetNewContent(s: Session): (o: Outcome)
    ensures o.session == ResetAdStatus(s)
    ensures o.effects == if s.settings.requestConfigured then [FetchManifest] else []
  {
    var r := ResetAdStatus(s);
    Outcome(r, if !r.inAdMode && s.settings.requestConfigured then [FetchManifest] else [])
  }

  /** `contentUpdateHandle` (lines 360-369): while an ad plays, the update
      waits for the next `ended`; otherwise it is applied at once. */
  function ContentUpdate(s: Session): (o: Outcome)
    ensures s.inAdMode ==> o == Outcome(s.(deferred := s.deferred + 1), [])
    ensures !s.inAdMode ==> o == SetNewContent(s)
  {
    if s.inAdMode then Outcome(s.(deferred := s.deferred + 1), [])
    else SetNewContent(s)
  }

  /** `n` content updates applied one after another. */
  function SetNewContentTimes(s: Session, n: nat): Outcome
    decreases n
  {
    if n == 0 then Outcome(s, [])
    else
      var first := SetNewContent(s);
      var rest := SetNewContentTimes(first.session, n - 1);
      Outcome(rest.session, first.effects + rest.effects)
  }

  /** The `ended` event for the deferred updates: each waiting `one`
      listener runs once and is gone. */
  function Ended(s: Session): (o: Outcome)
    ensures o.session.deferred == 0
    ensures s.deferred == 0 ==> o.session == s && o.effects == []
    ensures s.deferred > 0 ==> o.session == ResetAdStatus(s).(deferred := 0)
    ensures |o.effects| == if s.settings.requestConfigured then s.deferred else 0
  {
    if s.deferred == 0 then Outcome(s, [])
    else
      Outcome(ResetAdStatus(s).(deferred := 0),
              if s.settings.requestConfigured then seq(s.deferred, _ => FetchManifest) else [])
  }

  /** Resetting twice is resetting once. */
  lemma ResetIdempotent(s: Session)
    ensures ResetAdStatus(ResetAdStatus(s)) == ResetAdStatus(s)
  {
  }

  /** The deferred updates of `ended` are exactly the updates that were
      deferred, applied in turn: one reset and one manifest request each. */
  lemma {:induction false} EndedAppliesDeferred(s: Session, n: nat)
    requires n > 0
    ensures var o := SetNewContentTimes(s, n);
            && o.session == ResetAdStatus(s)
            && o.effects == if s.settings.requestConfigured then seq(n, _ => FetchManifest) else []
    decreases n
  {
    if n > 1 {
      var first := SetNewContent(s);
      EndedAppliesDeferred(first.session, n - 1);
      ResetIdempotent(s);
      if s.settings.requestConfigured {
        assert [FetchManifest] + seq(n - 1, _ => FetchManifest) == seq(n, _ => FetchManifest);
      }
    }
  }

  /** A content update during an ad is not lost: the next `ended` performs
      it, and afterwards none is left waiting. */
  lemma DeferredUpdateApplied(s: Session)
    requires s.inAdMode && s.deferred == 0
    ensures var o := Ended(ContentUpdate(s).session);
            && o.session == ResetAdStatus(s)
            && o.session.deferred == 0
            && o.effects == SetNewContent(s).effects
  {
  }

  /** `applyStartOffset` (lines 242-259): seek now, and start polling
      `forceOffset` on the next `play`. */
  function ApplyStartOffset(s: Session): (o: Outcome)
    ensures o.session == s.(offsetArmed := true)
    ensures o.effects == [Seek(s.startOffset)]
  {
    Outcome(s.(offsetArmed := true), [Seek(s.startOffset)])
  }

  /** The `play` event for `applyStartOffset`'s one-shot listener. The 1 s
      delay on iOS is a timer and is not modelled. */
  function PlayStarted(s: Session): (o: Outcome)
    ensures s.offsetArmed ==> o.session == s.(offsetArmed := false, forceOn := true)
    ensures !s.offsetArmed ==> o.session == s
    ensures o.effects == []
  {
    if s.offsetArmed then Outcome(s.(offsetArmed := false, forceOn := true), []) else Outcome(s, [])
  }

  /** `forceOffset` (lines 219-233). `before` is the position read by the
      first test and `after` the one read by the second, after any seek. */
  function ForceOffset(s: Session, before: real, after: real): (o: Outcome)
    // it seeks while the player is short of the offset
    ensures o.effects == if before < s.startOffset then [Seek(s.startOffset)] else []
    // it stops, and clears the offset, only once the player is past it
    ensures after > s.startOffset ==> o.session == s.(forceOn := false, startOffset := 0.0)
    ensures after <= s.startOffset ==> o.session == s
  {
    var e := if before < s.startOffset then [Seek(s.startOffset)] else [];
    if after > s.startOffset then Outcome(s.(forceOn := false, startOffset := 0.0), e)
    else Outcome(s, e)
  }

  /** A player that settles exactly on the start offset keeps the poll
      running for ever: it neither seeks nor stops. */
  lemma ForceOffsetStallsAtOffset(s: Session)
    ensures ForceOffset(s, s.startOffset, s.startOffset) == Outcome(s, [])
  {
  }

  /** The `timeupdate` event for `forceOffset`, which runs only while it is
      registered. */
  function OnOffsetPoll(s: Session, before: real, after: real): (o: Outcome)
    ensures !s.forceOn ==> o == Outcome(s, [])
    ensures s.forceOn ==> o == ForceOffset(s, before, after)
  {
    if s.forceOn then ForceOffset(s, before, after) else Outcome(s, [])
  }

  /** The polls `(before, after)` of `forceOffset`, one after another. */
  function Polls(s: Session, polls: seq<(real, real)>): Outcome
    decreases |polls|
  {
    if |polls| == 0 then Outcome(s, [])
    else
      var first := OnOffsetPoll(s, polls[0].0, polls[0].1);
      var rest := Polls(first.session, polls[1..]);
      Outcome(rest.session, first.effects + rest.effects)
  }

  /** `applyStartOffset` seeks once and arms a one-shot `play` listener:
      the first `play` starts polling with the offset still pending, and a
      second `play` changes nothing. */
  lemma PlayArmsPollOnce(s: Session)
    requires !s.forceOn
    ensures var a := ApplyStartOffset(s);
            var p1 := PlayStarted(a.session);
            && a.effects == [Seek(s.startOffset)]
            && p1.session.forceOn && !p1.session.offsetArmed && p1.session.startOffset == s.startOffset
            && PlayStarted(p1.session) == Outcome(p1.session, [])
  {
  }

  /** While `forceOffset` polls, it only ever seeks to the start offset and
      leaves the session as it is, until the first poll that reads a
      position past the offset; that poll stops it and clears the offset. */
  lemma {:induction false} StartOffsetHeldUntilPassed(s: Session, polls: seq<(real, real)>)
    requires s.forceOn
    ensures var o := Polls(s, polls);
            && (o.session.forceOn <==> forall i | 0 <= i < |polls| :: polls[i].1 <= s.startOffset)
            && (o.session.forceOn ==> o.session == s)
            && (!o.session.forceOn ==> o.session == s.(forceOn := false, startOffset := 0.0))
            && (forall e | e in o.effects :: e == Seek(s.startOffset))
    decreases |polls|
  {
    if |polls| > 0 {
      var first := OnOffsetPoll(s, polls[0].0, polls[0].1);
      var rest := polls[1..];
      if polls[0].1 > s.startOffset {
        PollsStopped(first.session, rest);
      } else {
        assert first.session == s;
        StartOffsetHeldUntilPassed(s, rest);
        assert forall i | 0 <= i < |rest| :: rest[i] == polls[i + 1];
      }
    }
  }

  /** Once it has stopped, later polls do nothing: the outcome of all the
      polls is the outcome of those up to any one past the offset. */
  lemma {:induction false} PollsSettle(s: Session, polls: seq<(real, real)>, i: nat)
    requires i < |polls| && polls[i].1 > s.startOffset
    ensures Polls(s, polls) == Polls(s, polls[..i + 1])
    decreases i
  {
    var first := OnOffsetPoll(s, polls[0].0, polls[0].1);
    assert polls[..i + 1][0] == polls[0];
    if !s.forceOn {
      PollsStopped(s, polls);
      PollsStopped(s, polls[..i + 1]);
    } else if polls[0].1 > s.startOffset {
      PollsStopped(first.session, polls[1..]);
      PollsStopped(first.session, polls[..i + 1][1..]);
    } else {
      assert first.session == s;
      PollsSettle(s, polls[1..], i - 1);
      assert polls[1..][..i] == polls[..i + 1][1..];
    }
  }

  /** Polls after `forceOffset` was removed change nothing. */
  lemma {:induction false} PollsStopped(s: Session, polls: seq<(real, real)>)
    requires !s.forceOn
    ensures Polls(s, polls) == Outcome(s, [])
    decreases |polls|
  {
    if |polls| > 0 {
      PollsStopped(s, polls[1..]);
    }
  }

  /** The signals at the end of `vmapCallback` (lines 332-342): which of
      the two special breaks is missing, the start offset, and ready. */
  function VmapTail(s: Session, b: Built): seq<Effect> {
    (if b.noPreroll then [NoPreroll] else [])
    + (if b.noPostroll then [NoPostroll] else [])
    + (if s.startOffset > 0.0 && !s.inAdMode then [Seek(s.startOffset)] else [])
    + [AdsReady]
  }

  /** `vmapCallback` (lines 262-343) with the player's duration already
      read through `parseInt` as `contentLength`. An absent or empty
      manifest only applies the start offset. The rebuilt time array is
      pushed onto the existing one. */
  function VmapCallback(s: Session, manifest: Option<seq<ManifestBreak>>, contentLength: nat, request: Request): (o: Outcome)
    ensures manifest.None? || |manifest.value| == 0 ==>
              && o.session == (if s.startOffset > 0.0 then s.(offsetArmed := true) else s)
              && o.effects == (if s.startOffset > 0.0 then [Seek(s.startOffset)] else []) + [AdsReady]
    ensures manifest.Some? && |manifest.value| > 0 ==>
              var b := BuildSchedule(manifest.value, contentLength, s.startOffset, s.settings.resumeSkipMidroll);
              && o.session.breaks == b.breaks
              && o.session.times == s.times + b.times
              && o.session.request == request
              && o.session.tickListeners == s.tickListeners + 1
              && o.session.cursor == s.cursor && o.session.inAdMode == s.inAdMode
    // nothing else changes
    ensures o.session == s.(request := o.session.request, breaks := o.session.breaks, times := o.session.times,
                            tickListeners := o.session.tickListeners, offsetArmed := o.session.offsetArmed)
  {
    if manifest.None? || |manifest.value| == 0 then
      var o := if s.startOffset > 0.0 then ApplyStartOffset(s) else Outcome(s, []);
      Outcome(o.session, o.effects + [AdsReady])
    else
      var b := BuildSchedule(manifest.value, contentLength, s.startOffset, s.settings.resumeSkipMidroll);
      var s1 := s.(request := request, breaks := b.breaks, times := s.times + b.times,
                   tickListeners := s.tickListeners + 1);
      var s2 := if s.startOffset > 0.0 && !s.inAdMode then s1.(offsetArmed := true) else s1;
      Outcome(s2, VmapTail(s, b))
  }

  /** The player is told which special breaks are missing, and the last
      signal is always "ready". */
  lemma VmapCallbackSignals(s: Session, manifest: seq<ManifestBreak>, contentLength: nat, request: Request)
    requires |manifest| > 0
    ensures var b := BuildSchedule(manifest, contentLength, s.startOffset, s.settings.resumeSkipMidroll);
            var o := VmapCallback(s, Some(manifest), contentLength, request);
            && (NoPreroll in o.effects <==> b.noPreroll)
            && (NoPostroll in o.effects <==> b.noPostroll)
            && |o.effects| > 0 && o.effects[|o.effects| - 1] == AdsReady
  {
    var b := BuildSchedule(manifest, contentLength, s.startOffset, s.settings.resumeSkipMidroll);
    assert VmapCallback(s, Some(manifest), contentLength, request).effects == VmapTail(s, b);
    VmapTailSignals(s, b);
  }

  lemma VmapTailSignals(s: Session, b: Built)
    ensures var e := VmapTail(s, b);
            && (NoPreroll in e <==> b.noPreroll)
            && (NoPostroll in e <==> b.noPostroll)
            && |e| > 0 && e[|e| - 1] == AdsReady
  {
  }

  /** After a reset, the schedule `vmapCallback` installs is aligned. */
  lemma VmapAfterResetAligned(s: Session, manifest: seq<ManifestBreak>, contentLength: nat, request: Request)
    requires s.times == [] && s.breaks == []
    ensures Aligned(VmapCallback(s, Some(manifest), contentLength, request).session)
  {
    if |manifest| > 0 {
      var b := BuildSchedule(manifest, contentLength, s.startOffset, s.settings.resumeSkipMidroll);
      BuiltAligned(manifest, contentLength, s.startOffset, s.settings.resumeSkipMidroll);
      InstalledAligned(VmapCallback(s, Some(manifest), contentLength, request).session, s.times, b);
    }
  }

  /** A built schedule appended to an empty time array is aligned. */
  lemma InstalledAligned(r: Session, before: seq<real>, b: Built)
    requires before == [] && r.breaks == b.breaks && r.times == before + b.times
    requires |b.times| == |b.breaks| && forall k | 0 <= k < |b.times| :: b.times[k] == b.breaks[k].offset
    ensures Aligned(r)
  {
    assert [] + b.times == b.times;
    SameScheduleAligned(r, b.breaks, b.times);
  }

  lemma SameScheduleAligned(r: Session, breaks: seq<AdBreak>, times: seq<real>)
    requires r.breaks == breaks && r.times == times
    requires |times| == |breaks| && forall k | 0 <= k < |times| :: times[k] == breaks[k].offset
    ensures Aligned(r)
  {
  }

  /** A built schedule's time array is its breaks' offsets. */
  lemma BuiltAligned(manifest: seq<ManifestBreak>, contentLength: nat, startOffset: real, resumeSkipMidroll: bool)
    ensures var b := BuildSchedule(manifest, contentLength, startOffset, resumeSkipMidroll);
            |b.times| == |b.breaks| && forall k | 0 <= k < |b.times| :: b.times[k] == b.breaks[k].offset
  {
  }

  /** The "Prepare for AD time" block shared by the three handlers: enter ad
      mode and fetch the break's creatives; a break that is neither inline
      nor a wrapper is silently skipped. */
  function RequestBreak(s: Session): (o: Outcome)
    requires s.cursor < |s.breaks|
    ensures Requestable(s.breaks[s.cursor].descriptor) ==>
              o == Outcome(s.(inAdMode := true), [FetchCreatives(FetchFor(s, s.cursor))])
    ensures !Requestable(s.breaks[s.cursor].descriptor) ==> o == Outcome(s, [])
  {
    var d := s.breaks[s.cursor].descriptor;
    if !d.isWrapper && d.hasInlineData then
      Outcome(s.(inAdMode := true), [FetchCreatives(Inline(s.cursor))])
    else if d.isWrapper then
      Outcome(s.(inAdMode := true), [FetchCreatives(Remote(MergeUrl(d.adTagUri, d.adTagProtocol, s.request)))])
    else Outcome(s, [])
  }

  /** The condition under which a content tick fires the break at the
      cursor. */
  predicate Due(s: Session, position: real) {
    && !s.inAdMode
    && s.cursor < |s.breaks|
    && s.breaks[s.cursor].offset > 0.0
    && position > s.breaks[s.cursor].offset
  }

  /** The condition under which a content tick arms the postroll: the
      break at the cursor has offset -1. */
  predicate PostrollDue(s: Session) {
    !s.inAdMode && s.cursor < |s.breaks| && s.breaks[s.cursor].offset == End
  }

  /** `timeUpdateHandle` (lines 946-993), one run of one copy; `position`
      is `currentTime()` as read at line 962, after the pending start
      offset (if any) was sought. */
  function TimeUpdateHandle(s: Session, position: real): (o: Outcome)
    // nothing at all while an ad plays or past the schedule
    ensures s.inAdMode || s.cursor >= |s.breaks| ==> o == Outcome(s, [])
    // the schedule and the cursor never move here
    ensures o.session.breaks == s.breaks && o.session.times == s.times && o.session.cursor == s.cursor
    // nor does the state of the break runner
    ensures o.session.run == s.run && o.session.skip == s.skip && o.session.blockerSet == s.blockerSet
    ensures o.session.staleIntervals == s.staleIntervals && o.session.newestInterval == s.newestInterval
    // a creative fetch is issued exactly when a requestable break is due
    ensures (exists f :: FetchCreatives(f) in o.effects) <==>
              Due(s, position) && Requestable(s.breaks[s.cursor].descriptor)
    // ... and then ad mode is set before the fetch
    ensures o.session.inAdMode <==> s.inAdMode || (Due(s, position) && Requestable(s.breaks[s.cursor].descriptor))
    // a due break, or the postroll, removes every copy of the tick listener
    ensures !s.inAdMode && s.cursor < |s.breaks| ==>
              o.session.tickListeners == if Due(s, position) || PostrollDue(s) then 0 else s.tickListeners
    // offset -1 registers one more copy of the postroll handler
    ensures o.session.postrollListeners == s.postrollListeners + if PostrollDue(s) then 1 else 0
  {
    if s.inAdMode || s.cursor >= |s.breaks| then Outcome(s, [])
    else
      var s1 := if s.startOffset > 0.0 then s.(startOffset := 0.0) else s;
      var e1 := if s.startOffset > 0.0 then [Seek(s.startOffset)] else [];
      var offset := s.breaks[s.cursor].offset;
      if offset > 0.0 && position > offset then
        var o := DueTick(s1);
        Outcome(o.session, e1 + o.effects)
      else if offset == End then
        Outcome(s1.(tickListeners := 0, postrollListeners := s.postrollListeners + 1), e1)
      else Outcome(s1, e1)
  }

  /** Lines 967-979: a due break removes the tick listeners and is
      requested. */
  function DueTick(s: Session): (o: Outcome)
    requires !s.inAdMode && s.cursor < |s.breaks|
    ensures o.session == s.(tickListeners := 0, inAdMode := o.session.inAdMode)
    ensures (exists f :: FetchCreatives(f) in o.effects) <==> Requestable(s.breaks[s.cursor].descriptor)
    ensures o.session.inAdMode <==> Requestable(s.breaks[s.cursor].descriptor)
    ensures forall ef | ef in o.effects :: ef.FetchCreatives?
  {
    RequestBreak(s.(tickListeners := 0))
  }

  /** A session on which another run of the tick handler changes nothing
      but, at the postroll, the number of postroll handlers: the start
      offset was applied, and a due break or the postroll already removed
      the tick listeners. */
  predicate Settled(s: Session, position: real) {
    || s.inAdMode
    || s.cursor >= |s.breaks|
    || (&& s.startOffset <= 0.0
        && (Due(s, position) || PostrollDue(s) ==> s.tickListeners == 0)
        && (Due(s, position) ==> !Requestable(s.breaks[s.cursor].descriptor)))
  }

  /** `n` copies of the tick handler run by one `timeupdate`. */
  function TickRuns(s: Session, position: real, n: nat): Outcome
    decreases n
  {
    if n == 0 then Outcome(s, [])
    else
      var first := TimeUpdateHandle(s, position);
      var rest := TickRuns(first.session, position, n - 1);
      Outcome(rest.session, first.effects + rest.effects)
  }

  /** After one run, the session is settled. */
  lemma FirstTickSettles(s: Session, position: real)
    ensures Settled(TimeUpdateHandle(s, position).session, position)
    ensures PostrollDue(TimeUpdateHandle(s, position).session) == PostrollDue(s)
  {
  }

  /** On a settled session, every further run only adds a postroll handler
      at the postroll, and issues nothing. */
  lemma {:induction false} SettledTicks(s: Session, position: real, k: nat)
    requires Settled(s, position)
    ensures TickRuns(s, position, k) ==
              Outcome(s.(postrollListeners := s.postrollListeners + if PostrollDue(s) then k else 0), [])
    decreases k
  {
    if k > 0 {
      var first := TimeUpdateHandle(s, position);
      assert first == Outcome(s.(postrollListeners := s.postrollListeners + if PostrollDue(s) then 1 else 0), []);
      assert Settled(first.session, position) && PostrollDue(first.session) == PostrollDue(s);
      SettledTicks(first.session, position, k - 1);
    }
  }

  /** The `timeupdate` event runs every registered copy of
      `timeUpdateHandle`. The first copy does all the work; each later one
      finds the break already requested, the listener removed or the start
      offset applied, and only at the postroll registers `postrollHandle`
      once more. */
  function OnTimeUpdate(s: Session, position: real): (o: Outcome)
    ensures s.tickListeners == 0 ==> o == Outcome(s, [])
    ensures s.tickListeners > 0 ==>
              var first := TimeUpdateHandle(s, position);
              && o.effects == first.effects
              && o.session == first.session.(postrollListeners :=
                   first.session.postrollListeners + if PostrollDue(s) then s.tickListeners - 1 else 0)
  {
    if s.tickListeners == 0 then Outcome(s, [])
    else
      var first := TimeUpdateHandle(s, position);
      FirstTickSettles(s, position);
      SettledTicks(first.session, position, s.tickListeners - 1);
      assert first.effects + [] == first.effects;
      TickRuns(s, position, s.tickListeners)
  }

  /** At the postroll, one `timeupdate` registers one `postrollHandle` per
      copy of the tick listener. */
  lemma TickArmsPostrollPerListener(s: Session, position: real)
    requires PostrollDue(s)
    ensures var r := OnTimeUpdate(s, position).session;
            && r.postrollListeners == s.postrollListeners + s.tickListeners
            && r.tickListeners == 0
  {
  }

  /** Once a tick has fired a break, no later tick fires it again, whatever
      the position: ad mode is set before the fetch. */
  lemma NoDoubleFire(s: Session, position: real, later: real)
    requires Due(s, position) && Requestable(s.breaks[s.cursor].descriptor)
    ensures TimeUpdateHandle(TimeUpdateHandle(s, position).session, later).effects == []
  {
  }

  /** A tick at or before a midroll's offset never fires it. */
  lemma NoEarlyFire(s: Session, position: real)
    requires s.cursor < |s.breaks| && position <= s.breaks[s.cursor].offset
    ensures forall f :: FetchCreatives(f) !in TimeUpdateHandle(s, position).effects
  {
  }

  /** `prerollHandle` (lines 1000-1019): requests the break at the cursor,
      whatever its offset; with no break there it throws. */
  function PrerollHandle(s: Session): (o: Outcome)
    ensures s.cursor >= |s.breaks| ==> o == Outcome(s, [Fault])
    ensures s.cursor < |s.breaks| ==> o == RequestBreak(s)
  {
    if s.cursor >= |s.breaks| then Outcome(s, [Fault]) else RequestBreak(s)
  }

  /** On a reset session, `readyforpreroll` after a manifest with a
      preroll requests exactly that preroll: the last manifest break whose
      offset reads "start". */
  lemma PrerollRequestsPreroll(s: Session, manifest: seq<ManifestBreak>, contentLength: nat, request: Request, i: nat)
    requires s.cursor == 0 && !s.inAdMode && |manifest| > 0
    requires LastIndexOf(Offsets(manifest, contentLength), Start) == Some(i)
    requires Requestable(manifest[i].descriptor)
    ensures var v := VmapCallback(s, Some(manifest), contentLength, request).session;
            && |v.breaks| > 0 && v.breaks[0] == AdBreak(Start, manifest[i].descriptor)
            && PrerollHandle(v) == Outcome(v.(inAdMode := true), [FetchCreatives(FetchFor(v, 0))])
  {
    var offsets := Offsets(manifest, contentLength);
    AssemblePreroll(manifest, offsets, s.startOffset, s.settings.resumeSkipMidroll);
  }

  /** `postrollHandle` (lines 1026-1045), one run of one copy: it removes
      every tick listener and every copy of itself, then requests the
      break at the cursor; past the schedule it throws. */
  function PostrollHandle(s: Session): (o: Outcome)
    ensures o.session.postrollListeners == 0 && o.session.tickListeners == 0 && o.session.cursor == s.cursor
    ensures s.cursor < |s.breaks| ==> o == RequestBreak(s.(tickListeners := 0, postrollListeners := 0))
    ensures s.cursor >= |s.breaks| ==> o.effects == [Fault]
  {
    var s1 := s.(tickListeners := 0, postrollListeners := 0);
    if s.cursor >= |s.breaks| then Outcome(s1, [Fault]) else RequestBreak(s1)
  }

  /** `n` copies of the same effects, one after another. */
  function Repeat(e: seq<Effect>, n: nat): (r: seq<Effect>)
    ensures |r| == n * |e|
    ensures forall k | 0 <= k < |r| :: r[k] in e
    decreases n
  {
    if n == 0 then [] else e + Repeat(e, n - 1)
  }

  /** `n` copies of `postrollHandle` run by one `contentended`. */
  function PostrollRuns(s: Session, n: nat): Outcome
    decreases n
  {
    if n == 0 then Outcome(s, [])
    else
      var first := PostrollHandle(s);
      var rest := PostrollRuns(first.session, n - 1);
      Outcome(rest.session, first.effects + rest.effects)
  }

  /** A second run of `postrollHandle` finds the same break at the cursor
      and does again what the first did. */
  lemma {:induction false} PostrollRunsRepeat(s: Session, n: nat)
    requires n > 0
    ensures PostrollRuns(s, n) == Outcome(PostrollHandle(s).session, Repeat(PostrollHandle(s).effects, n))
    decreases n
  {
    var first := PostrollHandle(s);
    if n > 1 {
      assert PostrollHandle(first.session) == first;
      PostrollRunsRepeat(first.session, n - 1);
    } else {
      assert first.effects + [] == first.effects;
    }
  }

  /** The `contentended` event: every registered copy of `postrollHandle`
      runs, since each copy was taken before the first one removed them
      all; each copy requests the same break again. */
  function ContentEnded(s: Session): (o: Outcome)
    ensures s.postrollListeners == 0 ==> o == Outcome(s, [])
    ensures s.postrollListeners > 0 ==>
              && o.session == PostrollHandle(s).session
              && o.effects == Repeat(PostrollHandle(s).effects, s.postrollListeners)
  {
    if s.postrollListeners == 0 then Outcome(s, [])
    else
      PostrollRunsRepeat(s, s.postrollListeners);
      PostrollRuns(s, s.postrollListeners)
  }

  /** With `n` postroll handlers registered, `contentended` requests the
      break at the cursor `n` times. */
  lemma PostrollFetchedPerListener(s: Session)
    requires s.postrollListeners > 0 && s.cursor < |s.breaks| && Requestable(s.breaks[s.cursor].descriptor)
    ensures var o := ContentEnded(s);
            && o.effects == Repeat([FetchCreatives(FetchFor(s, s.cursor))], s.postrollListeners)
            && |o.effects| == s.postrollListeners
            && o.session.inAdMode && o.session.postrollListeners == 0 && o.session.tickListeners == 0
  {
    assert FetchFor(s.(tickListeners := 0, postrollListeners := 0), s.cursor) == FetchFor(s, s.cursor);
  }

  /** `contentended` as evidently intended: the postroll handler runs
      once, however many tick listeners armed it. */
  function ContentEndedCorrected(s: Session): (o: Outcome)
    ensures s.postrollListeners == 0 ==> o == Outcome(s, [])
    ensures s.postrollListeners > 0 ==> o.session == ContentEnded(s).session && |o.effects| <= 1
    ensures s.postrollListeners == 1 ==> o == ContentEnded(s)
  {
    if s.postrollListeners == 0 then Outcome(s, []) else PostrollHandle(s)
  }

  /** Corrected, `contentended` requests the postroll exactly once. */
  lemma PostrollFetchedOnceCorrected(s: Session)
    requires s.postrollListeners > 0 && s.cursor < |s.breaks| && Requestable(s.breaks[s.cursor].descriptor)
    ensures var o := ContentEndedCorrected(s);
            && o.effects == [FetchCreatives(FetchFor(s, s.cursor))]
            && o.session.inAdMode && o.session.postrollListeners == 0 && o.session.tickListeners == 0
  {
    assert FetchFor(s.(tickListeners := 0, postrollListeners := 0), s.cursor) == FetchFor(s, s.cursor);
  }

  /** `startPlayAd` (lines 571-895) for the entry at `index`: ad mode, a
      new tracker, the entry's media, and the skip button with its
      countdown. An entry without media files throws when its first source
      is read (line 622). */
  function StartPlayAd(s: Session, playlist: seq<Entry>, index: nat, origin: real): (o: Outcome)
    requires index < |playlist|
    ensures o.session.inAdMode && o.session.cursor == s.cursor
    ensures o.session.breaks == s.breaks && o.session.times == s.times
    ensures o.session.staleIntervals >= s.staleIntervals && o.session.postrollListeners == s.postrollListeners
    ensures EntryTag(playlist[index]).None? ==> o == MediaMissing(s, playlist[index])
    ensures EntryTag(playlist[index]).Some? ==> o == PlayEntry(s, playlist, index, origin)
  {
    if EntryTag(playlist[index]).None? then MediaMissing(s, playlist[index])
    else PlayEntry(s, playlist, index, origin)
  }

  /** `startPlayAd` for an entry without media files: the tracker was
      already replaced (line 574) when `ado.src[0]` throws, but no button,
      no countdown and no `adended`/`aderror` listener were set up, so
      nothing will move the run on. */
  function MediaMissing(s: Session, e: Entry): (o: Outcome)
    ensures o.effects == [Fault] && o.session.run.None? && o.session.inAdMode
    ensures o.session == s.(inAdMode := true, run := None, skip := o.session.skip)
    ensures o.session.skip.Some? <==> s.skip.Some?
    ensures o.session.skip.Some? ==> o.session.skip.value.delay == DelayOf(e.creative.skipDelay)
  {
    var tracker := if s.skip.Some? then Some(s.skip.value.(delay := DelayOf(e.creative.skipDelay))) else None;
    Outcome(s.(inAdMode := true, run := None, skip := tracker), [Fault])
  }

  /** `startPlayAd` for an entry with media: the ad plays with a fresh
      button, and a countdown interval starts for an image with a skip
      delay. */
  function PlayEntry(s: Session, playlist: seq<Entry>, index: nat, origin: real): (o: Outcome)
    requires index < |playlist| && EntryTag(playlist[index]).Some?
    ensures o.effects == [PlayAd(playlist[index])] && o.session.inAdMode
    ensures o.session.run == Some(Run(playlist, index, origin))
    ensures o.session.skip.Some? && !Enabled(o.session.skip.value)
    ensures o.session.skip.value.tag == EntryTag(playlist[index]).value
    ensures o.session.skip.value.delay == DelayOf(playlist[index].creative.skipDelay)
    ensures o.session.videoListener <==> s.videoListener || o.session.skip.value.listening
    ensures RunningIntervals(o.session) == RunningIntervals(s) + (if o.session.skip.value.countdown then 1 else 0)
    ensures o.session.staleIntervals >= s.staleIntervals
    // a creative with a click-through installs the blocker, which stays
    ensures o.session.blockerSet <==> s.blockerSet || playlist[index].creative.hasClickThrough
    ensures o.session == s.(inAdMode := true, run := o.session.run, skip := o.session.skip,
                            videoListener := o.session.videoListener, staleIntervals := o.session.staleIntervals,
                            newestInterval := o.session.newestInterval, blockerSet := o.session.blockerSet)
  {
    var e := playlist[index];
    var sk := StartSkip(EntryTag(e).value, e.creative.skipDelay, s.settings.allowSkip);
    var s1 := s.(inAdMode := true, run := Some(Run(playlist, index, origin)), skip := Some(sk),
                 videoListener := s.videoListener || sk.listening,
                 blockerSet := s.blockerSet || e.creative.hasClickThrough);
    Outcome(if sk.countdown then StartInterval(s1) else s1, [PlayAd(e)])
  }

  /** Lines 431-436: the position content resumes from after the break. */
  function Origin(s: Session, position: real): real {
    if s.cursor == 0 && s.startOffset > 0.0 then s.startOffset else position
  }

  /** `vastCallback` (lines 919-939) with `playVastAds` (lines 376-911) as
      written. `position` is `currentTime()` when the document arrives.
      A document that failed to parse arrives as `null`, and reading its
      ads throws right after the pause. With no linear creative, the error
      is reported on the break before the cursor, and at cursor 0 reading
      that break throws. */
  function VastCallback(s: Session, doc: Option<Vast>, position: real): (o: Outcome)
    ensures doc.None? ==> o == Outcome(s, [Pause, Fault])
    ensures doc.Some? ==> |o.effects| >= 2 && o.effects[..2] == [Pause, StartLinearAdMode]
    ensures o.session.breaks == s.breaks && o.session.times == s.times
    ensures o.session.staleIntervals >= s.staleIntervals && RunningIntervals(o.session) >= RunningIntervals(s)
    ensures o.session.postrollListeners == s.postrollListeners
  {
    if doc.None? then Outcome(s, [Pause, Fault])
    else
    var playlist := Entries(doc.value.ads);
    var pre := [Pause, StartLinearAdMode];
    if |playlist| == 0 then
      if s.cursor == 0 || s.cursor - 1 >= |s.breaks| then Outcome(s, pre + [Fault])
      else
        var tracked := s.breaks[s.cursor - 1].descriptor.tracked;
        Outcome(s.(cursor := s.cursor + 1), pre + (if tracked then [TrackBreakError(s.cursor - 1)] else []))
    else
      var o := StartPlayAd(s, playlist, 0, Origin(s, position));
      if Fault in o.effects then Outcome(o.session, pre + o.effects)
      else Outcome(o.session.(cursor := s.cursor + 1), pre + o.effects)
  }

  /** The cursor moves on by exactly one break per creative document, unless
      the handler throws. */
  lemma VastCallbackAdvances(s: Session, doc: Option<Vast>, position: real)
    ensures var o := VastCallback(s, doc, position);
            o.session.cursor == if Fault in o.effects then s.cursor else s.cursor + 1
  {
  }

  /** A document with linear creatives starts its first entry in ad mode,
      returning afterwards to the content position it was fetched at (or
      to the start offset, for the first break). */
  lemma VastCallbackStartsFirstAd(s: Session, vast: Vast, position: real)
    requires |Entries(vast.ads)| > 0 && EntryTag(Entries(vast.ads)[0]).Some?
    ensures var o := VastCallback(s, Some(vast), position);
            && o.session.inAdMode
            && o.session.run == StartPlayAd(s, Entries(vast.ads), 0, Origin(s, position)).session.run
            && PlayAd(Entries(vast.ads)[0]) in o.effects
            && Fault !in o.effects
  {
  }

  /** Lines 431-436: the first break of a session whose start offset is
      still pending returns to that offset, wherever the player stood when
      the document arrived; every other break returns to where the player
      stood. */
  lemma BreakOrigin(s: Session, vast: Vast, p1: real, p2: real)
    requires |Entries(vast.ads)| > 0 && EntryTag(Entries(vast.ads)[0]).Some?
    ensures var r1 := VastCallback(s, Some(vast), p1).session.run;
            var r2 := VastCallback(s, Some(vast), p2).session.run;
            && r1.Some? && r2.Some?
            && (s.cursor == 0 && s.startOffset > 0.0 ==> r1.value.origin == r2.value.origin == s.startOffset)
            && (s.cursor > 0 || s.startOffset <= 0.0 ==> r1.value.origin == p1)
  {
    VastCallbackStartsFirstAd(s, vast, p1);
    VastCallbackStartsFirstAd(s, vast, p2);
  }

  /** A document without linear creatives leaves ad mode and the run as
      they were: the content is never resumed. It throws at cursor 0, and
      otherwise reports the error on the break before the cursor. */
  lemma VastCallbackEmptyBreak(s: Session, vast: Vast, position: real)
    requires |Entries(vast.ads)| == 0
    ensures var o := VastCallback(s, Some(vast), position);
            && o.session.inAdMode == s.inAdMode && o.session.run == s.run
            && (Fault in o.effects <==> s.cursor == 0 || s.cursor > |s.breaks|)
            && (0 < s.cursor <= |s.breaks| ==>
                  (TrackBreakError(s.cursor - 1) in o.effects <==> s.breaks[s.cursor - 1].descriptor.tracked))
            && (forall i: nat :: TrackBreakError(i) in o.effects ==> i + 1 == s.cursor)
  {
    var o := VastCallback(s, Some(vast), position);
    var pre := [Pause, StartLinearAdMode];
    if s.cursor == 0 || s.cursor - 1 >= |s.breaks| {
      assert o == Outcome(s, pre + [Fault]);
      ReportEffects([Fault], 0);
    } else {
      var track := if s.breaks[s.cursor - 1].descriptor.tracked then [TrackBreakError(s.cursor - 1)] else [];
      assert o == Outcome(s.(cursor := s.cursor + 1), pre + track);
      ReportEffects(track, s.cursor - 1);
    }
  }

  /** The effects of a document without linear creatives: the handler
      throws, or reports break `i`'s error, or does nothing more. */
  lemma ReportEffects(tail: seq<Effect>, i: nat)
    requires tail == [] || tail == [TrackBreakError(i)] || tail == [Fault]
    ensures var effects := [Pause, StartLinearAdMode] + tail;
            && (Fault in effects <==> tail == [Fault])
            && (TrackBreakError(i) in effects <==> tail == [TrackBreakError(i)])
            && (forall j: nat :: TrackBreakError(j) in effects ==> j == i)
  {
    var effects := [Pause, StartLinearAdMode] + tail;
    assert forall k | 0 <= k < |effects| :: effects[k] in [Pause, StartLinearAdMode] || effects[k] in tail;
  }

  /** Whether the break just played (the one before the cursor) is the
      postroll. */
  predicate AfterPostroll(s: Session) {
    1 <= s.cursor <= |s.times| && s.times[s.cursor - 1] == End
  }

  /** `startPlayContent` (lines 442-489): leave ad mode, then resume the
      content and register one more copy of the tick listener — except
      after the postroll, which seeks back to the origin, removes the tick
      listeners and pauses. */
  function StartPlayContent(s: Session, origin: real): (o: Outcome)
    ensures !o.session.inAdMode && o.session.run.None? && o.session.cursor == s.cursor
    ensures o.session.breaks == s.breaks && o.session.times == s.times
    ensures !AfterPostroll(s) ==> o.session.tickListeners == s.tickListeners + 1 && o.effects == [EndLinearAdMode, Play]
    ensures AfterPostroll(s) ==> o.session.tickListeners == 0 && o.effects == [EndLinearAdMode, Seek(origin), Pause]
  {
    var s1 := s.(inAdMode := false, run := None);
    if !AfterPostroll(s) then Outcome(s1.(tickListeners := s.tickListeners + 1), [EndLinearAdMode, Play])
    else Outcome(s1.(tickListeners := 0), [EndLinearAdMode, Seek(origin), Pause])
  }

  /** Lines 513-525 of `nextOrEndAd`: the next entry of the playlist, or
      the end of the break after the last one. */
  function AdvanceRun(s: Session): (o: Outcome)
    requires s.run.Some?
    ensures o.session.cursor == s.cursor && o.session.breaks == s.breaks && o.session.times == s.times
    ensures o.session.staleIntervals >= s.staleIntervals && RunningIntervals(o.session) >= RunningIntervals(s)
    ensures o.session.postrollListeners == s.postrollListeners
    ensures s.run.value.adIndex + 1 >= |s.run.value.playlist| ==> o == StartPlayContent(s, s.run.value.origin)
    ensures s.run.value.adIndex + 1 < |s.run.value.playlist| ==>
              o == StartPlayAd(s, s.run.value.playlist, s.run.value.adIndex + 1, s.run.value.origin)
  {
    var run := s.run.value;
    var next := run.adIndex + 1;
    if next >= |run.playlist| then StartPlayContent(s, run.origin)
    else StartPlayAd(s, run.playlist, next, run.origin)
  }

  /** `nextOrEndAd` (lines 491-526), on `adended` or `aderror` of the
      playing ad. It removes both one-shot listeners and then reads
      `clickyabAdScheduler.blocker.parentNode` (line 508). The blocker is
      only assigned for a creative with a click-through (line 707), so
      until some ad had one this throws: the run is over, and neither the
      next entry nor the content is ever started. */
  function NextOrEndAd(s: Session): (o: Outcome)
    ensures s.run.None? ==> o == Outcome(s, [])
    ensures s.run.Some? && !s.blockerSet ==> o == Outcome(s.(run := None), [Fault])
    ensures s.run.Some? && s.blockerSet ==> o == AdvanceRun(s)
    ensures o.session.cursor == s.cursor && o.session.breaks == s.breaks && o.session.times == s.times
    ensures o.session.staleIntervals >= s.staleIntervals && RunningIntervals(o.session) >= RunningIntervals(s)
    ensures o.session.postrollListeners == s.postrollListeners
  {
    if s.run.None? then Outcome(s, [])
    else if !s.blockerSet then Outcome(s.(run := None), [Fault])
    else AdvanceRun(s)
  }

  /** Each `adended`/`aderror` moves to the next entry of the same
      playlist, one at a time, once some ad has installed the blocker. An
      entry without media throws before any listener is set up, and then
      no later `adended` moves the run on. Without a blocker the handler
      throws first, with the same result. */
  lemma NextAdAdvancesByOne(s: Session)
    requires s.run.Some? && s.run.value.adIndex + 1 < |s.run.value.playlist|
    ensures var o := NextOrEndAd(s);
            var next := s.run.value.playlist[s.run.value.adIndex + 1];
            && (!s.blockerSet ==> o.effects == [Fault] && o.session == s.(run := None))
            && (s.blockerSet && EntryTag(next).Some? ==>
                  && o.session.run == Some(s.run.value.(adIndex := s.run.value.adIndex + 1))
                  && o.effects == [PlayAd(next)])
            && (s.blockerSet && EntryTag(next).None? ==> o.effects == [Fault] && o.session.run.None?)
            && (o.session.run.None? ==> NextOrEndAd(o.session) == Outcome(o.session, []))
  {
  }

  /** As written, while no ad has had a click-through, the end of the last
      ad of any break throws: ad mode stays on, linear ad mode never ends,
      the content never resumes, and later ad ends do nothing. */
  lemma NoBlockerStuck(s: Session)
    requires s.run.Some? && s.inAdMode && !s.blockerSet
    ensures var o := NextOrEndAd(s);
            && o.effects == [Fault] && EndLinearAdMode !in o.effects && Play !in o.effects
            && o.session.inAdMode && o.session.run.None?
            && NextOrEndAd(o.session) == Outcome(o.session, [])
  {
  }

  /** `nextOrEndAd` as evidently intended: the blocker is removed only if
      there is one, and the runner moves on. */
  function NextOrEndAdCorrected(s: Session): (o: Outcome)
    ensures s.run.None? ==> o == Outcome(s, [])
    ensures s.run.Some? ==> o == AdvanceRun(s)
    ensures s.blockerSet ==> o == NextOrEndAd(s)
  {
    if s.run.None? then Outcome(s, []) else AdvanceRun(s)
  }

  /** Corrected, the end of the last ad of a break always leaves ad mode
      and ends linear ad mode, whether or not any ad had a click-through. */
  lemma BreakEndsCorrected(s: Session)
    requires s.run.Some? && s.run.value.adIndex + 1 >= |s.run.value.playlist|
    ensures var o := NextOrEndAdCorrected(s);
            && !o.session.inAdMode && o.session.run.None?
            && |o.effects| > 0 && o.effects[0] == EndLinearAdMode && Fault !in o.effects
  {
  }

  /** Whether a click on the skip button skips: an ad runs and its button
      is shown (a button with `display: none` receives no clicks) and
      carries the class "enabled". */
  predicate Clickable(s: Session) {
    s.run.Some? && s.skip.Some? && !s.skip.value.hidden && SkipClick(s.skip.value)
  }

  /** `skipButton.onclick` (lines 766-779, 804-822): a click on a button
      that is not enabled does nothing; otherwise the ad is skipped and the
      runner moves on. A video is paused first. An image's `play` waits on
      a 1 ms timer (lines 810-812) while `adended` is handled at once
      (line 819), so it comes after everything the end of the ad does. */
  function SkipClicked(s: Session): (o: Outcome)
    ensures !Clickable(s) ==> o == Outcome(s, [])
    ensures Clickable(s) ==> o.session == NextOrEndAd(s).session && |o.effects| > 0 && o.effects[0] == SkipAd
    ensures Clickable(s) && s.skip.value.tag == Image ==> o.effects[|o.effects| - 1] == Play
  {
    if !Clickable(s) then Outcome(s, [])
    else
      var o := NextOrEndAd(s);
      if s.skip.value.tag == Mp4 then Outcome(o.session, [SkipAd, Pause] + o.effects)
      else Outcome(o.session, [SkipAd] + o.effects + [Play])
  }

  /** Skipping the last image ad of the postroll seeks back and pauses as
      the end of the postroll should, but the deferred `play` then starts
      the content again. Without a blocker the end of the ad throws, and
      the deferred `play` still runs. */
  lemma SkippedImagePostrollPlays(s: Session)
    requires Clickable(s) && s.skip.value.tag == Image
    requires s.run.value.adIndex + 1 >= |s.run.value.playlist| && AfterPostroll(s)
    ensures s.blockerSet ==> SkipClicked(s).effects == [SkipAd, EndLinearAdMode, Seek(s.run.value.origin), Pause, Play]
    ensures !s.blockerSet ==> SkipClicked(s).effects == [SkipAd, Fault, Play]
  {
  }

  /** The `adtimeupdate` event at ad position `t`. The video handlers are
      never removed, so once any video ad registered one, every later ad's
      button is driven by them, with whatever delay its tracker holds. */
  function AdTimeUpdate(s: Session, t: real): (o: Outcome)
    ensures o.effects == []
    ensures !s.videoListener || s.run.None? || s.skip.None? ==> o.session == s
    ensures s.videoListener && s.run.Some? && s.skip.Some? ==>
              o.session == s.(skip := Some(AdTick(s.skip.value, s.settings.skipTime, t)))
  {
    if !s.videoListener || s.run.None? || s.skip.None? then Outcome(s, [])
    else Outcome(s.(skip := Some(AdTick(s.skip.value, s.settings.skipTime, t))), [])
  }

  /** One run of one of the running countdown intervals (lines 841-856).
      Every interval runs the same code on the player's current tracker and
      button, so a run acts on the last ad started, whatever its type and
      whether or not it still plays; taking the enabling branch clears only
      the interval whose id is in `window.sId`. */
  function CountdownTick(s: Session): (o: Outcome)
    ensures o.effects == []
    ensures o.session == s.(skip := o.session.skip, newestInterval := o.session.newestInterval)
    ensures RunningIntervals(s) == 0 || s.skip.None? ==> o.session == s
    ensures RunningIntervals(s) > 0 && s.skip.Some? ==>
              && o.session.skip == Some(IntervalTick(s.skip.value).0)
              && (o.session.newestInterval <==> s.newestInterval && !IntervalTick(s.skip.value).1)
  {
    if RunningIntervals(s) == 0 || s.skip.None? then Outcome(s, [])
    else
      var (sk, cleared) := IntervalTick(s.skip.value);
      Outcome(s.(skip := Some(sk), newestInterval := s.newestInterval && !cleared), [])
  }

  /** A first video ad without a skip delay registers no countdown, so no
      `adtimeupdate` can enable its button. */
  lemma UnsetDelayNeverEnables(s: Session, e: Entry, t: real)
    requires !s.videoListener && e.creative.skipDelay.None? && EntryTag(e) == Some(Mp4)
    ensures var started := StartPlayAd(s, [e], 0, 0.0).session;
            !Enabled(AdTimeUpdate(started, t).session.skip.value)
  {
  }

  /** ... but after an earlier video ad with a skip delay, the leftover
      handler enables a delay-less ad's button exactly once the position
      reaches both the configured `skipTime` and 0. */
  lemma LeftoverListenerEnables(s: Session, e: Entry, t: real)
    requires s.videoListener && e.creative.skipDelay.None? && EntryTag(e) == Some(Mp4)
    ensures var started := StartPlayAd(s, [e], 0, 0.0).session;
            Enabled(AdTimeUpdate(started, t).session.skip.value) <==> t >= s.settings.skipTime && t >= 0.0
  {
  }

  /** A countdown interval left running by an earlier ad acts on the next
      video ad's tracker: one run lowers its delay to one less than its
      integer part, and the `adtimeupdate` handler then enables the button
      that much earlier. */
  lemma LeftoverIntervalShortensDelay(s: Session, e: Entry, d: real, t: real)
    requires RunningIntervals(s) > 0 && EntryTag(e) == Some(Mp4)
    requires e.creative.skipDelay == Some(d) && d >= 1.0
    ensures var started := StartPlayAd(s, [e], 0, 0.0).session;
            var ticked := CountdownTick(started).session;
            var shorter := (Trunc(d) - 1) as real;
            && shorter < d
            && ticked.skip.value.delay == Seconds(shorter)
            && (Enabled(AdTimeUpdate(ticked, t).session.skip.value) <==> t >= MaxDelay(s.settings.skipTime, shorter))
  {
  }

  /** An image ad whose countdown has not finished when the next image ad
      with a skip delay starts leaves two intervals running, both counting
      down the new ad's delay. */
  lemma SecondImageDoublesCountdown(s: Session, e: Entry, d: real)
    requires s.newestInterval && EntryTag(e) == Some(Image) && e.creative.skipDelay == Some(d)
    ensures var started := StartPlayAd(s, [e], 0, 0.0).session;
            RunningIntervals(started) >= 2 && started.staleIntervals > s.staleIntervals
  {
  }

  // ---------------------------------------------------------------------
  // Corrected readings of three handlers (see README "Findings")

  /** `vmapCallback` with the time array replaced by the new schedule's,
      as the rebuild of `adBreaks` next to it is. */
  function VmapCallbackReplacing(s: Session, manifest: Option<seq<ManifestBreak>>, contentLength: nat, request: Request): (o: Outcome)
    ensures manifest.None? || |manifest.value| == 0 ==> o == VmapCallback(s, manifest, contentLength, request)
    ensures manifest.Some? && |manifest.value| > 0 ==>
              var b := BuildSchedule(manifest.value, contentLength, s.startOffset, s.settings.resumeSkipMidroll);
              && o.session.breaks == b.breaks && o.session.times == b.times
              && o.effects == VmapCallback(s, manifest, contentLength, request).effects
  {
    var o := VmapCallback(s, manifest, contentLength, request);
    if manifest.None? || |manifest.value| == 0 then o
    else
      var b := BuildSchedule(manifest.value, contentLength, s.startOffset, s.settings.resumeSkipMidroll);
      Outcome(o.session.(times := b.times), o.effects)
  }

  /** With the time array replaced, every manifest leaves an aligned
      session behind, however many arrive after one reset. */
  lemma VmapReplacingAligned(s: Session, manifest: seq<ManifestBreak>, contentLength: nat, request: Request)
    requires Aligned(s)
    ensures Aligned(VmapCallbackReplacing(s, Some(manifest), contentLength, request).session)
  {
    if |manifest| > 0 {
      var b := BuildSchedule(manifest, contentLength, s.startOffset, s.settings.resumeSkipMidroll);
      var r := VmapCallbackReplacing(s, Some(manifest), contentLength, request).session;
      BuiltAligned(manifest, contentLength, s.startOffset, s.settings.resumeSkipMidroll);
      SameScheduleAligned(r, b.breaks, b.times);
    }
  }

  /** As written, two manifests arriving after one reset (two content
      updates in a row, or two deferred ones applied by the same `ended`)
      leave a time array twice as long as the break list. */
  lemma TwoManifestsMisalign(s: Session, manifest: seq<ManifestBreak>, contentLength: nat, request: Request)
    requires s.times == [] && s.breaks == [] && |manifest| > 0
    requires |BuildSchedule(manifest, contentLength, s.startOffset, s.settings.resumeSkipMidroll).breaks| > 0
    ensures var first := VmapCallback(s, Some(manifest), contentLength, request).session;
            var second := VmapCallback(first, Some(manifest), contentLength, request).session;
            && |second.times| == 2 * |second.breaks| > 0
            && !Aligned(second)
  {
    var b := BuildSchedule(manifest, contentLength, s.startOffset, s.settings.resumeSkipMidroll);
    var first := VmapCallback(s, Some(manifest), contentLength, request).session;
    BuiltAligned(manifest, contentLength, s.startOffset, s.settings.resumeSkipMidroll);
    assert first.times == [] + b.times;
    var second := VmapCallback(first, Some(manifest), contentLength, request).session;
    assert second.breaks == b.breaks && |second.times| == |first.times| + |b.times|;
  }

  /** A one-break manifest holding only a preroll schedules that break. */
  lemma ExamplePrerollOnlySchedule(d: Descriptor, contentLength: nat, startOffset: real, resumeSkipMidroll: bool)
    ensures |BuildSchedule([ManifestBreak("start", d)], contentLength, startOffset, resumeSkipMidroll).breaks| > 0
  {
    var m := [ManifestBreak("start", d)];
    var offsets := Offsets(m, contentLength);
    assert "start" <= m[0].timeOffset;
    assert offsets[0] == Start;
    ScheduledBreaks(m, offsets, startOffset, resumeSkipMidroll, 0);
  }

  /** `vastCallback` as evidently intended for a document without linear
      creatives: report the error on the break being played, move past
      it, and give the player back to the content. */
  function VastCallbackCorrected(s: Session, vast: Vast, position: real): (o: Outcome)
    ensures |Entries(vast.ads)| > 0 ==> o == VastCallback(s, Some(vast), position)
  {
    var playlist := Entries(vast.ads);
    if |playlist| > 0 then VastCallback(s, Some(vast), position)
    else
      var track := if s.cursor < |s.breaks| && s.breaks[s.cursor].descriptor.tracked then [TrackBreakError(s.cursor)] else [];
      var c := StartPlayContent(s.(cursor := s.cursor + 1), Origin(s, position));
      Outcome(c.session, [Pause, StartLinearAdMode] + track + c.effects)
  }

  /** Corrected, an empty break never throws, advances the cursor by one,
      reports its own break's error, and leaves ad mode. */
  lemma EmptyBreakCorrected(s: Session, vast: Vast, position: real)
    requires |Entries(vast.ads)| == 0
    ensures var o := VastCallbackCorrected(s, vast, position);
            && Fault !in o.effects
            && o.session.cursor == s.cursor + 1
            && !o.session.inAdMode && o.session.run.None?
            && EndLinearAdMode in o.effects
            && (s.cursor < |s.breaks| ==>
                  (TrackBreakError(s.cursor) in o.effects <==> s.breaks[s.cursor].descriptor.tracked))
  {
    var track := if s.cursor < |s.breaks| && s.breaks[s.cursor].descriptor.tracked then [TrackBreakError(s.cursor)] else [];
    var c := StartPlayContent(s.(cursor := s.cursor + 1), Origin(s, position));
    ResumeEffects(track, c.effects, s.cursor);
  }

  /** The effects of a corrected empty break: the error report, if any, and
      then the content resumes. */
  lemma ResumeEffects(track: seq<Effect>, resume: seq<Effect>, i: nat)
    requires track == [] || track == [TrackBreakError(i)]
    requires resume == [EndLinearAdMode, Play] || exists q :: resume == [EndLinearAdMode, Seek(q), Pause]
    ensures var effects := [Pause, StartLinearAdMode] + track + resume;
            && Fault !in effects && EndLinearAdMode in effects
            && (TrackBreakError(i) in effects <==> track != [])
  {
    var effects := [Pause, StartLinearAdMode] + track + resume;
    assert effects[|effects| - |resume|] == EndLinearAdMode;
    assert Fault !in resume && TrackBreakError(i) !in resume;
  }

  /** As written, an empty first break (a preroll whose document has no
      linear creative) throws and leaves the player in ad mode with the
      cursor still on the preroll. */
  lemma EmptyFirstBreakStuck(s: Session, vast: Vast, position: real)
    requires |Entries(vast.ads)| == 0 && s.cursor == 0 && s.inAdMode
    ensures var o := VastCallback(s, Some(vast), position);
            && Fault in o.effects
            && o.session.inAdMode
            && o.session.cursor == 0
            && EndLinearAdMode !in o.effects
  {
  }

  /** The `adtimeupdate` handling as evidently intended: only the playing
      ad's own handler, registered for every video ad whether or not its
      creative has a skip delay (line 880 without its guard). */
  function AdTimeUpdateCorrected(s: Session, t: real): (o: Outcome)
    ensures s.run.Some? && s.skip.Some? && s.skip.value.tag == Mp4 ==>
              o == AdTimeUpdate(s.(videoListener := true), t)
    ensures s.run.None? || s.skip.None? || s.skip.value.tag != Mp4 ==> o == Outcome(s, [])
  {
    if s.run.None? || s.skip.None? || s.skip.value.tag != Mp4 then Outcome(s, [])
    else AdTimeUpdate(s.(videoListener := true), t)
  }

  /** The countdown as evidently intended: an interval belongs to its image
      ad, runs only while that ad plays, and stops once it enables the
      button. */
  function CountdownTickCorrected(s: Session): (o: Outcome)
    ensures s.run.None? || s.skip.None? || !s.skip.value.countdown || !s.skip.value.delay.Seconds? ==>
              o == Outcome(s, [])
    ensures s.run.Some? && s.skip.Some? && s.skip.value.countdown && s.skip.value.delay.Seconds? ==>
              o == Outcome(s.(skip := Some(ImageTick(s.skip.value))), [])
  {
    if s.run.None? || s.skip.None? || !s.skip.value.countdown || !s.skip.value.delay.Seconds? then Outcome(s, [])
    else Outcome(s.(skip := Some(ImageTick(s.skip.value))), [])
  }

  /** Corrected, no countdown touches a video ad: its delay stays the
      creative's, and its button is enabled exactly when the position
      reaches both that delay and `skipTime`. */
  lemma VideoAdIgnoresIntervalsCorrected(s: Session, e: Entry, d: real, t: real)
    requires EntryTag(e) == Some(Mp4) && e.creative.skipDelay == Some(d)
    ensures var started := StartPlayAd(s, [e], 0, 0.0).session;
            var ticked := CountdownTickCorrected(started).session;
            && ticked == started
            && ticked.skip.value.delay == Seconds(d)
            && (Enabled(AdTimeUpdateCorrected(ticked, t).session.skip.value) <==> t >= MaxDelay(s.settings.skipTime, d))
  {
  }

  /** Corrected, an image ad with a whole delay of `n` seconds is counted
      down by its own interval alone, one second per run. */
  lemma ImageAdOwnCountdownCorrected(s: Session, e: Entry, n: nat)
    requires EntryTag(e) == Some(Image) && e.creative.skipDelay == Some(n as real)
    ensures var started := StartPlayAd(s, [e], 0, 0.0).session;
            var ticked := CountdownTickCorrected(started).session;
            && started.skip.value.countdown
            && ticked.skip == Some(ImageTick(started.skip.value))
            && (n > 0 ==> ticked.skip.value.delay == Seconds((n - 1) as real))
  {
    assert Trunc(n as real) == n;
  }

  /** Corrected, a video ad without a skip delay takes the delay as 0: its
      button is enabled exactly once the position reaches the configured
      `skipTime`, whatever played before it. */
  lemma UnsetDelayEnablesAtSkipTimeCorrected(s: Session, e: Entry, t: real)
    requires e.creative.skipDelay.None? && EntryTag(e) == Some(Mp4)
    ensures var started := StartPlayAd(s, [e], 0, 0.0).session;
            Enabled(AdTimeUpdateCorrected(started, t).session.skip.value) <==> t >= MaxDelay(s.settings.skipTime, 0.0)
  {
  }

  // ---------------------------------------------------------------------
  // The session as one state machine over player events

  datatype Event =
    | ManifestArrived(manifest: Option<seq<ManifestBreak>>, contentLength: nat, request: Request)
    | ContentUpdated                        // `contentupdate`
    | PlayerEnded                           // `ended`
    | PlayerPlay                            // `play`
    | TimeUpdate(position: real)            // `timeupdate`, for `timeUpdateHandle`
    | ContentPlayback(position: real)       // `contentplayback`, always for `timeUpdateHandle`
    | OffsetPoll(before: real, after: real) // `timeupdate`, for `forceOffset`
    | ReadyForPreroll                       // `readyforpreroll`
    | ContentFinished                       // `contentended`
    | CreativesArrived(doc: Option<Vast>, position: real)
    | AdFinished                            // `adended` or `aderror`
    | SkipPressed
    | AdTimeUpdated(t: real)                // `adtimeupdate`
    | CountdownFired                        // one run of one countdown interval

  /** The handlers the plugin has registered for each event, as written
      (lines 1064-1066 and the handlers' own registrations). */
  function Step(s: Session, ev: Event): Outcome {
    match ev
    case ManifestArrived(m, n, req) => VmapCallback(s, m, n, req)
    case ContentUpdated => ContentUpdate(s)
    case PlayerEnded => Ended(s)
    case PlayerPlay => PlayStarted(s)
    case TimeUpdate(p) => OnTimeUpdate(s, p)
    case ContentPlayback(p) => TimeUpdateHandle(s, p)
    case OffsetPoll(before, after) => OnOffsetPoll(s, before, after)
    case ReadyForPreroll => PrerollHandle(s)
    case ContentFinished => ContentEnded(s)
    case CreativesArrived(doc, p) => VastCallback(s, doc, p)
    case AdFinished => NextOrEndAd(s)
    case SkipPressed => SkipClicked(s)
    case AdTimeUpdated(t) => AdTimeUpdate(s, t)
    case CountdownFired => CountdownTick(s)
  }

  /** The schedule stays aligned through every event, provided a manifest
      only arrives on a freshly reset session (see `TwoManifestsMisalign`
      for what happens otherwise). */
  lemma StepKeepsAligned(s: Session, ev: Event)
    requires Aligned(s)
    requires ev.ManifestArrived? ==> s.times == [] && s.breaks == []
    ensures Aligned(Step(s, ev).session)
  {
    match ev
    case ManifestArrived(m, n, req) =>
      if m.Some? { VmapAfterResetAligned(s, m.value, n, req); }
    case ContentUpdated =>
    case PlayerEnded =>
    case _ =>
      StepKeepsSchedule(s, ev);
  }

  /** Only a manifest and a content change touch the break list and the
      time array; every other event leaves both as they were. */
  lemma StepKeepsSchedule(s: Session, ev: Event)
    requires !ev.ManifestArrived? && !ev.ContentUpdated? && !ev.PlayerEnded?
    ensures Step(s, ev).session.breaks == s.breaks && Step(s, ev).session.times == s.times
  {
    if AdEvent(ev) {
      AdEventKeepsSchedule(s, ev);
    } else {
      match ev
      case PlayerPlay => assert Step(s, ev) == PlayStarted(s);
      case TimeUpdate(p) => assert Step(s, ev) == OnTimeUpdate(s, p);
      case ContentPlayback(p) => assert Step(s, ev) == TimeUpdateHandle(s, p);
      case OffsetPoll(before, after) => assert Step(s, ev) == OnOffsetPoll(s, before, after);
      case ReadyForPreroll => assert Step(s, ev) == PrerollHandle(s);
      case ContentFinished => assert Step(s, ev) == ContentEnded(s);
    }
  }

  /** The events of a playing break. */
  predicate AdEvent(ev: Event) {
    ev.CreativesArrived? || ev.AdFinished? || ev.SkipPressed? || ev.AdTimeUpdated? || ev.CountdownFired?
  }

  lemma AdEventKeepsSchedule(s: Session, ev: Event)
    requires AdEvent(ev)
    ensures Step(s, ev).session.breaks == s.breaks && Step(s, ev).session.times == s.times
  {
    match ev
    case CreativesArrived(doc, p) => assert Step(s, ev) == VastCallback(s, doc, p);
    case AdFinished => assert Step(s, ev) == NextOrEndAd(s);
    case SkipPressed => assert Step(s, ev) == SkipClicked(s);
    case AdTimeUpdated(t) => assert Step(s, ev) == AdTimeUpdate(s, t);
    case CountdownFired => assert Step(s, ev) == CountdownTick(s);
  }

  /** Only a creative document moves the cursor, by one; only a content
      change resets it; nothing else touches it. */
  lemma StepCursor(s: Session, ev: Event)
    ensures var c := Step(s, ev).session.cursor;
            || c == s.cursor
            || (ev.CreativesArrived? && c == s.cursor + 1)
            || ((ev.ContentUpdated? || ev.PlayerEnded?) && c == 0)
  {
    if ev.CreativesArrived? {
      VastCallbackAdvances(s, ev.doc, ev.position);
    }
  }

  /** `contentplayback` runs `timeUpdateHandle` directly (line 1066), so a
      due midroll fires even after every `timeupdate` copy was removed, when
      a `timeupdate` does nothing. */
  lemma ContentPlaybackBypassesListener(s: Session, p: real)
    requires s.tickListeners == 0 && Due(s, p) && Requestable(s.breaks[s.cursor].descriptor)
    ensures Step(s, TimeUpdate(p)) == Outcome(s, [])
    ensures FetchCreatives(FetchFor(s, s.cursor)) in Step(s, ContentPlayback(p)).effects
    ensures Step(s, ContentPlayback(p)).session.inAdMode
  {
  }

  /** The events `evs` handled one after another. */
  function Steps(s: Session, evs: seq<Event>): Outcome
    decreases |evs|
  {
    if |evs| == 0 then Outcome(s, [])
    else
      var first := Step(s, evs[0]);
      var rest := Steps(first.session, evs[1..]);
      Outcome(rest.session, first.effects + rest.effects)
  }

  /** Only a content tick arms the postroll, and only when the break at the
      cursor is the postroll (offset -1). */
  lemma PostrollArmedOnlyByTick(s: Session, ev: Event)
    requires s.postrollListeners == 0
    ensures Step(s, ev).session.postrollListeners > 0 ==>
              && (ev.TimeUpdate? || ev.ContentPlayback?)
              && s.cursor < |s.breaks| && s.breaks[s.cursor].offset == End
  {
    match ev
    case ManifestArrived(m, n, req) => assert Step(s, ev) == VmapCallback(s, m, n, req);
    case ContentUpdated => assert Step(s, ev) == ContentUpdate(s);
    case PlayerEnded => assert Step(s, ev) == Ended(s);
    case PlayerPlay => assert Step(s, ev) == PlayStarted(s);
    case TimeUpdate(p) => assert Step(s, ev) == OnTimeUpdate(s, p);
    case ContentPlayback(p) => assert Step(s, ev) == TimeUpdateHandle(s, p);
    case OffsetPoll(before, after) => assert Step(s, ev) == OnOffsetPoll(s, before, after);
    case ReadyForPreroll => assert Step(s, ev) == PrerollHandle(s);
    case ContentFinished => assert Step(s, ev) == ContentEnded(s);
    case CreativesArrived(doc, p) => assert Step(s, ev) == VastCallback(s, doc, p);
    case AdFinished => assert Step(s, ev) == NextOrEndAd(s);
    case SkipPressed => assert Step(s, ev) == SkipClicked(s);
    case AdTimeUpdated(t) => assert Step(s, ev) == AdTimeUpdate(s, t);
    case CountdownFired => assert Step(s, ev) == CountdownTick(s);
  }

  /** After `contentended` has run the postroll handler, no later
      `contentended` fetches anything again until a content tick re-arms
      it, whatever else happens in between. */
  lemma {:induction false} PostrollFetchedOnce(s: Session, evs: seq<Event>)
    requires s.postrollListeners == 0
    requires forall i | 0 <= i < |evs| :: !evs[i].TimeUpdate? && !evs[i].ContentPlayback?
    ensures var r := Steps(s, evs).session;
            r.postrollListeners == 0 && Step(r, ContentFinished) == Outcome(r, [])
    decreases |evs|
  {
    if |evs| > 0 {
      PostrollArmedOnlyByTick(s, evs[0]);
      PostrollFetchedOnce(Step(s, evs[0]).session, evs[1..]);
    }
  }

  /** Only a run of a countdown interval stops one, and it stops at most
      one: every other event leaves at least as many running, and an
      interval that lost its id is never stopped. */
  lemma IntervalsOutliveAds(s: Session, ev: Event)
    ensures Step(s, ev).session.staleIntervals >= s.staleIntervals
    ensures RunningIntervals(Step(s, ev).session) + (if ev.CountdownFired? then 1 else 0) >= RunningIntervals(s)
  {
    if AdEvent(ev) {
      match ev
      case CreativesArrived(doc, p) => assert Step(s, ev) == VastCallback(s, doc, p);
      case AdFinished => assert Step(s, ev) == NextOrEndAd(s);
      case SkipPressed => assert Step(s, ev) == SkipClicked(s);
      case AdTimeUpdated(t) => assert Step(s, ev) == AdTimeUpdate(s, t);
      case CountdownFired => assert Step(s, ev) == CountdownTick(s);
    } else {
      ContentEventKeepsIntervals(s, ev);
    }
  }

  lemma ContentEventKeepsIntervals(s: Session, ev: Event)
    requires !AdEvent(ev)
    ensures Step(s, ev).session.staleIntervals == s.staleIntervals
    ensures Step(s, ev).session.newestInterval == s.newestInterval
  {
    match ev
    case ManifestArrived(m, n, req) => assert Step(s, ev) == VmapCallback(s, m, n, req);
    case ContentUpdated => assert Step(s, ev) == ContentUpdate(s);
    case PlayerEnded => assert Step(s, ev) == Ended(s);
    case PlayerPlay => assert Step(s, ev) == PlayStarted(s);
    case TimeUpdate(p) => assert Step(s, ev) == OnTimeUpdate(s, p);
    case ContentPlayback(p) => assert Step(s, ev) == TimeUpdateHandle(s, p);
    case OffsetPoll(before, after) => assert Step(s, ev) == OnOffsetPoll(s, before, after);
    case ReadyForPreroll => assert Step(s, ev) == PrerollHandle(s);
    case ContentFinished => assert Step(s, ev) == ContentEnded(s);
  }

  /** The events an ad's button sees while it plays. */
  predicate AdTickEvent(ev: Event) {
    ev.AdTimeUpdated? || ev.CountdownFired?
  }

  /** An ad started while skipping is not allowed, or with a skip delay of
      exactly 0, has its button hidden; hiding is never undone, so no click
      can skip that ad, however its countdowns run. */
  lemma {:induction false} HiddenButtonNeverSkips(s: Session, e: Entry, evs: seq<Event>)
    requires EntryTag(e).Some? && (!s.settings.allowSkip || e.creative.skipDelay == Some(0.0))
    requires forall i | 0 <= i < |evs| :: AdTickEvent(evs[i])
    ensures var r := Steps(StartPlayAd(s, [e], 0, 0.0).session, evs).session;
            SkipClicked(r) == Outcome(r, [])
  {
    var started := StartPlayAd(s, [e], 0, 0.0).session;
    HiddenStaysHidden(started, evs);
  }

  lemma {:induction false} HiddenStaysHidden(s: Session, evs: seq<Event>)
    requires s.skip.Some? && s.skip.value.hidden
    requires forall i | 0 <= i < |evs| :: AdTickEvent(evs[i])
    ensures var r := Steps(s, evs).session;
            r.skip.Some? && r.skip.value.hidden
    decreases |evs|
  {
    if |evs| > 0 {
      var next := Step(s, evs[0]).session;
      assert next.skip.Some? && next.skip.value.hidden by {
        if evs[0].CountdownFired? {
          assert Step(s, evs[0]) == CountdownTick(s);
        } else {
          assert Step(s, evs[0]) == AdTimeUpdate(s, evs[0].t);
        }
      }
      HiddenStaysHidden(next, evs[1..]);
    }
  }

  /** A session about to play a preroll and a postroll, each with an
      inline document, and nothing else. */
  predicate PrePostSession(s: Session, d0: Descriptor, d1: Descriptor) {
    && s.breaks == [AdBreak(Start, d0), AdBreak(End, d1)]
    && s.times == [Start, End]
    && s.cursor == 0 && !s.inAdMode && s.run.None? && s.postrollListeners == 0
    && s.startOffset == 0.0
    && !d0.isWrapper && d0.hasInlineData && !d1.isWrapper && d1.hasInlineData
  }

  /** The preroll: `readyforpreroll` fetches break 0 and its document plays
      its one ad. When the ad ends, and some ad had a click-through, the
      content plays on with one more copy of the tick listener and the
      cursor at the postroll; otherwise the handler throws and the player
      stays in ad mode. */
  lemma PrerollRun(s: Session, d0: Descriptor, d1: Descriptor, vast: Vast, e: Entry, p: real)
    requires PrePostSession(s, d0, d1)
    requires Entries(vast.ads) == [e] && EntryTag(e).Some?
    ensures var o1 := Step(s, ReadyForPreroll);
            var o2 := Step(o1.session, CreativesArrived(Some(vast), p));
            var o3 := Step(o2.session, AdFinished);
            var ok := s.blockerSet || e.creative.hasClickThrough;
            && o1.effects == [FetchCreatives(Inline(0))]
            && o2.effects == [Pause, StartLinearAdMode, PlayAd(e)]
            && o3.session.cursor == 1 && o3.session.breaks == s.breaks && o3.session.times == s.times
            && o3.session.postrollListeners == 0 && o3.session.startOffset == 0.0
            && (ok ==> && o3.effects == [EndLinearAdMode, Play]
                       && !o3.session.inAdMode && o3.session.tickListeners == s.tickListeners + 1)
            && (!ok ==> o3.effects == [Fault] && o3.session.inAdMode && o3.session.run.None?)
  {
    var o1 := Step(s, ReadyForPreroll);
    assert o1.session == s.(inAdMode := true);
    FirstAdStarts(o1.session, vast, e, p);
    var o2 := Step(o1.session, CreativesArrived(Some(vast), p));
    VastCallbackStartsFirstAd(o1.session, vast, p);
    LastAdEnds(o2.session);
  }

  /** A document whose playlist is one playable entry plays that entry,
      and the blocker is there afterwards iff it was before or the entry
      has a click-through. */
  lemma FirstAdStarts(s: Session, vast: Vast, e: Entry, p: real)
    requires Entries(vast.ads) == [e] && EntryTag(e).Some?
    ensures var o := Step(s, CreativesArrived(Some(vast), p));
            && o.effects == [Pause, StartLinearAdMode, PlayAd(e)]
            && o.session.cursor == s.cursor + 1
            && o.session.breaks == s.breaks && o.session.times == s.times
            && o.session.run.Some? && o.session.run.value.adIndex == 0
            && |o.session.run.value.playlist| == 1
            && o.session.inAdMode
            && o.session.tickListeners == s.tickListeners
            && o.session.postrollListeners == s.postrollListeners
            && o.session.startOffset == s.startOffset
            && (o.session.blockerSet <==> s.blockerSet || e.creative.hasClickThrough)
  {
    VastCallbackStartsFirstAd(s, vast, p);
  }

  /** The end of the last ad of a break that is not the postroll resumes
      the content with one more tick listener, once the blocker exists. */
  lemma LastAdEnds(s: Session)
    requires s.run.Some? && s.run.value.adIndex + 1 >= |s.run.value.playlist|
    requires s.cursor == 1 && |s.times| == 2 && s.times[0] == Start
    ensures var o := Step(s, AdFinished);
            && o.session.cursor == 1 && o.session.breaks == s.breaks && o.session.times == s.times
            && o.session.postrollListeners == s.postrollListeners && o.session.startOffset == s.startOffset
            && (s.blockerSet ==> && o.effects == [EndLinearAdMode, Play]
                                 && !o.session.inAdMode && o.session.tickListeners == s.tickListeners + 1)
            && (!s.blockerSet ==> o.effects == [Fault] && o.session == s.(run := None))
  {
  }

  /** Every copy of the tick listener arms one copy of the postroll
      handler at the next tick, and `contentended` then runs each, so the
      postroll is fetched once per tick listener; after a preroll there
      are two. */
  lemma PostrollArmed(s: Session, d0: Descriptor, d1: Descriptor, p: real)
    requires && s.breaks == [AdBreak(Start, d0), AdBreak(End, d1)]
             && s.cursor == 1 && !s.inAdMode && s.tickListeners > 0 && s.postrollListeners == 0
             && !d1.isWrapper && d1.hasInlineData
    ensures var o1 := Step(s, TimeUpdate(p));
            var o2 := Step(o1.session, ContentFinished);
            && o1.effects == (if s.startOffset > 0.0 then [Seek(s.startOffset)] else [])
            && o1.session.postrollListeners == s.tickListeners && o1.session.tickListeners == 0
            && o2.effects == Repeat([FetchCreatives(Inline(1))], s.tickListeners)
            && o2.session.inAdMode && o2.session.postrollListeners == 0
            && (s.tickListeners == 2 ==> o2.effects == [FetchCreatives(Inline(1)), FetchCreatives(Inline(1))])
  {
    assert !Due(s, p);
    assert PostrollDue(s);
    TickArmsPostrollPerListener(s, p);
    var o1 := Step(s, TimeUpdate(p));
    assert o1.session.cursor == 1 && o1.session.breaks == s.breaks;
    PostrollFetchedPerListener(o1.session);
    if s.tickListeners == 2 {
      var x := FetchCreatives(Inline(1));
      assert Repeat([x], 2) == [x] + Repeat([x], 1) == [x] + ([x] + Repeat([x], 0));
    }
  }

  /** A manifest's single tick listener, plus the one the end of the
      preroll adds, make `contentended` fetch the postroll twice. */
  lemma PostrollFetchedTwice(s: Session, d0: Descriptor, d1: Descriptor, vast: Vast, e: Entry, p: real, q: real)
    requires PrePostSession(s, d0, d1) && s.tickListeners == 1
    requires s.blockerSet || e.creative.hasClickThrough
    requires Entries(vast.ads) == [e] && EntryTag(e).Some?
    ensures var o1 := Step(s, ReadyForPreroll);
            var o2 := Step(o1.session, CreativesArrived(Some(vast), p));
            var o3 := Step(o2.session, AdFinished);
            var o4 := Step(o3.session, TimeUpdate(q));
            var o5 := Step(o4.session, ContentFinished);
            && o3.effects == [EndLinearAdMode, Play] && o4.effects == []
            && o5.effects == [FetchCreatives(Inline(1)), FetchCreatives(Inline(1))]
  {
    PrerollRun(s, d0, d1, vast, e, p);
    var o3 := Step(Step(Step(s, ReadyForPreroll).session, CreativesArrived(Some(vast), p)).session, AdFinished);
    PostrollArmed(o3.session, d0, d1, q);
  }

  /** Corrected, the same run fetches the postroll once. */
  lemma PostrollFetchedOnceAfterPrerollCorrected(s: Session, d0: Descriptor, d1: Descriptor, vast: Vast, e: Entry, p: real, q: real)
    requires PrePostSession(s, d0, d1) && s.tickListeners == 1
    requires s.blockerSet || e.creative.hasClickThrough
    requires Entries(vast.ads) == [e] && EntryTag(e).Some?
    ensures var o1 := Step(s, ReadyForPreroll);
            var o2 := Step(o1.session, CreativesArrived(Some(vast), p));
            var o3 := Step(o2.session, AdFinished);
            var o4 := Step(o3.session, TimeUpdate(q));
            ContentEndedCorrected(o4.session).effects == [FetchCreatives(Inline(1))]
  {
    PrerollRun(s, d0, d1, vast, e, p);
    var o3 := Step(Step(Step(s, ReadyForPreroll).session, CreativesArrived(Some(vast), p)).session, AdFinished);
    PostrollArmed(o3.session, d0, d1, q);
    var o4 := Step(o3.session, TimeUpdate(q));
    PostrollFetchedOnceCorrected(o4.session);
  }

  /** After the postroll's ad the player goes back to where the postroll
      started and pauses instead of playing, once the blocker exists. */
  lemma PostrollRun(s: Session, d0: Descriptor, d1: Descriptor, vast: Vast, e: Entry, q: real)
    requires && s.breaks == [AdBreak(Start, d0), AdBreak(End, d1)] && s.times == [Start, End]
             && s.cursor == 1 && s.inAdMode && s.tickListeners == 0
    requires Entries(vast.ads) == [e] && EntryTag(e).Some?
    ensures var o3 := Step(s, CreativesArrived(Some(vast), q));
            var o4 := Step(o3.session, AdFinished);
            var ok := s.blockerSet || e.creative.hasClickThrough;
            && o3.effects == [Pause, StartLinearAdMode, PlayAd(e)]
            && o4.session.cursor == 2 && o4.session.tickListeners == 0
            && (ok ==> o4.effects == [EndLinearAdMode, Seek(q), Pause] && !o4.session.inAdMode)
            && (!ok ==> o4.effects == [Fault] && o4.session.inAdMode && o4.session.run.None?)
  {
    FirstAdStarts(s, vast, e, q);
    var o3 := Step(s, CreativesArrived(Some(vast), q));
    VastCallbackStartsFirstAd(s, vast, q);
    assert o3.session.run.value.origin == q;
    LastPostrollAdEnds(o3.session);
  }

  /** The end of the postroll's last ad goes back to the break's origin
      and pauses, once the blocker exists. */
  lemma LastPostrollAdEnds(s: Session)
    requires s.run.Some? && s.run.value.adIndex + 1 >= |s.run.value.playlist|
    requires s.cursor == 2 && |s.times| == 2 && s.times[1] == End
    ensures var o := Step(s, AdFinished);
            && o.session.cursor == 2
            && (s.blockerSet ==> && o.effects == [EndLinearAdMode, Seek(s.run.value.origin), Pause]
                                 && !o.session.inAdMode && o.session.tickListeners == 0)
            && (!s.blockerSet ==> o.effects == [Fault] && o.session == s.(run := None))
  {
  }
}

=== FILE: text.dfy ===
/** String helpers that reproduce the JavaScript string operations the ad
    scheduler relies on: decimal digit runs (`match(/\d+/)`, `match(/\d+/g)`,
    `parseInt(s, 10)`), number-to-string conversion, `split` on one character
    and the default string ordering used by `Array.prototype.sort`. */
module Text {

  predicate IsDigit(c: char) {
    '0' <= c <= '9'
  }

  predicate AllDigits(s: string) {
    forall i | 0 <= i < |s| :: IsDigit(s[i])
  }

  function DigitValue(c: char): (d: nat)
    requires IsDigit(c)
    ensures d < 10
  {
    (c as int) - ('0' as int)
  }

  function DigitChar(d: nat): (c: char)
    requires d < 10
    ensures IsDigit(c) && DigitValue(c) == d
  {
    ('0' as int + d) as char
  }

  /** Value of a string of decimal digits, as `parseInt(s, 10)` reads it
      (leading zeros are allowed and ignored). */
  function ParseDigits(s: string): nat
    requires AllDigits(s)
  {
    if |s| == 0 then 0 else 10 * ParseDigits(s[..|s| - 1]) + DigitValue(s[|s| - 1])
  }

  /** The value of a two-digit string. */
  lemma ParseTwoDigits(a: char, b: char)
    requires IsDigit(a) && IsDigit(b)
    ensures ParseDigits([a, b]) == 10 * DigitValue(a) + DigitValue(b)
  {
    assert [a][..0] == [];
    assert ParseDigits([a]) == DigitValue(a);
    assert [a, b][..1] == [a];
  }

  /** Decimal rendering of a natural number, as `String(n)` writes it. */
  function Decimal(n: nat): (s: string)
    ensures |s| > 0 && AllDigits(s)
  {
    if n < 10 then [DigitChar(n)] else Decimal(n / 10) + [DigitChar(n % 10)]
  }

  /** `parseInt(String(n), 10) == n`. */
  lemma {:induction false} DecimalRoundTrip(n: nat)
    ensures ParseDigits(Decimal(n)) == n
  {
    if n >= 10 {
      var prefix := Decimal(n / 10);
      var s := prefix + [DigitChar(n % 10)];
      assert Decimal(n) == s;
      assert s[..|s| - 1] == prefix;
      DecimalRoundTrip(n / 10);
    }
  }

  /** Different numbers have different decimal renderings. */
  lemma DecimalInjective(a: nat, b: nat)
    requires Decimal(a) == Decimal(b)
    ensures a == b
  {
    DecimalRoundTrip(a);
    DecimalRoundTrip(b);
  }

  /** The longest prefix of `s` made of decimal digits. */
  function LeadingDigits(s: string): (d: string)
    ensures d <= s && AllDigits(d)
    ensures |d| < |s| ==> !IsDigit(s[|d|])
  {
    if |s| == 0 || !IsDigit(s[0]) then "" else [s[0]] + LeadingDigits(s[1..])
  }

  /** A digit string followed by a non-digit (or by nothing) is exactly the
      leading digit run. */
  lemma {:induction false} LeadingDigitsOf(d: string, rest: string)
    requires AllDigits(d)
    requires |rest| == 0 || !IsDigit(rest[0])
    ensures LeadingDigits(d + rest) == d
  {
    if |d| > 0 {
      assert (d + rest)[1..] == d[1..] + rest;
      LeadingDigitsOf(d[1..], rest);
    } else {
      assert d + rest == rest;
    }
  }

  /** All maximal runs of decimal digits in `s`, left to right: the array that
      `s.match(/\d+/g)` returns (empty where JavaScript returns null). */
  function DigitRuns(s: string): (runs: seq<string>)
    ensures forall i | 0 <= i < |runs| :: |runs[i]| > 0 && AllDigits(runs[i])
    decreases |s|
  {
    if |s| == 0 then []
    else if !IsDigit(s[0]) then DigitRuns(s[1..])
    else
      var d := LeadingDigits(s);
      [d] + DigitRuns(s[|d|..])
  }

  /** A non-empty digit string followed by a non-digit contributes exactly one
      run and the scan resumes after it. */
  lemma DigitRunsOf(d: string, c: char, rest: string)
    requires |d| > 0 && AllDigits(d) && !IsDigit(c)
    ensures DigitRuns(d + [c] + rest) == [d] + DigitRuns(rest)
  {
    var s := d + [c] + rest;
    LeadingDigitsOf(d, [c] + rest);
    assert s == d + ([c] + rest);
    assert s[|d|..] == [c] + rest;
    assert ([c] + rest)[1..] == rest;
  }

  /** A non-empty digit string on its own is a single run. */
  lemma DigitRunsOfDigits(d: string)
    requires |d| > 0 && AllDigits(d)
    ensures DigitRuns(d) == [d]
  {
    LeadingDigitsOf(d, "");
    assert d + "" == d;
    assert d[|d|..] == "";
  }

  /** `s.split(c)` for a one-character separator: the pieces between
      consecutive occurrences of `c`; the empty string gives `[""]`. */
  function Split(s: string, c: char): (parts: seq<string>)
    ensures |parts| >= 1
    ensures forall i | 0 <= i < |parts| :: c !in parts[i]
  {
    if |s| == 0 then [""]
    else
      var rest := Split(s[1..], c);
      if s[0] == c then [""] + rest else [[s[0]] + rest[0]] + rest[1..]
  }

  /** `parts.join(c)`. */
  function Join(parts: seq<string>, c: char): string
    requires |parts| >= 1
  {
    if |parts| == 1 then parts[0] else parts[0] + [c] + Join(parts[1..], c)
  }

  /** Joining the pieces of a split gives back the original string. */
  lemma {:induction false} JoinSplit(s: string, c: char)
    ensures Join(Split(s, c), c) == s
  {
    if |s| > 0 {
      var rest := Split(s[1..], c);
      JoinSplit(s[1..], c);
      if s[0] == c {
        assert Split(s, c) == [""] + rest;
        assert ([""] + rest)[1..] == rest;
        assert s == [c] + s[1..];
      } else {
        var parts := [[s[0]] + rest[0]] + rest[1..];
        assert Split(s, c) == parts;
        if |rest| == 1 {
          assert parts == [[s[0]] + rest[0]];
          assert Join(rest, c) == rest[0];
        } else {
          assert parts[1..] == rest[1..];
          assert Join(rest, c) == rest[0] + [c] + Join(rest[1..], c);
        }
      }
    }
  }

  /** Splitting a join of separator-free pieces gives back the pieces. */
  lemma {:induction false} SplitJoin(parts: seq<string>, c: char)
    requires |parts| >= 1
    requires forall i | 0 <= i < |parts| :: c !in parts[i]
    ensures Split(Join(parts, c), c) == parts
  {
    if |parts| == 1 {
      SplitNoSeparator(parts[0], c);
    } else {
      SplitJoin(parts[1..], c);
      SplitPrefix(parts[0], c, Join(parts[1..], c));
      assert [parts[0]] + parts[1..] == parts;
    }
  }

  /** A string without the separator splits into itself. */
  lemma {:induction false} SplitNoSeparator(p: string, c: char)
    requires c !in p
    ensures Split(p, c) == [p]
  {
    if |p| > 0 {
      assert c !in p[1..] by {
        forall i | 0 <= i < |p[1..]| ensures p[1..][i] != c {
          assert p[1..][i] == p[i + 1];
        }
      }
      SplitNoSeparator(p[1..], c);
      assert [p[0]] + p[1..] == p;
    }
  }

  /** A separator-free piece followed by the separator becomes the first
      piece of the split. */
  lemma {:induction false} SplitPrefix(p: string, c: char, rest: string)
    requires c !in p
    ensures Split(p + [c] + rest, c) == [p] + Split(rest, c)
  {
    var s := p + [c] + rest;
    if |p| == 0 {
      assert s == [c] + rest;
      assert s[1..] == rest;
    } else {
      assert c !in p[1..] by {
        forall i | 0 <= i < |p[1..]| ensures p[1..][i] != c {
          assert p[1..][i] == p[i + 1];
        }
      }
      SplitPrefix(p[1..], c, rest);
      assert s[1..] == p[1..] + [c] + rest;
      assert s[0] == p[0];
      assert [p[0]] + p[1..] == p;
    }
  }

  /** JavaScript's `a < b` on strings: code-unit lexicographic order, with a
      proper prefix ordered first. This is the order `Array.prototype.sort`
      uses when no comparator is given. */
  predicate LexLess(a: string, b: string) {
    if |a| == 0 then |b| > 0
    else if |b| == 0 then false
    else if a[0] != b[0] then a[0] < b[0]
    else LexLess(a[1..], b[1..])
  }

  predicate LexLe(a: string, b: string) {
    a == b || LexLess(a, b)
  }

  lemma {:induction false} LexLessIrreflexive(a: string)
    ensures !LexLess(a, a)
  {
    if |a| > 0 {
      LexLessIrreflexive(a[1..]);
    }
  }

  lemma {:induction false} LexLessTotal(a: string, b: string)
    ensures a == b || LexLess(a, b) || LexLess(b, a)
  {
    if |a| > 0 && |b| > 0 && a[0] == b[0] {
      LexLessTotal(a[1..], b[1..]);
      if a[1..] == b[1..] {
        assert a == [a[0]] + a[1..] && b == [b[0]] + b[1..];
      }
    }
  }

  lemma {:induction false} LexLessAsymmetric(a: string, b: string)
    requires LexLess(a, b)
    ensures !LexLess(b, a)
  {
    if |a| > 0 && |b| > 0 && a[0] == b[0] {
      LexLessAsymmetric(a[1..], b[1..]);
    }
  }

  lemma {:induction false} LexLessTransitive(a: string, b: string, c: string)
    requires LexLess(a, b) && LexLess(b, c)
    ensures LexLess(a, c)
  {
    if |a| > 0 && |b| > 0 && |c| > 0 && a[0] == b[0] && b[0] == c[0] {
      LexLessTransitive(a[1..], b[1..], c[1..]);
    }
  }
}

=== FILE: time_offset.dfy ===
/** The `timeOffset` attribute of a VMAP 1.0 `AdBreak` element, resolved to
    seconds the way `parseTimeOffset` does it
    (src/videojs-vmap-clickyab.js:95-128).

    The result is a real number with three sentinel values: `0` for the
    preroll ("start"), `-1` for the postroll ("end") and `-100` for a value
    that cannot be read. Every pattern test is a prefix test: the source asks
    whether the first match of a regular expression starts at index 0. */
module TimeOffset {
  import opened Text
  import opened Wrappers

  const Start: real := 0.0
  const End: real := -1.0
  const Invalid: real := -100.0

  /** `time.search(/start/) === 0` */
  predicate StartForm(time: string) {
    "start" <= time
  }

  /** `time.search(/end/) === 0` */
  predicate EndForm(time: string) {
    "end" <= time
  }

  /** `time.search(/\d+%/) === 0`: the leading digit run is followed by '%'. */
  predicate PercentForm(time: string) {
    var d := LeadingDigits(time);
    0 < |d| < |time| && time[|d|] == '%'
  }

  /** `time.search(/\d+:\d+:\d+(.\d+|)/) === 0`: digits ':' digits ':' digit
      at the start; the optional group can always match empty. */
  predicate ClockForm(time: string) {
    var h := LeadingDigits(time);
    0 < |h| < |time| && time[|h|] == ':' &&
    var r := time[|h| + 1..];
    var m := LeadingDigits(r);
    0 < |m| && |m| + 1 < |r| && r[|m|] == ':' && IsDigit(r[|m| + 1])
  }

  /** `time.search(/#\d+/) === 0` */
  predicate PositionForm(time: string) {
    |time| >= 2 && time[0] == '#' && IsDigit(time[1])
  }

  /** The `k` of "#k": the digit run right after the '#'. */
  function Position(time: string): nat
    requires PositionForm(time)
  {
    ParseDigits(LeadingDigits(time[1..]))
  }

  /** The texts `parseTimeOffset` resolves to something other than -100. */
  predicate Recognised(time: string, breakCount: nat) {
    || StartForm(time)
    || EndForm(time)
    || PercentForm(time)
    || ClockForm(time)
    || (PositionForm(time) && 1 <= Position(time) <= breakCount)
  }

  /** A clock form has at least three digit runs, the first of which is the
      hours field. */
  lemma ClockFormRuns(time: string)
    requires ClockForm(time)
    ensures |DigitRuns(time)| >= 3
  {
    var h := LeadingDigits(time);
    var r := time[|h| + 1..];
    var m := LeadingDigits(r);
    var r2 := r[|m| + 1..];
    assert time == h + [':'] + r;
    DigitRunsOf(h, ':', r);
    assert r == m + [':'] + r2;
    DigitRunsOf(m, ':', r2);
    assert |r2| > 0 && IsDigit(r2[0]);
  }

  /** Seconds of "h:m:s[.f]" from the digit runs of the whole text: the
      fraction `f` is read as an integer count of milliseconds, and only when
      there are exactly four runs. */
  function ClockSeconds(runs: seq<string>): real
    requires |runs| >= 3
    requires forall i | 0 <= i < |runs| :: AllDigits(runs[i])
  {
    var whole := ParseDigits(runs[0]) * 3600 + ParseDigits(runs[1]) * 60 + ParseDigits(runs[2]);
    if |runs| == 4 then whole as real + ParseDigits(runs[3]) as real / 1000.0 else whole as real
  }

  /** Seconds of "n%": `(n / 100) * contentLength`. */
  function PercentSeconds(n: nat, contentLength: nat): (r: real)
    ensures r >= 0.0
  {
    (n as real / 100.0) * contentLength as real
  }

  /** Seconds of "#k": `((k / breakCount) / 100) * contentLength`. */
  function OrdinalSeconds(k: nat, breakCount: nat, contentLength: nat): (r: real)
    requires 1 <= k <= breakCount
    ensures r >= 0.0
  {
    ((k as real / breakCount as real) / 100.0) * contentLength as real
  }

  /** `parseTimeOffset(time, adBreakSize, contentLength)`. `contentLength`
      is the player's duration after `parseInt`, so a whole number of
      seconds. */
  function ParseTimeOffset(time: string, breakCount: nat, contentLength: nat): (r: real)
    ensures StartForm(time) ==> r == Start
    ensures r == End <==> !StartForm(time) && EndForm(time)
    ensures r == Invalid <==> !Recognised(time, breakCount)
    ensures r == Invalid || r == End || r >= 0.0
  {
    if StartForm(time) then Start
    else if EndForm(time) then End
    else if PercentForm(time) then PercentSeconds(ParseDigits(LeadingDigits(time)), contentLength)
    else if ClockForm(time) then
      ClockFormRuns(time);
      ClockSeconds(DigitRuns(time))
    else if PositionForm(time) then
      var position := Position(time);
      if position == 0 then Invalid
      else if position > breakCount then Invalid
      else OrdinalSeconds(position, breakCount, contentLength)
    else Invalid
  }

  /** "n%" is n hundredths of the content length; nothing bounds n by 100. */
  lemma PercentOffset(d: string, rest: string, breakCount: nat, contentLength: nat)
    requires |d| > 0 && AllDigits(d)
    ensures ParseTimeOffset(d + "%" + rest, breakCount, contentLength)
            == PercentSeconds(ParseDigits(d), contentLength)
  {
    var time := d + "%" + rest;
    PercentShape(time, d, rest);
    PercentAt(time, d, breakCount, contentLength);
  }

  /** "n%..." is a percent form, none of the earlier forms, and its leading
      digits are n. */
  lemma PercentShape(time: string, d: string, rest: string)
    requires |d| > 0 && AllDigits(d) && time == d + "%" + rest
    ensures PercentForm(time) && !StartForm(time) && !EndForm(time) && LeadingDigits(time) == d
  {
    assert time == d + ("%" + rest);
    LeadingDigitsOf(d, "%" + rest);
    assert time[|d|] == '%';
    assert IsDigit(time[0]);
  }

  /** `PercentOffset` for a text already known to be a percent form. */
  lemma PercentAt(time: string, d: string, breakCount: nat, contentLength: nat)
    requires PercentForm(time) && !StartForm(time) && !EndForm(time) && LeadingDigits(time) == d
    ensures ParseTimeOffset(time, breakCount, contentLength) == PercentSeconds(ParseDigits(d), contentLength)
  {
  }

  /** "h:m:s" is h*3600 + m*60 + s seconds. */
  lemma ClockOffset(h: string, m: string, s: string, breakCount: nat, contentLength: nat)
    requires |h| > 0 && AllDigits(h) && |m| > 0 && AllDigits(m) && |s| > 0 && AllDigits(s)
    ensures ParseTimeOffset(h + ":" + m + ":" + s, breakCount, contentLength)
            == (ParseDigits(h) * 3600 + ParseDigits(m) * 60 + ParseDigits(s)) as real
  {
    var time := h + ":" + m + ":" + s;
    ClockShape(h, m, s, "");
    assert time + "" == time;
    ClockResolves(time, breakCount, contentLength);
    ClockRuns(h, m, s);
  }

  /** "h:m:s.f" adds f/1000 seconds, f read as a whole number: "30.5" and
      "30.005" are both read with f = 5. */
  lemma ClockMillisOffset(h: string, m: string, s: string, f: string, breakCount: nat, contentLength: nat)
    requires |h| > 0 && AllDigits(h) && |m| > 0 && AllDigits(m) && |s| > 0 && AllDigits(s)
    requires |f| > 0 && AllDigits(f)
    ensures ParseTimeOffset(h + ":" + m + ":" + s + "." + f, breakCount, contentLength)
            == (ParseDigits(h) * 3600 + ParseDigits(m) * 60 + ParseDigits(s)) as real
               + ParseDigits(f) as real / 1000.0
  {
    ClockMillisFrom(h + ":" + m + ":" + s + "." + f, h, m, s, f, breakCount, contentLength);
  }

  /** `ClockMillisOffset` with the text given a name. */
  lemma ClockMillisFrom(time: string, h: string, m: string, s: string, f: string, breakCount: nat, contentLength: nat)
    requires |h| > 0 && AllDigits(h) && |m| > 0 && AllDigits(m) && |s| > 0 && AllDigits(s)
    requires |f| > 0 && AllDigits(f)
    requires time == h + ":" + m + ":" + s + "." + f
    ensures ParseTimeOffset(time, breakCount, contentLength)
            == (ParseDigits(h) * 3600 + ParseDigits(m) * 60 + ParseDigits(s)) as real
               + ParseDigits(f) as real / 1000.0
  {
    ClockMillisShape(h, m, s, f);
    ClockMillisRuns(h, m, s, f);
    ClockMillisAt(time, h, m, s, f, breakCount, contentLength);
  }

  lemma ClockMillisShape(h: string, m: string, s: string, f: string)
    requires |h| > 0 && AllDigits(h) && |m| > 0 && AllDigits(m) && |s| > 0 && AllDigits(s)
    ensures var time := h + ":" + m + ":" + s + "." + f;
            ClockForm(time) && !StartForm(time) && !EndForm(time) && !PercentForm(time)
  {
    ClockShape(h, m, s, "." + f);
    assert h + ":" + m + ":" + s + ("." + f) == h + ":" + m + ":" + s + "." + f;
  }

  /** `ClockMillisOffset` for a text already known to be a clock form with
      the four digit runs `h`, `m`, `s`, `f`. */
  lemma ClockMillisAt(time: string, h: string, m: string, s: string, f: string, breakCount: nat, contentLength: nat)
    requires AllDigits(h) && AllDigits(m) && AllDigits(s) && AllDigits(f)
    requires ClockForm(time) && !StartForm(time) && !EndForm(time) && !PercentForm(time)
    requires DigitRuns(time) == [h, m, s, f]
    ensures ParseTimeOffset(time, breakCount, contentLength)
            == (ParseDigits(h) * 3600 + ParseDigits(m) * 60 + ParseDigits(s)) as real
               + ParseDigits(f) as real / 1000.0
  {
    ClockResolves(time, breakCount, contentLength);
    ClockMillisCombine(time, DigitRuns(time), h, m, s, f, breakCount, contentLength);
  }

  /** The arithmetic of a four-run clock text. */
  lemma ClockMillisCombine(time: string, runs: seq<string>, h: string, m: string, s: string, f: string, breakCount: nat, contentLength: nat)
    requires runs == [h, m, s, f] && forall i | 0 <= i < |runs| :: AllDigits(runs[i])
    requires ParseTimeOffset(time, breakCount, contentLength) == ClockSeconds(runs)
    ensures ParseTimeOffset(time, breakCount, contentLength)
            == (ParseDigits(h) * 3600 + ParseDigits(m) * 60 + ParseDigits(s)) as real
               + ParseDigits(f) as real / 1000.0
  {
    ClockSecondsOfFour(runs);
  }

  lemma ClockSecondsOfFour(runs: seq<string>)
    requires |runs| == 4 && forall i | 0 <= i < 4 :: AllDigits(runs[i])
    ensures ClockSeconds(runs) == (ParseDigits(runs[0]) * 3600 + ParseDigits(runs[1]) * 60 + ParseDigits(runs[2])) as real
                                  + ParseDigits(runs[3]) as real / 1000.0
  {
  }

  /** A clock form that is not one of the earlier forms resolves through its
      digit runs. */
  lemma ClockResolves(time: string, breakCount: nat, contentLength: nat)
    requires ClockForm(time) && !StartForm(time) && !EndForm(time) && !PercentForm(time)
    ensures |DigitRuns(time)| >= 3
    ensures |DigitRuns(time)| >= 3 &&
            ParseTimeOffset(time, breakCount, contentLength) == ClockSeconds(DigitRuns(time))
  {
    ClockFormRuns(time);
  }

  lemma ClockRuns(h: string, m: string, s: string)
    requires |h| > 0 && AllDigits(h) && |m| > 0 && AllDigits(m) && |s| > 0 && AllDigits(s)
    ensures DigitRuns(h + ":" + m + ":" + s) == [h, m, s]
  {
    DigitRunsOfDigits(s);
    assert m + ":" + s == m + [':'] + s;
    DigitRunsOf(m, ':', s);
    assert h + ":" + m + ":" + s == h + [':'] + (m + ":" + s);
    DigitRunsOf(h, ':', m + ":" + s);
  }

  lemma ClockMillisRuns(h: string, m: string, s: string, f: string)
    requires |h| > 0 && AllDigits(h) && |m| > 0 && AllDigits(m) && |s| > 0 && AllDigits(s)
    requires |f| > 0 && AllDigits(f)
    ensures DigitRuns(h + ":" + m + ":" + s + "." + f) == [h, m, s, f]
  {
    var t1 := s + ['.'] + f;
    DigitRunsOfDigits(f);
    DigitRunsOf(s, '.', f);
    assert DigitRuns(t1) == [s, f];
    var t2 := m + [':'] + t1;
    DigitRunsOf(m, ':', t1);
    assert DigitRuns(t2) == [m, s, f];
    var t3 := h + [':'] + t2;
    DigitRunsOf(h, ':', t2);
    assert DigitRuns(t3) == [h, m, s, f];
    ClockMillisText(h, m, s, f);
  }

  /** The millisecond clock text, grouped from the right. */
  lemma ClockMillisText(h: string, m: string, s: string, f: string)
    ensures h + ":" + m + ":" + s + "." + f == h + [':'] + (m + [':'] + (s + ['.'] + f))
  {
    assert ":" == [':'] && "." == ['.'];
  }

  /** "h:m:s" followed by any text that does not continue the seconds: the
      tail adds milliseconds only when it holds exactly one more digit run,
      wherever that run stands ("0:1:30 x7" reads as 90.007 seconds), and
      nothing when it holds two or more ("0:1:30.5.7" reads as 90). */
  lemma ClockTailOffset(h: string, m: string, s: string, tail: string, breakCount: nat, contentLength: nat)
    requires |h| > 0 && AllDigits(h) && |m| > 0 && AllDigits(m) && |s| > 0 && AllDigits(s)
    requires |tail| == 0 || !IsDigit(tail[0])
    ensures var extra := DigitRuns(tail);
            ParseTimeOffset(h + ":" + m + ":" + s + tail, breakCount, contentLength)
            == (ParseDigits(h) * 3600 + ParseDigits(m) * 60 + ParseDigits(s)) as real
               + if |extra| == 1 then ParseDigits(extra[0]) as real / 1000.0 else 0.0
  {
    ClockTailFrom(h + ":" + m + ":" + s + tail, h, m, s, tail, breakCount, contentLength);
  }

  /** `ClockTailOffset` with the text given a name. */
  lemma ClockTailFrom(time: string, h: string, m: string, s: string, tail: string, breakCount: nat, contentLength: nat)
    requires |h| > 0 && AllDigits(h) && |m| > 0 && AllDigits(m) && |s| > 0 && AllDigits(s)
    requires |tail| == 0 || !IsDigit(tail[0])
    requires time == h + ":" + m + ":" + s + tail
    ensures var extra := DigitRuns(tail);
            ParseTimeOffset(time, breakCount, contentLength)
            == (ParseDigits(h) * 3600 + ParseDigits(m) * 60 + ParseDigits(s)) as real
               + if |extra| == 1 then ParseDigits(extra[0]) as real / 1000.0 else 0.0
  {
    ClockShape(h, m, s, tail);
    ClockTailRuns(time, h, m, s, tail);
    ClockTailAt(time, h, m, s, DigitRuns(tail), breakCount, contentLength);
  }

  /** `ClockTailOffset` for a text already known to be a clock form whose
      runs after the third are `extra`. */
  lemma ClockTailAt(time: string, h: string, m: string, s: string, extra: seq<string>, breakCount: nat, contentLength: nat)
    requires AllDigits(h) && AllDigits(m) && AllDigits(s)
    requires ClockForm(time) && !StartForm(time) && !EndForm(time) && !PercentForm(time)
    requires DigitRuns(time) == [h, m, s] + extra
    ensures |extra| == 1 ==> AllDigits(extra[0])
    ensures ParseTimeOffset(time, breakCount, contentLength)
            == (ParseDigits(h) * 3600 + ParseDigits(m) * 60 + ParseDigits(s)) as real
               + if |extra| == 1 then ParseDigits(extra[0]) as real / 1000.0 else 0.0
  {
    var runs := DigitRuns(time);
    ClockResolves(time, breakCount, contentLength);
    assert runs[0] == h && runs[1] == m && runs[2] == s;
    if |extra| == 1 { assert runs[3] == extra[0]; }
  }

  /** The digit runs of "h:m:s" and a tail that does not continue `s`. */
  lemma ClockTailRuns(time: string, h: string, m: string, s: string, tail: string)
    requires |h| > 0 && AllDigits(h) && |m| > 0 && AllDigits(m) && |s| > 0 && AllDigits(s)
    requires |tail| == 0 || !IsDigit(tail[0])
    requires time == h + ":" + m + ":" + s + tail
    ensures DigitRuns(time) == [h, m, s] + DigitRuns(tail)
  {
    var t1 := s + tail;
    SecondsTailRuns(s, tail);
    var t2 := m + [':'] + t1;
    DigitRunsOf(m, ':', t1);
    DigitRunsOf(h, ':', t2);
    ThreeInFront(h, m, s, DigitRuns(tail));
    ClockTailText(h, m, s, tail);
  }

  lemma ThreeInFront(a: string, b: string, c: string, rest: seq<string>)
    ensures [a] + ([b] + ([c] + rest)) == [a, b, c] + rest
  {
  }

  /** The seconds field and a tail that does not continue it. */
  lemma SecondsTailRuns(s: string, tail: string)
    requires |s| > 0 && AllDigits(s)
    requires |tail| == 0 || !IsDigit(tail[0])
    ensures DigitRuns(s + tail) == [s] + DigitRuns(tail)
  {
    if |tail| == 0 {
      DigitRunsOfDigits(s);
      assert s + tail == s;
    } else {
      SecondsThenSeparator(s + tail, s, tail[0], tail[1..]);
      assert tail == [tail[0]] + tail[1..];
      SeparatorRuns(tail, tail[0], tail[1..]);
    }
  }

  lemma SecondsThenSeparator(text: string, s: string, c: char, rest: string)
    requires |s| > 0 && AllDigits(s) && !IsDigit(c)
    requires text == s + ([c] + rest)
    ensures DigitRuns(text) == [s] + DigitRuns(rest)
  {
    assert text == s + [c] + rest;
    DigitRunsOf(s, c, rest);
  }

  /** A leading non-digit contributes no run. */
  lemma SeparatorRuns(text: string, c: char, rest: string)
    requires !IsDigit(c) && text == [c] + rest
    ensures DigitRuns(text) == DigitRuns(rest)
  {
    assert text[1..] == rest;
  }

  /** The clock text with a tail, grouped from the right. */
  lemma ClockTailText(h: string, m: string, s: string, tail: string)
    ensures h + ":" + m + ":" + s + tail == h + [':'] + (m + [':'] + (s + tail))
  {
    assert ":" == [':'];
  }

  /** The shared part of the clock lemmas: "h:m:s..." is a clock form and is
      neither "start" nor "end" nor a percentage. */
  lemma ClockShape(h: string, m: string, s: string, tail: string)
    requires |h| > 0 && AllDigits(h) && |m| > 0 && AllDigits(m) && |s| > 0 && AllDigits(s)
    ensures var time := h + ":" + m + ":" + s + tail;
            ClockForm(time) && !StartForm(time) && !EndForm(time) && !PercentForm(time)
  {
    var time := h + ":" + m + ":" + s + tail;
    var r := m + ":" + s + tail;
    assert time == h + (":" + r);
    LeadingDigitsOf(h, ":" + r);
    assert time[|h|] == ':';
    assert time[|h| + 1..] == r;
    assert r == m + (":" + s + tail);
    LeadingDigitsOf(m, ":" + s + tail);
    assert r[|m|] == ':' && r[|m| + 1] == s[0];
    assert IsDigit(time[0]);
  }

  /** "#k" with 1 <= k <= breakCount is (k/breakCount)/100 of the content
      length; "#0" and "#k" beyond the number of breaks are invalid. */
  lemma PositionOffset(d: string, rest: string, breakCount: nat, contentLength: nat)
    requires |d| > 0 && AllDigits(d)
    requires |rest| == 0 || !IsDigit(rest[0])
    ensures var k := ParseDigits(d);
            ParseTimeOffset("#" + d + rest, breakCount, contentLength)
            == if k == 0 || k > breakCount then Invalid
               else OrdinalSeconds(k, breakCount, contentLength)
  {
    var time := "#" + d + rest;
    var tail := d + rest;
    assert time == ['#'] + tail;
    assert time[1..] == tail;
    LeadingDigitsOf(d, rest);
    PositionShape(time);
    assert Position(time) == ParseDigits(d);
  }

  /** Text starting with '#' and a digit is a position form and none of the
      forms tested before it. */
  lemma PositionShape(time: string)
    requires |time| >= 2 && time[0] == '#' && IsDigit(time[1])
    ensures PositionForm(time)
    ensures !StartForm(time) && !EndForm(time) && !PercentForm(time) && !ClockForm(time)
  {
    assert LeadingDigits(time) == "";
    assert !StartForm(time) by {
      assert time[0] != "start"[0];
    }
    assert !EndForm(time) by {
      assert time[0] != "end"[0];
    }
  }

  /** With the content length still 0 (the player reports no duration before
      playback starts), every percentage and every valid "#k" resolves to 0,
      the preroll sentinel. */
  lemma ZeroLengthCollidesWithStart(time: string, breakCount: nat)
    requires !StartForm(time) && !EndForm(time)
    requires PercentForm(time) || (PositionForm(time) && 1 <= Position(time) <= breakCount)
    ensures ParseTimeOffset(time, breakCount, 0) == Start
  {
  }

  /** The offset syntaxes VMAP 1.0 defines for `timeOffset`, as values. */
  datatype OffsetExpr =
    | AtStart
    | AtEnd
    | Percent(n: nat)
    | Clock(hours: nat, minutes: nat, seconds: nat, millis: Option<nat>)
    | Ordinal(k: nat)

  /** The attribute text for an offset expression. */
  function Format(e: OffsetExpr): string {
    match e
    case AtStart => "start"
    case AtEnd => "end"
    case Percent(n) => Decimal(n) + "%"
    case Clock(h, m, s, None) => Decimal(h) + ":" + Decimal(m) + ":" + Decimal(s)
    case Clock(h, m, s, Some(f)) => Decimal(h) + ":" + Decimal(m) + ":" + Decimal(s) + "." + Decimal(f)
    case Ordinal(k) => "#" + Decimal(k)
  }

  /** What each expression means in seconds, with the plugin's sentinels. */
  function Meaning(e: OffsetExpr, breakCount: nat, contentLength: nat): real {
    match e
    case AtStart => Start
    case AtEnd => End
    case Percent(n) => PercentSeconds(n, contentLength)
    case Clock(h, m, s, None) => (h * 3600 + m * 60 + s) as real
    case Clock(h, m, s, Some(f)) => (h * 3600 + m * 60 + s) as real + f as real / 1000.0
    case Ordinal(k) =>
      if k == 0 || k > breakCount then Invalid
      else OrdinalSeconds(k, breakCount, contentLength)
  }

  /** Parsing the text of an expression gives its meaning. */
  lemma ParseFormat(e: OffsetExpr, breakCount: nat, contentLength: nat)
    ensures ParseTimeOffset(Format(e), breakCount, contentLength) == Meaning(e, breakCount, contentLength)
  {
    match e
    case AtStart =>
    case AtEnd =>
    case Percent(n) =>
      DecimalRoundTrip(n);
      PercentOffset(Decimal(n), "", breakCount, contentLength);
      assert Decimal(n) + "%" + "" == Decimal(n) + "%";
    case Clock(h, m, s, None) =>
      DecimalRoundTrip(h);
      DecimalRoundTrip(m);
      DecimalRoundTrip(s);
      ClockOffset(Decimal(h), Decimal(m), Decimal(s), breakCount, contentLength);
    case Clock(h, m, s, Some(f)) =>
      DecimalRoundTrip(h);
      DecimalRoundTrip(m);
      DecimalRoundTrip(s);
      DecimalRoundTrip(f);
      ClockMillisOffset(Decimal(h), Decimal(m), Decimal(s), Decimal(f), breakCount, contentLength);
    case Ordinal(k) =>
      DecimalRoundTrip(k);
      PositionOffset(Decimal(k), "", breakCount, contentLength);
      assert "#" + Decimal(k) + "" == "#" + Decimal(k);
  }

  /** "0:1:30.5" is 90.005 seconds, not 90.5: the fraction is read as a
      whole number of milliseconds. */
  lemma ExampleClock()
    ensures ParseTimeOffset("0:1:30.5", 4, 100) == 90.005
  {
    ExampleClockFields();
    ClockMillisOffset("0", "1", "30", "5", 4, 100);
    ExampleClockText();
  }

  lemma ExampleClockText()
    ensures "0" + ":" + "1" + ":" + "30" + "." + "5" == "0:1:30.5"
  {
  }

  lemma ExampleClockFields()
    ensures ParseDigits("0") == 0 && ParseDigits("1") == 1 && ParseDigits("30") == 30 && ParseDigits("5") == 5
  {
    ParseTwoDigits('3', '0');
    assert ParseDigits("0") == 0;
    assert ParseDigits("1") == 1;
    assert ParseDigits("5") == 5;
  }

  /** "50%" of 120 seconds is 60 seconds. */
  lemma ExamplePercent()
    ensures ParseTimeOffset("50%", 4, 120) == 60.0
  {
    ParseTwoDigits('5', '0');
    PercentOffset("50", "", 4, 120);
    assert "50" + "%" + "" == "50%";
  }

  /** Of four breaks, "#1" and "#4" resolve, "#0" and "#5" do not. */
  lemma ExamplePositions()
    ensures ParseTimeOffset("#1", 4, 100) == 0.25
    ensures ParseTimeOffset("#4", 4, 100) == 1.0
    ensures ParseTimeOffset("#0", 4, 100) == Invalid
    ensures ParseTimeOffset("#5", 4, 100) == Invalid
  {
    ExamplePosition('1');
    ExamplePosition('4');
    ExamplePosition('0');
    ExamplePosition('5');
  }

  /** "#k" for a single digit k, over four breaks and 100 seconds. */
  lemma ExamplePosition(c: char)
    requires IsDigit(c)
    ensures var k := DigitValue(c);
            ParseTimeOffset(['#', c], 4, 100) == if k == 0 || k > 4 then Invalid else OrdinalSeconds(k, 4, 100)
  {
    assert [c][..0] == [];
    assert ParseDigits([c]) == DigitValue(c);
    PositionOffset([c], "", 4, 100);
    assert "#" + [c] + "" == ['#', c];
  }
}

=== FILE: url.dfy ===
/** The URL handling of the scheduler: the two fields of the parsed VMAP
    request that are pure functions of the browser's anchor (`segments` and
    `params`, src/videojs-vmap-clickyab.js:148-167) and `mergeURL`
    (src/videojs-vmap-clickyab.js:177-201), which turns a relative ad tag
    into an absolute URL next to the VMAP document.

    The anchor's own resolution of a URL (protocol, host, port, pathname,
    search) is done by the browser and is taken as given. */
module Url {
  import opened Text
  import opened Wrappers

  /** The fields of `parseURL(settings.requestUrl)` that `mergeURL` reads,
      plus the two strings the derived fields come from. `protocol` is
      already lower-case and without its ':'. */
  datatype Request = Request(
    protocol: string,
    host: string,
    port: string,      // "" when the URL names no port
    pathname: string,  // the anchor's `pathname`, e.g. "/ads/vmap.xml"
    search: string)    // the anchor's `search`, e.g. "?uid=1&cid=2"

  /** `s.replace(/^c/, '')`: drops one leading `c`. */
  function DropLeading(s: string, c: char): (r: string)
    ensures |s| > 0 && s[0] == c ==> [c] + r == s
    ensures (|s| == 0 || s[0] != c) ==> r == s
  {
    if |s| > 0 && s[0] == c then s[1..] else s
  }

  /** `a.pathname.replace(/^\//, '').split('/')` */
  function Segments(pathname: string): (segs: seq<string>)
    ensures |segs| >= 1
    ensures forall i | 0 <= i < |segs| :: '/' !in segs[i]
  {
    Split(DropLeading(pathname, '/'), '/')
  }

  /** The path `mergeURL` puts in front of a relative tag: "/" and then every
      request segment but the last, each followed by "/". */
  function DirectoryPrefix(segs: seq<string>): (dir: string)
    requires |segs| >= 1
    ensures |dir| > 0 && dir[0] == '/' && dir[|dir| - 1] == '/'
  {
    "/" + Directories(segs[..|segs| - 1])
  }

  /** Every segment followed by "/", in order. */
  function Directories(segs: seq<string>): string {
    if |segs| == 0 then "" else Directories(segs[..|segs| - 1]) + segs[|segs| - 1] + "/"
  }

  /** `protocol://host[:port]`: the port part is left out when the request
      names no port. */
  function Origin(req: Request): (o: string)
    ensures req.port == "" ==> o == req.protocol + "://" + req.host
    ensures req.port != "" ==> o == req.protocol + "://" + req.host + ":" + req.port
  {
    if req.port == "" then req.protocol + "://" + req.host
    else req.protocol + "://" + req.host + ":" + req.port
  }

  /** `mergeURL(tagURI, requestUrl)`, where `tagProtocol` is the protocol the
      browser resolves `tagURI` to: "file" for a relative reference in a
      page loaded from the file system (the app-based players the function
      was written for). */
  function MergeUrl(tagUri: string, tagProtocol: string, req: Request): (url: string)
    // any other protocol: the tag is used as it is
    ensures tagProtocol != "file" ==> url == tagUri
    // a root-relative tag is put on the request's origin
    ensures tagProtocol == "file" && "/" <= tagUri ==> url == Origin(req) + tagUri
    // a path-relative tag is put in the request's directory
    ensures tagProtocol == "file" && !("/" <= tagUri) ==>
              url == Origin(req) + DirectoryPrefix(Segments(req.pathname)) + tagUri
  {
    if tagProtocol == "file" then
      var source := if "/" <= tagUri then tagUri else DirectoryPrefix(Segments(req.pathname)) + tagUri;
      Origin(req) + source
    else tagUri
  }

  /** The directories of some segments followed by the last segment is the
      segments joined with "/". */
  lemma {:induction false} DirectoriesJoin(segs: seq<string>)
    requires |segs| >= 1
    ensures Directories(segs[..|segs| - 1]) + segs[|segs| - 1] == Join(segs, '/')
  {
    if |segs| > 1 {
      var tail := segs[1..];
      DirectoriesJoin(tail);
      DirectoriesCons(segs[0], tail[..|tail| - 1]);
      assert segs[..|segs| - 1] == [segs[0]] + tail[..|tail| - 1];
      assert segs[|segs| - 1] == tail[|tail| - 1];
    }
  }

  /** Directories of a sequence with a new first segment. */
  lemma {:induction false} DirectoriesCons(head: string, segs: seq<string>)
    ensures Directories([head] + segs) == head + "/" + Directories(segs)
  {
    if |segs| == 0 {
      assert [head] + segs == [head];
      assert [head][..0] == [];
    } else {
      var init := segs[..|segs| - 1];
      DirectoriesCons(head, init);
      assert ([head] + segs)[..|[head] + segs| - 1] == [head] + init;
    }
  }

  /** For a pathname that starts with "/", the directory prefix followed by
      the last segment gives the pathname back: a path-relative tag named
      like the request's file resolves to the request's own path. */
  lemma DirectoryOfPathname(pathname: string)
    requires |pathname| > 0 && pathname[0] == '/'
    ensures var segs := Segments(pathname);
            DirectoryPrefix(segs) + segs[|segs| - 1] == pathname
  {
    var rest := pathname[1..];
    var segs := Segments(pathname);
    assert segs == Split(rest, '/');
    DirectoriesJoin(segs);
    JoinSplit(rest, '/');
    assert pathname == "/" + rest;
  }

  /** A relative tag is resolved to the request's origin and directory, and
      the result keeps the tag text at its end. */
  lemma MergeUrlRelative(tagUri: string, req: Request)
    ensures var url := MergeUrl(tagUri, "file", req);
            && Origin(req) <= url
            && |tagUri| <= |url|
            && url[|url| - |tagUri|..] == tagUri
  {
    var url := MergeUrl(tagUri, "file", req);
    var source := if "/" <= tagUri then tagUri else DirectoryPrefix(Segments(req.pathname)) + tagUri;
    assert url == Origin(req) + source;
    assert url[..|Origin(req)|] == Origin(req);
    assert url[|url| - |tagUri|..] == tagUri;
  }

  /** A path-relative tag replaces the request's file name: the merged URL
      is the origin, the request's pathname up to and including its last
      '/', and the tag. */
  lemma MergeUrlPathRelative(tagUri: string, req: Request)
    requires |req.pathname| > 0 && req.pathname[0] == '/' && !("/" <= tagUri)
    ensures var segs := Segments(req.pathname);
            '/' !in segs[|segs| - 1] && |segs[|segs| - 1]| < |req.pathname|
    ensures var segs := Segments(req.pathname);
            var file := segs[|segs| - 1];
            var dir := req.pathname[..|req.pathname| - |file|];
            && dir[|dir| - 1] == '/'
            && req.pathname == dir + file
            && MergeUrl(tagUri, "file", req) == Origin(req) + dir + tagUri
  {
    var segs := Segments(req.pathname);
    DirectoryOfPathname(req.pathname);
    var prefix := DirectoryPrefix(segs);
    assert req.pathname[..|req.pathname| - |segs[|segs| - 1]|] == prefix;
  }

  /** `a.search.replace(/^\?/, '').split('&')` */
  function QueryPieces(search: string): (pieces: seq<string>)
    ensures |pieces| >= 1
  {
    Split(DropLeading(search, '?'), '&')
  }

  /** The key and value of one "k=v" piece: the first two pieces of
      `split('=')`; with no '=' the value is `undefined`. Anything after a
      second '=' is dropped. */
  function Binding(piece: string): (string, Option<string>) {
    var s := Split(piece, '=');
    (s[0], if |s| > 1 then Some(s[1]) else None)
  }

  /** A piece without '=' is a key whose value is `undefined`. */
  lemma BindingWithoutValue(piece: string)
    requires '=' !in piece
    ensures Binding(piece) == (piece, None)
  {
    SplitNoSeparator(piece, '=');
  }

  /** "k=v" binds `k` to `v`. */
  lemma BindingWithValue(k: string, v: string)
    requires '=' !in k && '=' !in v
    ensures Binding(k + "=" + v) == (k, Some(v))
  {
    SplitPrefix(k, '=', v);
    assert k + "=" + v == k + ['='] + v;
    SplitNoSeparator(v, '=');
  }

  /** The reference reading of a query: the value of `key` comes from the
      last non-empty piece whose key it is. */
  function LastBinding(pieces: seq<string>, key: string): (v: Option<Option<string>>)
    ensures v.None? <==> forall i | 0 <= i < |pieces| :: pieces[i] == "" || Binding(pieces[i]).0 != key
  {
    if |pieces| == 0 then None
    else
      var p := pieces[|pieces| - 1];
      if p != "" && Binding(p).0 == key then Some(Binding(p).1)
      else
        var v := LastBinding(pieces[..|pieces| - 1], key);
        assert forall i | 0 <= i < |pieces| - 1 :: pieces[..|pieces| - 1][i] == pieces[i];
        v
  }

  /** The `params` loop (lines 149-162): skip empty pieces, and let each
      piece's binding overwrite an earlier one with the same key. */
  method Params(search: string) returns (ret: map<string, Option<string>>)
    ensures forall key :: key in ret <==> LastBinding(QueryPieces(search), key).Some?
    ensures forall key | key in ret :: ret[key] == LastBinding(QueryPieces(search), key).value
  {
    var seg := QueryPieces(search);
    ret := map[];
    var i := 0;
    while i < |seg|
      invariant 0 <= i <= |seg|
      invariant forall key :: key in ret <==> LastBinding(seg[..i], key).Some?
      invariant forall key | key in ret :: ret[key] == LastBinding(seg[..i], key).value
    {
      assert seg[..i + 1][..i] == seg[..i];
      if seg[i] != "" {
        var s := Binding(seg[i]);
        ret := ret[s.0 := s.1];
      }
      i := i + 1;
    }
    assert seg[..|seg|] == seg;
  }

  /** The query of a typical VMAP request. */
  lemma ExampleQuery()
    ensures QueryPieces("?uid=1&&cid") == ["uid=1", "", "cid"]
    ensures Binding("uid=1") == ("uid", Some("1"))
    ensures Binding("cid") == ("cid", None)
  {
    ExampleQueryPieces();
    BindingWithValue("uid", "1");
    assert "uid" + "=" + "1" == "uid=1";
    BindingWithoutValue("cid");
  }

  lemma ExampleQueryPieces()
    ensures QueryPieces("?uid=1&&cid") == ["uid=1", "", "cid"]
  {
    var q := "uid=1&&cid";
    assert DropLeading("?uid=1&&cid", '?') == q;
    SplitNoSeparator("cid", '&');
    SplitPrefix("", '&', "cid");
    assert "" + "&" + "cid" == "&cid";
    SplitPrefix("uid=1", '&', "&cid");
    assert "uid=1" + "&" + "&cid" == q;
  }

  lemma ExampleSegments()
    ensures Segments("/v/m.xml") == ["v", "m.xml"]
    ensures DirectoryPrefix(["v", "m.xml"]) == "/v/"
  {
    ExampleSplit();
    ExampleDirectory();
  }

  lemma ExampleSplit()
    ensures Segments("/v/m.xml") == ["v", "m.xml"]
  {
    assert DropLeading("/v/m.xml", '/') == "v/m.xml";
    SplitNoSeparator("m.xml", '/');
    SplitPrefix("v", '/', "m.xml");
    assert "v" + "/" + "m.xml" == "v/m.xml";
  }

  lemma ExampleDirectory()
    ensures DirectoryPrefix(["v", "m.xml"]) == "/v/"
  {
    assert ["v", "m.xml"][..1] == ["v"];
    assert ["v"][..0] == [];
    assert Directories(["v"]) == "" + "v" + "/";
  }

  /** A relative tag "t.xml" next to the manifest "http://a.io/v/m.xml"
      goes into the manifest's directory. */
  lemma ExampleMergeRelative()
    ensures MergeUrl("t.xml", "file", Request("http", "a.io", "", "/v/m.xml", "")) == "http://a.io" + "/v/" + "t.xml"
  {
    ExampleOrigin(Request("http", "a.io", "", "/v/m.xml", ""));
    assert "t.xml"[0] != "/"[0];
    ExampleSegments();
  }

  lemma ExampleOrigin(req: Request)
    requires req == Request("http", "a.io", "", "/v/m.xml", "")
    ensures Origin(req) == "http://a.io"
  {
    assert "http" + "://" + "a.io" == "http://a.io";
  }

  /** A root-relative tag keeps its path; with no port there is no ':'. */
  lemma ExampleMergeRootRelative()
    ensures MergeUrl("/t.xml", "file", Request("http", "a.io", "", "/v/m.xml", "")) == "http://a.io/t.xml"
  {
    assert "/" <= "/t.xml";
    assert "http" + "://" + "a.io" + "/t.xml" == "http://a.io/t.xml";
  }
}

=== FILE: wrappers.dfy ===
/** Option type standing in for JavaScript's `undefined`/`null` where the
    plugin distinguishes "no value" from a value. */
module Wrappers {

  datatype Option<+T> = None | Some(value: T) {

    /** Returns the carried value, or `default` when there is none. */
    function GetOr(default: T): T {
      match this
      case Some(v) => v
      case None => default
    }
  }
}
